=== FILE: README.md ===
# llmkira history store and channel plugins, modelled in Dafny

This project models four parts of the llmkira chat bot and proves properties about them.

- **The interaction-history store** (`HistoryManager`). Each request/response pair is a `HistoryEntry`
  stored under `entry:{task_id}` in a string-keyed key-value backend. The backend prefixes every key
  with `kv:history:`. Two indexes point at the entries: one per user and platform
  (`user:{platform}:{user_id}`) and one global (`global:all`). An index is a list of
  `(task_id, timestamp)` records. It is kept sorted newest first by a stable sort and is capped at
  1000 records. Reads take a window `[offset:offset + limit]` of an index and resolve each record to
  its entry, skipping the records whose entry is gone. Search picks an index, then filters by time
  and platform, stopping after `limit` matches.
  - The backend is the field `store: map<string, string>` of the class `HistoryManager`.
  - A backend operation that raises is modelled by a parameter `failing`: the set of keys whose
    operations raise.
  - Expiry is a method that deletes arbitrary keys.
  - JSON is replaced by a canonical, self-delimiting text encoding (module `Codec`). It is proved to
    be a bijection between values and the texts the reader accepts. Any other text is malformed.
- **The deep-research plugin.**
  - `chunk_message` splits a long reply into chunks: paragraphs first, then sentences for a
    paragraph that is too long. The chunks are at most 1900 characters long when no sentence
    of an over-long paragraph is longer than that. A sentence that is still longer than the
    limit after stripping is kept whole, as one chunk over the limit. A blank leading paragraph
    yields an empty first chunk.
  - The channel hook turns each long message into numbered "Part k/n" messages.
  - Also modelled: the keyword trigger and the prompt built from the requested depth.
- **The channel-handler plugin.**
  - The configuration table, keyed by channel id. It is a class holding a map plus the order in
    which the ids were first inserted, as a Python `dict` keeps them.
  - The ordered decision whether to answer a message, `channel_trigger`.
  - The processing hook. It decorates the messages of an array in place and copies the channel
    settings into the keyword arguments.
  - The configuration tool and its keyword trigger.
- **The RSS-reader plugin.**
  - The subscription table.
  - The fetch loop: it delivers new, recent entries as articles and records their ids as seen.
  - The message formatter and the keyword trigger.

Modules: `Wrappers` (Option), `Strings` (Python string operations used by the plugins), `Lists`
(Python slicing, `map`, ordered-key helpers), `Codec`, `History`, `Messages` (the chat message
record), `DeepResearch`, `ChannelHandler` and `RssReader`.

## Model

| member | source | states |
|---|---|---|
| History.Prefix | llmkira/kv_manager/history.py:40-42 | the backend key is the 11-character `kv:history:` followed by the logical key |
| History.PrefixInjective | llmkira/kv_manager/history.py:40-42 | distinct logical keys never share a backend key |
| History.KeysDistinct | llmkira/kv_manager/history.py:53-66 | an entry key, a user index key and the global index key never coincide, before or after prefixing |
| History.EntryRoundTrip | llmkira/kv_manager/history.py:53-58 | reading back the stored form of an entry gives the same entry (`from_dict(json.loads(json.dumps(to_dict(e)))) == e`) |
| History.EntryCanonical | llmkira/kv_manager/history.py:113-116 | every text that reads back as an entry is exactly the stored form of that entry |
| History.EntryNonEmpty | llmkira/kv_manager/history.py:113-117 | a stored entry is never the empty text, which `get_entry` would treat as missing |
| History.IndexRoundTrip | llmkira/kv_manager/history.py:81-101 | an index written back by `_add_to_index` reads back as the same list of records, and is never empty text |
| History.RecordsRoundTrip | llmkira/kv_manager/history.py:83-99 | a list of records followed by any text reads back as those records, leaving that text unread |
| History.InsertPos | llmkira/kv_manager/history.py:91 | the insertion point lies after every record at least as new as the inserted one, and before the first strictly older one |
| History.InsertShape | llmkira/kv_manager/history.py:91 | one insertion step puts the record at `InsertPos` and keeps everything else in order |
| History.InsertMultiset | llmkira/kv_manager/history.py:91 | an insertion step adds exactly the inserted record |
| History.InsertSorted | llmkira/kv_manager/history.py:91 | inserting into a newest-first list keeps it newest first |
| History.InsertStable | llmkira/kv_manager/history.py:91 | inserting keeps each group of equal timestamps in order, with the new record last in its group |
| History.SortDescSorted | llmkira/kv_manager/history.py:91 | `sort(key=timestamp, reverse=True)` yields a newest-first list of the same length |
| History.SortDescPermutation | llmkira/kv_manager/history.py:91 | the sort is a permutation of its input |
| History.SortDescStable | llmkira/kv_manager/history.py:91 | records with equal timestamps keep their relative order, as Python's sort is stable |
| History.SortDescOfSorted | llmkira/kv_manager/history.py:91 | sorting an already newest-first list returns it unchanged |
| History.WithRecordSortedAndBounded | llmkira/kv_manager/history.py:81-94 | the updated index is newest first and holds `min(old length + 1, 1000)` records; a missing index counts as empty |
| History.WithRecordOnSorted | llmkira/kv_manager/history.py:88-94 | on a sorted index, the update is the first 1000 of the old index with the new record placed after every record at least as new as it |
| History.NewestGoesFirst | llmkira/kv_manager/history.py:88-94 | a record newer than every record of a sorted index becomes its first record |
| History.EvictsOldest | llmkira/kv_manager/history.py:88-94 | kept plus dropped records are exactly the old index plus the new record, and every kept record is at least as new as every dropped one |
| History.AddToIndexEffect | llmkira/kv_manager/history.py:79-104 | an index update either leaves the store unchanged (the backend raised, or the stored index is unreadable) or makes the index read back as the updated one; no other key changes |
| History.SaveStoresEntry | llmkira/kv_manager/history.py:53-66 | after the entry write, `get_entry(task_id)` returns the saved entry, whatever the two index updates did |
| History.SaveKeepsOtherKeys | llmkira/kv_manager/history.py:53-66 | a save changes only the entry key and the two index keys |
| History.LookupEntryMeaning | llmkira/kv_manager/history.py:112-121 | `get_entry` returns `e` exactly when the text under the entry key is the stored form of `e`; a missing, empty or malformed value gives `None` |
| History.SomesShape | llmkira/kv_manager/history.py:151-155 | collecting the present values keeps at most one per option, and all of them in order when none is missing |
| History.HydrateShape | llmkira/kv_manager/history.py:151-155 | resolving records yields at most one entry per record, and exactly the stored entries in index order when none dangles |
| History.HydrateConcat | llmkira/kv_manager/history.py:151-155 | resolving two runs of records gives the entries of the first run followed by those of the second |
| History.HydrateSnoc | llmkira/kv_manager/history.py:152-155 | one more record appends its entry if it has one, and nothing otherwise |
| History.HydrateHead | llmkira/kv_manager/history.py:152-155 | a record whose entry is stored contributes that entry first |
| History.PageBound | llmkira/kv_manager/history.py:148-157 | a page never holds more entries than a non-negative `limit`, whatever the offset |
| History.PagesTile | llmkira/kv_manager/history.py:148 | two consecutive pages read the same entries as the one page spanning both |
| History.ReadsAreLocal | llmkira/kv_manager/history.py:140-153 | an index read and an entry lookup depend only on the keys they name |
| History.MatchingConcat | llmkira/kv_manager/history.py:223-232 | filtering distributes over concatenation, so matches keep source order |
| History.MatchingSound | llmkira/kv_manager/history.py:223-232 | every entry kept by the filter is in the source and passes every filter |
| History.MatchingSnoc | llmkira/kv_manager/history.py:224-232 | one more entry is appended exactly when it passes the filters |
| History.MatchingTake | llmkira/kv_manager/history.py:232-235 | stopping at the `cap`-th match or at the end keeps the first `cap` matches of the whole source |
| History.KeepMatching | llmkira/kv_manager/history.py:223-237 | the filter loop with its early `break` returns the first `max(limit, 1)` matches of the entries, in order |
| History.SearchResultSound | llmkira/kv_manager/history.py:216-237 | a search returns at most `limit` entries for a non-negative `limit`, each from the chosen source and each passing the time and platform filters |
| History.HistoryManager.constructor | llmkira/kv_manager/history.py:37-42 | a new manager sees an empty backend |
| History.HistoryManager.SaveEntry | llmkira/kv_manager/history.py:44-72 | returns true iff the entry write does not raise; on false nothing changes; on true the store is the entry write followed by both index updates, with index failures swallowed, and `get_entry` returns the entry |
| History.HistoryManager.AddToIndex | llmkira/kv_manager/history.py:74-104 | read, append, stable sort newest first, keep 1000, write back; a raising backend or an unreadable index leaves the store as it was |
| History.HistoryManager.GetEntry | llmkira/kv_manager/history.py:106-121 | returns the decoded entry stored under `entry:{task_id}`, and `None` when it is missing, empty or malformed |
| History.HistoryManager.ReadPage | llmkira/kv_manager/history.py:140-157 | returns `[]` for a missing, empty or malformed index, else the entries of `index[offset:offset + limit]` with dangling records skipped |
| History.HistoryManager.ReadEntries | llmkira/kv_manager/history.py:151-157 | the loop over a window calls `get_entry` on each record in order and appends the hits |
| History.HistoryManager.GetUserHistory | llmkira/kv_manager/history.py:123-161 | the page of the user's index, with at most `limit` entries |
| History.HistoryManager.GetGlobalHistory | llmkira/kv_manager/history.py:163-197 | the page of the global index, with at most `limit` entries |
| History.HistoryManager.SearchHistory | llmkira/kv_manager/history.py:199-237 | reads the user page when both user and platform are truthy, else the global page of `2 * limit`; returns the first matches, at most `limit` of them, each passing every filter |
| History.HistoryManager.Expire | llmkira/kv_manager/history.py:54-58 | time-to-live expiry deletes the given keys; entries whose keys survive read as before |
| History.PageStartsWith | llmkira/kv_manager/history.py:148-155 | a page from offset 0 of an index whose first record names a stored entry begins with that entry |
| History.NewestListedFirst | llmkira/kv_manager/history.py:88-94 | adding the record of an entry newer than all of a sorted index puts that entry first in the index's pages |
| History.GlobalUpdateKeepsEntries | llmkira/kv_manager/history.py:65-66 | updating the global index changes no entry lookup |
| History.GlobalUpdateKeepsPages | llmkira/kv_manager/history.py:65-66 | updating the global index changes no page of any other index |
| History.SavedEntryListedFirst | llmkira/kv_manager/history.py:53-66 | saving an entry newer than everything in sorted indexes lists it first in its user's history and in the global history |
| Codec.NatRoundTrip | llmkira/kv_manager/history.py:24-25 | a natural number followed by any text reads back as that number, leaving the text unread |
| Codec.StrRoundTrip | llmkira/kv_manager/history.py:16-22 | a string field reads back as written, leaving what follows unread |
| Codec.StrCanonical | llmkira/kv_manager/history.py:16-22 | every text read as a string field is that field's written form followed by the rest |
| Codec.IntRoundTrip | llmkira/kv_manager/history.py:17 | an integer field, negative ones included, reads back as written |
| Codec.IntCanonical | llmkira/kv_manager/history.py:17 | every text read as an integer is its written form followed by the rest |
| Codec.OptStrRoundTrip | llmkira/kv_manager/history.py:23 | an optional string reads back as written, `None` included |
| Codec.OptStrCanonical | llmkira/kv_manager/history.py:23 | every text read as an optional string is its written form followed by the rest |
| Codec.OptIntRoundTrip | llmkira/kv_manager/history.py:25 | an optional integer reads back as written, `None` included |
| Codec.OptIntCanonical | llmkira/kv_manager/history.py:25 | every text read as an optional integer is its written form followed by the rest |
| Codec.StrsRoundTrip | llmkira/kv_manager/history.py:24 | a list of strings reads back as written |
| Codec.StrsCanonical | llmkira/kv_manager/history.py:24 | every text read as a list of strings is its written form followed by the rest |
| Lists.SliceLength | llmkira/kv_manager/history.py:148 | `s[lo:lo + limit]` holds at most `limit` elements, whatever the sign of `lo` |
| Lists.WindowIsRun | llmkira/kv_manager/history.py:148 | for non-negative offset and limit, the window is the contiguous run from `offset`, clamped at the end, and empty past the end |
| Lists.WindowsTile | llmkira/kv_manager/history.py:184 | consecutive windows join into the window spanning both |
| Lists.Take | llmkira/kv_manager/history.py:94 | `s[:n]` keeps the first `min(n, len(s))` elements |
| Strings.StripShape | llmkira/extra/plugins/deep_research/__init__.py:52 | `strip()` removes a whitespace prefix and a whitespace suffix and nothing else |
| Strings.Strip | llmkira/extra/plugins/deep_research/__init__.py:52 | the stripped text starts and ends with non-whitespace and is no longer than the input |
| Strings.RemoveSpaceStrip | llmkira/extra/plugins/deep_research/__init__.py:52 | stripping removes only whitespace |
| Strings.StripOfStripped | llmkira/extra/plugins/deep_research/__init__.py:72 | stripping a stripped text changes nothing |
| Strings.SplitOn | llmkira/extra/plugins/deep_research/__init__.py:46 | `text.split('\n\n')` yields at least one piece |
| Strings.JoinSplitOn | llmkira/extra/plugins/deep_research/__init__.py:46 | joining the pieces of a split with the separator gives the text back |
| Strings.SplitOnJoin | llmkira/extra/plugins/rss_reader/__init__.py:289 | splitting a `"\n".join` of lines without line breaks gives the lines back |
| Strings.Lower | llmkira/extra/plugins/deep_research/__init__.py:162 | `lower()` keeps the length, leaves no upper-case ASCII letter, and keeps every character that is not one |
| Strings.LowerIdempotent | llmkira/extra/plugins/deep_research/__init__.py:162 | lower-casing an already lower-cased text changes nothing |
| Strings.LowerKeepsOccurrence | llmkira/extra/plugins/channel_handler/__init__.py:336-354 | a keyword occurring in a message still occurs, at the same place, once both are lower-cased, so the case-insensitive tests never miss it |
| Strings.ScanKeywords | llmkira/extra/plugins/deep_research/__init__.py:165-169 | the keyword loop finds a keyword iff some keyword occurs in the text |
| Strings.NatToString | llmkira/extra/plugins/deep_research/__init__.py:347 | `str(n)` is a non-empty string of decimal digits with no leading zero |
| Strings.DigitsValueOfNatToString | llmkira/extra/plugins/deep_research/__init__.py:347 | the decimal rendering of `n` reads back as `n` |
| Wrappers.OrElse | llmkira/extra/plugins/deep_research/__init__.py:355 | `a or b` is `a` when `a` is truthy and `b` otherwise, so it is truthy iff either is |
| DeepResearch.NextBreak | llmkira/extra/plugins/deep_research/__init__.py:57 | the next split point is whitespace right after `.`, `!` or `?`, and no split point lies before it |
| DeepResearch.RunEnd | llmkira/extra/plugins/deep_research/__init__.py:57 | the greedy `\s+` consumes a maximal whitespace run |
| DeepResearch.SentencesKeepText | llmkira/extra/plugins/deep_research/__init__.py:57 | the sentence split drops only whitespace |
| DeepResearch.PackSentence | llmkira/extra/plugins/deep_research/__init__.py:58-64 | one pass of the sentence loop is one step of the specified fold |
| DeepResearch.PackSentences | llmkira/extra/plugins/deep_research/__init__.py:57-64 | the sentence loop computes the fold of its step over the sentences |
| DeepResearch.PackParagraph | llmkira/extra/plugins/deep_research/__init__.py:49-68 | one pass of the paragraph loop is one step of the specified fold, with the sentence loop for an over-long paragraph |
| DeepResearch.ChunkMessage | llmkira/extra/plugins/deep_research/__init__.py:30-74 | the loops of `chunk_message` compute the specified chunking |
| DeepResearch.ShortTextIsOneChunk | llmkira/extra/plugins/deep_research/__init__.py:39-40 | a text no longer than `max_length` is returned as the single chunk, untouched |
| DeepResearch.AddSentencesStripped | llmkira/extra/plugins/deep_research/__init__.py:59-64 | the sentence loop only emits stripped chunks |
| DeepResearch.AddParagraphsStripped | llmkira/extra/plugins/deep_research/__init__.py:48-68 | the paragraph loop only emits stripped chunks |
| DeepResearch.ChunksStripped | llmkira/extra/plugins/deep_research/__init__.py:52-72 | when a text is split, no chunk begins or ends with whitespace |
| DeepResearch.AddSentenceKeepsText | llmkira/extra/plugins/deep_research/__init__.py:59-64 | one sentence step adds exactly that sentence's non-whitespace characters to what was emitted or is pending |
| DeepResearch.AddSentencesKeepText | llmkira/extra/plugins/deep_research/__init__.py:58-64 | the sentence loop adds exactly the sentences' non-whitespace characters, in order |
| DeepResearch.AddParagraphKeepsText | llmkira/extra/plugins/deep_research/__init__.py:49-68 | one paragraph step adds exactly that paragraph's non-whitespace characters |
| DeepResearch.AddParagraphsKeepText | llmkira/extra/plugins/deep_research/__init__.py:48-68 | the paragraph loop adds exactly the paragraphs' non-whitespace characters, in order |
| DeepResearch.PackKeepsText | llmkira/extra/plugins/deep_research/__init__.py:46-68 | after the paragraph loop, emitted plus pending text holds the input's non-whitespace characters |
| DeepResearch.FinishKeepsText | llmkira/extra/plugins/deep_research/__init__.py:71-72 | the final flush loses no non-whitespace character |
| DeepResearch.ChunksKeepText | llmkira/extra/plugins/deep_research/__init__.py:30-74 | with whitespace removed, the concatenated chunks equal the text: nothing is lost or reordered |
| DeepResearch.AddSentenceBounded | llmkira/extra/plugins/deep_research/__init__.py:59-64 | a sentence that fits keeps every chunk and the pending chunk within the bound |
| DeepResearch.AddSentencesBounded | llmkira/extra/plugins/deep_research/__init__.py:58-64 | when every sentence fits, the sentence loop keeps every chunk within the bound |
| DeepResearch.AddParagraphBounded | llmkira/extra/plugins/deep_research/__init__.py:49-66 | a paragraph step keeps every chunk within the bound when the sentences of an over-long paragraph fit |
| DeepResearch.AddParagraphsBounded | llmkira/extra/plugins/deep_research/__init__.py:48-68 | the paragraph loop keeps every chunk within the bound under the same condition |
| DeepResearch.ChunksFit | llmkira/extra/plugins/deep_research/__init__.py:50-66 | when no sentence of an over-long paragraph is longer than `max_length`, no chunk is either |
| DeepResearch.LeadingBlankChunk | llmkira/extra/plugins/deep_research/__init__.py:46-72 | `"\n\nabc"` with limit 2 gives `["", "abc"]`: the pending blank paragraph is flushed as an empty first chunk, and the sentence `abc`, still 3 characters after stripping, is kept whole as a chunk over the limit |
| DeepResearch.PartMessages | llmkira/extra/plugins/deep_research/__init__.py:344-360 | one message per chunk |
| DeepResearch.PartsOf | llmkira/extra/plugins/deep_research/__init__.py:344-360 | the inner loop builds the numbered messages of a long message |
| DeepResearch.ExpandOne | llmkira/extra/plugins/deep_research/__init__.py:326-369 | the loop body turns one message into its expansion |
| DeepResearch.HookRun | llmkira/extra/plugins/deep_research/__init__.py:319-376 | the hook's new message list is the expansions of the messages, in input order |
| DeepResearch.ExpandAllConcat | llmkira/extra/plugins/deep_research/__init__.py:325-372 | the output follows input order: expanding two runs of messages gives the first run's output, then the second's |
| DeepResearch.LongMessageParts | llmkira/extra/plugins/deep_research/__init__.py:335-360 | a long message becomes one message per chunk: message k carries chunk k under "Part k+1/n", the results title on the first and "Continued" after, the sender, chat and time kept, the thread filled from the receiver, files only on the first; together they carry the text, whitespace aside |
| DeepResearch.PartHeaderNumbers | llmkira/extra/plugins/deep_research/__init__.py:347-349 | the part number and count in a header read back as `k + 1` and `n` |
| DeepResearch.ShortMessageHeaded | llmkira/extra/plugins/deep_research/__init__.py:327-369 | a message without text passes unchanged; a short one gets the results title and keeps every other field, and its thread is filled from the receiver only when empty |
| DeepResearch.FuncMessage | llmkira/extra/plugins/deep_research/__init__.py:158-169 | the tool is offered iff some research keyword occurs in the lower-cased text |
| DeepResearch.ResearchPrompt | llmkira/extra/plugins/deep_research/__init__.py:104-125 | the prompt starts with the depth's lead and the topic and ends with the fixed outline; between them is `"\n\nFocus on these specific aspects: " + aspects` when `aspects` is truthy, and nothing otherwise |
| DeepResearch.LeadsDistinct | llmkira/extra/plugins/deep_research/__init__.py:105-110 | no text starts with two different depth leads, so the overview, detailed and comprehensive openings are told apart by their first characters |
| DeepResearch.PromptNamesDepth | llmkira/extra/plugins/deep_research/__init__.py:104-125 | two equal prompts were built with the same depth lead: the depth class can be read back from the prompt |
| ChannelHandler.ParseType | llmkira/extra/plugins/channel_handler/__init__.py:38-46 | `ChannelType(name)` succeeds only on a member's value, and returns that member |
| ChannelHandler.ParseTypeName | llmkira/extra/plugins/channel_handler/__init__.py:38-46 | every member is found from its value |
| ChannelHandler.ChannelManager.constructor | llmkira/extra/plugins/channel_handler/__init__.py:150-152 | a new table is empty |
| ChannelHandler.ChannelManager.SetChannelConfig | llmkira/extra/plugins/channel_handler/__init__.py:279-288 | forces the configuration's id to the key, stores it under that key, appends a new key to the listing order, and changes no other id |
| ChannelHandler.ChannelManager.RemoveChannelConfig | llmkira/extra/plugins/channel_handler/__init__.py:290-296 | returns true iff the id was configured; afterwards it is absent and every other id is unchanged |
| ChannelHandler.ChannelManager.ListChannels | llmkira/extra/plugins/channel_handler/__init__.py:298-300 | lists every configuration exactly once, in insertion order |
| ChannelHandler.ConfigureChannelBehavior | llmkira/extra/plugins/channel_handler/__init__.py:504-541 | an unknown channel type raises before anything is stored; otherwise the stored, active configuration has the given id and type, no name, and the default behaviour with the given response style, prefix, functions flag, auto-respond flag and keywords (none means `[]`); a new id is appended to the listing order, and every other channel id keeps its configuration |
| ChannelHandler.ChannelTrigger | llmkira/extra/plugins/channel_handler/__init__.py:317-383 | answers iff the chat is configured and active, no blocked keyword occurs, the mention rule holds, and a keyword, auto-respond or the type's fallback says yes |
| ChannelHandler.BlockedWins | llmkira/extra/plugins/channel_handler/__init__.py:336-341 | a blocked keyword silences the channel whatever its keywords, auto-respond flag or type say |
| ChannelHandler.KeywordAnswers | llmkira/extra/plugins/channel_handler/__init__.py:343-354 | once the blocked-keyword and mention gates pass, a trigger keyword makes the bot answer |
| ChannelHandler.Decorate | llmkira/extra/plugins/channel_handler/__init__.py:421-438 | the new text is the prefix and a space (when there is a prefix), the old text, then a space and the suffix (when there is a suffix); the styles change nothing |
| ChannelHandler.UndecorateDecorate | llmkira/extra/plugins/channel_handler/__init__.py:421-427 | the original text can be cut back out of a decorated one |
| ChannelHandler.OptionalSettings | llmkira/extra/plugins/channel_handler/__init__.py:441-445 | the model and the system prompt are written only when set; other keys keep their values |
| ChannelHandler.Settings | llmkira/extra/plugins/channel_handler/__init__.py:440-451 | temperature, max tokens and the three enable flags are always written; the other keys keep their values |
| ChannelHandler.SettingsKeepOthers | llmkira/extra/plugins/channel_handler/__init__.py:440-451 | a keyword argument the hook does not write keeps its value |
| ChannelHandler.ProcessMessages | llmkira/extra/plugins/channel_handler/__init__.py:399-453 | without an active configuration nothing changes; otherwise every message text in the array is decorated in place and the settings are copied into the keyword arguments |
| ChannelHandler.DecorateMessages | llmkira/extra/plugins/channel_handler/__init__.py:420-438 | the loop decorates each message of the array in place, in order |
| ChannelHandler.CopySettings | llmkira/extra/plugins/channel_handler/__init__.py:440-451 | the key-by-key writes compute the specified settings |
| ChannelHandler.HandlerFuncMessage | llmkira/extra/plugins/channel_handler/__init__.py:558-566 | offered iff "channel" occurs in the lower-cased text, because "channel" is itself one of the keywords |
| RssReader.FeedId | llmkira/extra/plugins/rss_reader/__init__.py:107 | the feed id is the first 8 characters of the digest of `"{user_id}:{feed_url}"`, so it depends on nothing else |
| RssReader.UserFeedsExact | llmkira/extra/plugins/rss_reader/__init__.py:125-134 | a feed is listed iff it is a subscription of the user, listed with its id and configuration |
| RssReader.UserFeedsOrdered | llmkira/extra/plugins/rss_reader/__init__.py:125-134 | the listing follows table order and lists each id once |
| RssReader.RssManager.constructor | llmkira/extra/plugins/rss_reader/__init__.py:60-65 | a new manager has no subscriptions and no seen articles |
| RssReader.RssManager.AddFeed | llmkira/extra/plugins/rss_reader/__init__.py:105-115 | stores the subscription under its id; re-adding the same user and URL overwrites rather than duplicates |
| RssReader.RssManager.RemoveFeed | llmkira/extra/plugins/rss_reader/__init__.py:117-123 | returns true iff the id was subscribed; afterwards it is absent and the other subscriptions are unchanged |
| RssReader.RssManager.GetUserFeeds | llmkira/extra/plugins/rss_reader/__init__.py:125-134 | the loop over the table computes the user's listing |
| RssReader.RssManager.FetchFeed | llmkira/extra/plugins/rss_reader/__init__.py:136-205 | the loop over the first `max_items` entries computes the specified scan: its articles (none if the loop raised) and the new seen set |
| RssReader.RawContent | llmkira/extra/plugins/rss_reader/__init__.py:160-164 | the body is the summary, else the description, else the `value` of the first content entry (empty when it has none); an empty content list raises |
| RssReader.MakeArticle | llmkira/extra/plugins/rss_reader/__init__.py:185-192 | the article's id is the digest of its link, its content the prefix of the converted body of exactly `min(2000, len)` characters, its source the feed title |
| RssReader.ScanFailedStays | llmkira/extra/plugins/rss_reader/__init__.py:203-205 | once the loop has raised, later entries change nothing |
| RssReader.KeepTracked | llmkira/extra/plugins/rss_reader/__init__.py:185-195 | appending a new article and marking it seen keeps the bookkeeping |
| RssReader.StepTracked | llmkira/extra/plugins/rss_reader/__init__.py:145-195 | one turn of the loop keeps the bookkeeping: articles are new, ids distinct, content bounded, and seen grows by exactly their ids |
| RssReader.ScanTracked | llmkira/extra/plugins/rss_reader/__init__.py:145-195 | the loop keeps the bookkeeping and adds at most one article per entry |
| RssReader.ScanProvenance | llmkira/extra/plugins/rss_reader/__init__.py:145-192 | every article is made from one of the entries: id, link, title and source from the entry and feed, content the converted body cut to 2000 characters, and date the entry's date, not older than 48 hours |
| RssReader.FetchPromises | llmkira/extra/plugins/rss_reader/__init__.py:145-195 | at most `max_items` articles, none seen before, distinct ids, each made from an entry, none dated more than 48 hours before now, content at most 2000 characters; seen grows by exactly their ids, so skipped entries are not marked |
| RssReader.RecentEntryDelivered | llmkira/extra/plugins/rss_reader/__init__.py:169-192 | an unseen, readable entry published within 48 hours is delivered with its date |
| RssReader.AsWrittenDropsDated | llmkira/extra/plugins/rss_reader/__init__.py:169-183 | as written, with a clock more than 48 hours past the epoch, no article the scan adds carries a date |
| RssReader.AsWrittenDropsRecentEntry | llmkira/extra/plugins/rss_reader/__init__.py:169-183 | an entry posted an hour ago is delivered by the intended reading and dropped by the code as written |
| RssReader.NewsSummary | llmkira/extra/plugins/rss_reader/__init__.py:267 | the article's summary, else the first `min(200, len)` characters of its content followed by "...", `min(200, len) + 3` characters in all |
| RssReader.NewsItem | llmkira/extra/plugins/rss_reader/__init__.py:268-273 | a news item is stripped |
| RssReader.NewsItemShape | llmkira/extra/plugins/rss_reader/__init__.py:268-273 | stripping a news item drops only its final newline |
| RssReader.BriefItem | llmkira/extra/plugins/rss_reader/__init__.py:284-287 | a brief line is the bullet and link, then " - ", the summary cut to 100 characters and "..." exactly when summaries are wanted and the article has one |
| RssReader.DefaultItem | llmkira/extra/plugins/rss_reader/__init__.py:295-299 | a default item starts with the bold title and ends with the link; between them is `summary + "\n"` when a summary is wanted and truthy, and nothing otherwise |
| RssReader.FormatDiscordMessage | llmkira/extra/plugins/rss_reader/__init__.py:251-301 | no articles gives the fixed message whatever the channel type; "news" and "brief" start with their header carrying the count |
| RssReader.BriefLines | llmkira/extra/plugins/rss_reader/__init__.py:278-289 | the brief format is the header line with the count, then one line per article in order |
| RssReader.BriefHeadCount | llmkira/extra/plugins/rss_reader/__init__.py:281 | the count in the brief header reads back as the number of articles |
| RssReader.RssFuncMessage | llmkira/extra/plugins/rss_reader/__init__.py:346-361 | offered iff a keyword occurs in the lower-cased text, or "http" does together with rss, feed, atom or xml |
| RssReader.RssFuncMessageReduced | llmkira/extra/plugins/rss_reader/__init__.py:346-361 | because "rss" and "feed" are keywords, the address test adds only texts with "http" and "atom" or "xml" |

## Left out

- The key-value backend itself (`KvManager`) is not part of this model. It is assumed to store each value under `prefix(key)`.
- Time-to-live durations are not modelled. Expiry is `Expire`, which deletes arbitrary keys.
- Async suspension and the lost-update race between concurrent `_add_to_index` calls are not modelled. Every operation runs to completion on its own.
- A backend read that raises in `get_entry`, `get_user_history` or `get_global_history` is not modelled. The source turns it into `None` or `[]`, the same outcome as a missing key. Write failures and index-update failures are modelled.
- JSON and pydantic are replaced by the canonical encoding of `Codec`. A stored text that the source would parse but is not in canonical form (other key order, extra spaces, extra keys) is malformed here.
- `HistoryEntry`'s default timestamp (`time.time()`) is not modelled. Entries are given with their timestamp.
- Logging, and the module-level manager instances.
- JSON file persistence of channel configurations, RSS subscriptions and seen articles. The managers start empty (`ChannelManager.constructor`, `RssManager.constructor`).
- The environment-driven default channels of `_initialize_defaults`. They need `os.getenv`.
- The `trigger_hook` methods of both hooks. They read the platform name and environment variables.
- `temperature` is a `real` that is only passed through.
- `hashlib.md5` and `html2text` are the opaque functions `digest` and `toText`, and the clock is the parameter `now`. Times are whole seconds. Local-time conversion by `datetime.fromtimestamp` is not modelled.
- `feedparser.parse`, the network, `summarize_article` (an OpenAI call) and `setup_rss_feed` (it only returns a dictionary) are not modelled.
- All `run`, `failed` and `callback` methods (task queue I/O), the scheduler, the API server and the Discord helper script are not modelled.
- The sentence split is the explicit split after `.`, `!` or `?` followed by a whitespace run, not a regex engine.
- `DeepResearch.HookRun`: the source rewrites a short message object in place and puts that same object in the new list; the model builds a new value, so aliasing with other holders of the message is not captured.
- Strings.Lower: folds ASCII letters only, while Python's `str.lower()` also folds other Unicode letters.
- ChannelHandler.ChannelTrigger: uses the same ASCII-only lower-casing.
- Several emoji literals in the source are stored mis-decoded (the no-articles message, the news, RSS-update and quick-update headers and the bullet at `llmkira/extra/plugins/rss_reader/__init__.py:260-284`; the research outline, results title and part headers at `llmkira/extra/plugins/deep_research/__init__.py:118-123, 347-363`). As written, the program sends those mis-decoded character sequences; the model uses the emoji they were meant to be. No property proved here depends on which characters these are.
- RssReader.RssManager.FetchFeed: uses the corrected date reading (`Published`); the code as written is `PublishedAsWritten` (see Findings).
- A `fetch_feed` loop that raises part-way keeps the ids it already marked as seen, as the source does, and returns `[]`. The write of the seen set to disk is left out with the rest of the file I/O.

## Findings

| source | as written | input that shows it | evidently intended | confidence | as-written member | corrected member |
|---|---|---|---|---|---|---|
| llmkira/extra/plugins/rss_reader/__init__.py:171-178 | `datetime.fromtimestamp(entry.published_parsed.tm_isdst)` reads the daylight-saving flag (-1, 0 or 1) as a timestamp, so every dated entry looks published in January 1970 and is skipped as older than 48 hours | an entry with `published_parsed` one hour before `now = 1700000000` (`tm_isdst = 0`) is dropped, and `fetch_feed` returns `[]` | convert the whole `struct_time` to a timestamp (e.g. `calendar.timegm(entry.published_parsed)`), so that recent entries are delivered | high, not executed | RssReader.AsWrittenDropsRecentEntry | RssReader.RecentEntryDelivered |

=== FILE: channel_handler.dfy ===
/**
 * The channel-handler plugin: per-channel behaviour kept in a table keyed by channel id, the
 * ordered decision whether to answer a message in a channel, the hook that decorates outgoing
 * messages and hands the channel's model settings on, and the tool's keyword test.
 */
module ChannelHandler {
  import opened Wrappers
  import opened Strings
  import opened Lists
  import opened Messages

  datatype ChannelType = News | Tech | General | Support | Announcement | DeepResearch | Custom

  /** The value of each channel type. */
  function TypeName(t: ChannelType): string {
    match t
    case News => "news"
    case Tech => "tech"
    case General => "general"
    case Support => "support"
    case Announcement => "announcement"
    case DeepResearch => "deep_research"
    case Custom => "custom"
  }

  /** `ChannelType(name)`: `None` where the enum lookup raises. */
  function ParseType(name: string): (t: Option<ChannelType>)
    ensures t.Some? ==> TypeName(t.value) == name
  {
    if name == "news" then Some(News)
    else if name == "tech" then Some(Tech)
    else if name == "general" then Some(General)
    else if name == "support" then Some(Support)
    else if name == "announcement" then Some(Announcement)
    else if name == "deep_research" then Some(DeepResearch)
    else if name == "custom" then Some(Custom)
    else None
  }

  lemma ParseTypeName(t: ChannelType)
    ensures ParseType(TypeName(t)) == Some(t)
  {
  }

  /** The behaviour settings of a channel; the temperature is passed through and never computed with. */
  datatype ChannelBehavior = ChannelBehavior(
    responseStyle: string,
    prefix: Option<string>,
    suffix: Option<string>,
    functionsEnabled: bool,
    webSearchEnabled: bool,
    codeInterpreterEnabled: bool,
    summarizationEnabled: bool,
    autoRespond: bool,
    requireMention: bool,
    keywords: seq<string>,
    blockedKeywords: seq<string>,
    modelOverride: Option<string>,
    temperature: real,
    maxTokens: int,
    systemPrompt: Option<string>)

  /** `ChannelBehavior()` with every field at its default. */
  function DefaultBehavior(): ChannelBehavior {
    ChannelBehavior("normal", None, None, true, false, false, true, false, false, [], [], None, 0.7, 500, None)
  }

  datatype ChannelConfig = ChannelConfig(
    channelId: string,
    channelType: ChannelType,
    channelName: Option<string>,
    behavior: ChannelBehavior,
    active: bool)

  // ---------------------------------------------------------------------------------------------
  // The configuration table

  /** `ChannelManager`: the configurations by channel id, listed in the order the ids were first set. */
  class ChannelManager {
    var configs: map<string, ChannelConfig>
    var order: seq<string>

    /** `order` lists every configured id once. */
    ghost predicate Valid()
      reads this
    {
      Distinct(order) && (forall id :: id in configs <==> id in order)
    }

    constructor ()
      ensures Valid()
      ensures configs == map[] && order == []
    {
      configs := map[];
      order := [];
    }

    /** `get_channel_config` */
    function GetChannelConfig(channelId: string): (r: Option<ChannelConfig>)
      reads this
      ensures r.Some? <==> channelId in configs
      ensures r.Some? ==> r.value == configs[channelId]
    {
      if channelId in configs then Some(configs[channelId]) else None
    }

    /** `set_channel_config`: stores `config` under `channelId`, with its id forced to `channelId`. */
    method SetChannelConfig(channelId: string, config: ChannelConfig) returns (saved: ChannelConfig)
      requires Valid()
      modifies this
      ensures Valid()
      ensures saved == config.(channelId := channelId)
      ensures configs == old(configs)[channelId := saved]
      ensures order == if channelId in old(configs) then old(order) else old(order) + [channelId]
      ensures GetChannelConfig(channelId) == Some(saved)
      ensures forall id :: id != channelId ==> GetChannelConfig(id) == old(GetChannelConfig(id))
    {
      saved := config.(channelId := channelId);
      if channelId !in configs {
        order := order + [channelId];
      }
      configs := configs[channelId := saved];
    }

    /** `remove_channel_config`: true iff the id was configured; afterwards it is not. */
    method RemoveChannelConfig(channelId: string) returns (removed: bool)
      requires Valid()
      modifies this
      ensures Valid()
      ensures removed <==> channelId in old(configs)
      ensures configs == old(configs) - {channelId}
      ensures order == Without(old(order), channelId)
      ensures GetChannelConfig(channelId) == None
      ensures forall id :: id != channelId ==> GetChannelConfig(id) == old(GetChannelConfig(id))
    {
      if channelId in configs {
        configs := configs - {channelId};
        WithoutDistinct(order, channelId);
        order := Without(order, channelId);
        return true;
      }
      WithoutAbsent(order, channelId);
      return false;
    }

    /** `list_channels`: every configuration once, in table order. */
    function ListChannels(): (cs: seq<ChannelConfig>)
      reads this
      requires Valid()
      ensures |cs| == |order| == |configs|
      ensures forall i :: 0 <= i < |cs| ==> cs[i] == configs[order[i]]
      ensures forall id :: id in configs ==> configs[id] in cs
    {
      DistinctCard(order, configs.Keys);
      var o, c := order, configs;
      assert forall i :: 0 <= i < |o| ==> o[i] in c;
      var cs := seq(|o|, i requires 0 <= i < |o| && o[i] in c => c[o[i]]);
      assert forall id :: id in configs ==> configs[id] in cs by {
        forall id | id in configs ensures configs[id] in cs {
          var i :| 0 <= i < |order| && order[i] == id;
          assert cs[i] == configs[id];
        }
      }
      cs
    }
  }

  /** `configure_channel_behavior`: a fresh configuration from the tool's arguments; `None` for an unknown type. */
  method ConfigureChannelBehavior(manager: ChannelManager, channelId: string, channelType: string, responseStyle: string,
                                  prefix: Option<string>, functionsEnabled: bool, autoRespond: bool, keywords: Option<seq<string>>)
    returns (saved: Option<ChannelConfig>)
    requires manager.Valid()
    modifies manager
    ensures manager.Valid()
    ensures saved.None? <==> ParseType(channelType).None?
    ensures saved.None? ==> manager.configs == old(manager.configs) && manager.order == old(manager.order)
    ensures saved.Some? ==> manager.GetChannelConfig(channelId) == saved
    ensures saved.Some? ==> saved.value.channelType == ParseType(channelType).value && saved.value.active
    ensures saved.Some? ==> saved.value.behavior.keywords == if keywords.Some? then keywords.value else []
    ensures saved.Some? ==> saved.value == ChannelConfig(channelId, ParseType(channelType).value, None,
      DefaultBehavior().(responseStyle := responseStyle, prefix := prefix, functionsEnabled := functionsEnabled,
                         autoRespond := autoRespond, keywords := if keywords.Some? then keywords.value else []),
      true)
    ensures forall id :: id != channelId ==> manager.GetChannelConfig(id) == old(manager.GetChannelConfig(id))
    ensures saved.Some? ==>
      manager.order == if channelId in old(manager.configs) then old(manager.order) else old(manager.order) + [channelId]
  {
    var behavior := DefaultBehavior().(responseStyle := responseStyle, prefix := prefix,
      functionsEnabled := functionsEnabled, autoRespond := autoRespond,
      keywords := if Truthy(keywords) then keywords.value else []);
    var t := ParseType(channelType);
    if t.None? {
      return None;
    }
    var config := ChannelConfig(channelId, t.value, None, behavior, true);
    var c := manager.SetChannelConfig(channelId, config);
    saved := Some(c);
  }

  // ---------------------------------------------------------------------------------------------
  // Whether to answer: `channel_trigger`

  function NewsTerms(): seq<string> { ["?", "news", "update", "summary", "what", "how", "why"] }
  function TechTerms(): seq<string> { ["?", "error", "bug", "help", "code", "debug", "how to"] }
  function ResearchTerms(): seq<string> { ["research", "analyze", "study", "investigate", "explore", "?"] }

  /** The last rule, by channel type, for a lower-cased message no earlier rule decided. */
  predicate TypeFallback(t: ChannelType, lower: string) {
    match t
    case News => ContainsAny(lower, NewsTerms())
    case Tech => ContainsAny(lower, TechTerms())
    case Support => true
    case DeepResearch => ContainsAny(lower, ResearchTerms())
    case General => false
    case Announcement => false
    case Custom => false
  }

  /** Some keyword, lower-cased, occurs in the lower-cased message. */
  predicate MentionsAny(lower: string, keywords: seq<string>) {
    ContainsAny(lower, Map(Lower, keywords))
  }

  /** `channel_trigger(message, chat_id, ...)`, rule by rule in the source's order. */
  function ChannelTrigger(configs: map<string, ChannelConfig>, message: string, chatId: string): (respond: bool)
    ensures respond <==>
      chatId in configs && configs[chatId].active &&
      !MentionsAny(Lower(message), configs[chatId].behavior.blockedKeywords) &&
      (configs[chatId].behavior.requireMention ==> Contains(message, "@")) &&
      (MentionsAny(Lower(message), configs[chatId].behavior.keywords) || configs[chatId].behavior.autoRespond ||
       TypeFallback(configs[chatId].channelType, Lower(message)))
  {
    if chatId !in configs || !configs[chatId].active then false
    else
      var config := configs[chatId];
      var behavior := config.behavior;
      var lower := Lower(message);
      if behavior.blockedKeywords != [] && ScanKeywords(lower, Map(Lower, behavior.blockedKeywords)) then false
      else if behavior.requireMention && !Contains(message, "@") then false
      else if behavior.keywords != [] && ScanKeywords(lower, Map(Lower, behavior.keywords)) then true
      else if behavior.autoRespond then true
      else match config.channelType
        case News => ScanKeywords(lower, NewsTerms())
        case Tech => ScanKeywords(lower, TechTerms())
        case Support => true
        case DeepResearch => ScanKeywords(lower, ResearchTerms())
        case _ => false
  }

  /** A blocked keyword silences the channel whatever its keywords, auto-respond flag or type say. */
  lemma BlockedWins(configs: map<string, ChannelConfig>, message: string, chatId: string, k: nat)
    requires chatId in configs
    requires k < |configs[chatId].behavior.blockedKeywords|
    requires Contains(Lower(message), Lower(configs[chatId].behavior.blockedKeywords[k]))
    ensures !ChannelTrigger(configs, message, chatId)
  {
    assert Map(Lower, configs[chatId].behavior.blockedKeywords)[k] == Lower(configs[chatId].behavior.blockedKeywords[k]);
  }

  /** With no blocked keyword present and the mention rule met, a trigger keyword makes the bot answer. */
  lemma KeywordAnswers(configs: map<string, ChannelConfig>, message: string, chatId: string, k: nat)
    requires chatId in configs && configs[chatId].active
    requires !MentionsAny(Lower(message), configs[chatId].behavior.blockedKeywords)
    requires configs[chatId].behavior.requireMention ==> Contains(message, "@")
    requires k < |configs[chatId].behavior.keywords|
    requires Contains(Lower(message), Lower(configs[chatId].behavior.keywords[k]))
    ensures ChannelTrigger(configs, message, chatId)
  {
    assert Map(Lower, configs[chatId].behavior.keywords)[k] == Lower(configs[chatId].behavior.keywords[k]);
  }

  // ---------------------------------------------------------------------------------------------
  // The processing hook

  /** A value put in the hook's keyword arguments; anything else already there is `Other`. */
  datatype KwArg = KwStr(s: string) | KwReal(r: real) | KwInt(n: int) | KwBool(b: bool) | Other

  /** The behaviour the hook applies: that of the active configuration of the location's chat, if any. */
  function HookBehavior(configs: map<string, ChannelConfig>, locate: Option<Location>): (b: Option<ChannelBehavior>)
    ensures b.Some? <==> locate.Some? && locate.value.chatId in configs && configs[locate.value.chatId].active
    ensures b.Some? ==> b.value == configs[locate.value.chatId].behavior
  {
    if locate.None? then None
    else if locate.value.chatId !in configs || !configs[locate.value.chatId].active then None
    else Some(configs[locate.value.chatId].behavior)
  }

  /** What goes in front of a message: the prefix and a space, when there is a prefix. */
  function Head(b: ChannelBehavior): string {
    if Truthy(b.prefix) then b.prefix.value + " " else ""
  }

  /** What goes after a message: a space and the suffix, when there is a suffix. */
  function Tail(b: ChannelBehavior): string {
    if Truthy(b.suffix) then " " + b.suffix.value else ""
  }

  /**
   * A message text after the hook: the original text stands between the head and the tail. The
   * three response styles leave the text as it is.
   */
  function Decorate(b: ChannelBehavior, text: string): (r: string)
    ensures |r| == |Head(b)| + |text| + |Tail(b)|
    ensures r[..|Head(b)|] == Head(b)
    ensures r[|Head(b)|..|Head(b)| + |text|] == text
    ensures r[|Head(b)| + |text|..] == Tail(b)
  {
    var t := if Truthy(b.prefix) then b.prefix.value + " " + text else text;
    var t' := if Truthy(b.suffix) then t + " " + b.suffix.value else t;
    assert t' == Head(b) + text + Tail(b);
    t'
  }

  /** The text a decorated message started from. */
  function Undecorate(b: ChannelBehavior, r: string): string
    requires |r| >= |Head(b)| + |Tail(b)|
  {
    r[|Head(b)|..|r| - |Tail(b)|]
  }

  lemma UndecorateDecorate(b: ChannelBehavior, text: string)
    ensures Undecorate(b, Decorate(b, text)) == text
  {
  }

  function DecorateAll(ms: seq<EventMessage>, b: ChannelBehavior): seq<EventMessage> {
    Map((m: EventMessage) => m.(text := Decorate(b, m.text)), ms)
  }

  /** The keyword arguments after the optional settings: the model and the system prompt, when set. */
  function OptionalSettings(b: ChannelBehavior, kwargs: map<string, KwArg>): (kw: map<string, KwArg>)
    ensures kw.Keys == kwargs.Keys + (if Truthy(b.modelOverride) then {"model"} else {}) +
      (if Truthy(b.systemPrompt) then {"system_prompt"} else {})
    ensures Truthy(b.modelOverride) ==> kw["model"] == KwStr(b.modelOverride.value)
    ensures !Truthy(b.modelOverride) && "model" in kwargs ==> kw["model"] == kwargs["model"]
    ensures Truthy(b.systemPrompt) ==> kw["system_prompt"] == KwStr(b.systemPrompt.value)
    ensures !Truthy(b.systemPrompt) && "system_prompt" in kwargs ==> kw["system_prompt"] == kwargs["system_prompt"]
    ensures forall key :: key in kwargs && key != "model" && key != "system_prompt" ==> kw[key] == kwargs[key]
  {
    var k1 := if Truthy(b.modelOverride) then kwargs["model" := KwStr(b.modelOverride.value)] else kwargs;
    if Truthy(b.systemPrompt) then k1["system_prompt" := KwStr(b.systemPrompt.value)] else k1
  }

  /** The keyword arguments after the hook copied the channel's settings into them. */
  function Settings(b: ChannelBehavior, kwargs: map<string, KwArg>): (kw: map<string, KwArg>)
    ensures kw.Keys == OptionalSettings(b, kwargs).Keys + {"temperature", "max_tokens", "functions_enabled",
      "web_search_enabled", "code_interpreter_enabled"}
    ensures kw["temperature"] == KwReal(b.temperature) && kw["max_tokens"] == KwInt(b.maxTokens)
    ensures kw["functions_enabled"] == KwBool(b.functionsEnabled)
    ensures kw["web_search_enabled"] == KwBool(b.webSearchEnabled)
    ensures kw["code_interpreter_enabled"] == KwBool(b.codeInterpreterEnabled)
    ensures forall key :: key in OptionalSettings(b, kwargs) && key !in SettingKeys() - {"model", "system_prompt"} ==>
      kw[key] == OptionalSettings(b, kwargs)[key]
  {
    OptionalSettings(b, kwargs)["temperature" := KwReal(b.temperature)]["max_tokens" := KwInt(b.maxTokens)]
      ["functions_enabled" := KwBool(b.functionsEnabled)]["web_search_enabled" := KwBool(b.webSearchEnabled)]
      ["code_interpreter_enabled" := KwBool(b.codeInterpreterEnabled)]
  }

  /** Keys the hook does not write keep their values. */
  lemma SettingsKeepOthers(b: ChannelBehavior, kwargs: map<string, KwArg>, key: string)
    requires key in kwargs && key !in SettingKeys()
    ensures key in Settings(b, kwargs) && Settings(b, kwargs)[key] == kwargs[key]
  {
  }

  /** The keys the hook may write. */
  function SettingKeys(): set<string> {
    {"model", "system_prompt", "temperature", "max_tokens", "functions_enabled", "web_search_enabled",
     "code_interpreter_enabled"}
  }

  /**
   * `ChannelProcessingHook.hook_run`: with an active configuration for the location's chat, every
   * message text is decorated in place and the settings are copied into the keyword arguments;
   * otherwise nothing changes.
   */
  method ProcessMessages(manager: ChannelManager, messages: array<EventMessage>, locate: Option<Location>,
                         kwargs: map<string, KwArg>)
    returns (kw: map<string, KwArg>)
    modifies messages
    ensures var b := HookBehavior(manager.configs, locate);
      (b.None? ==> messages[..] == old(messages[..]) && kw == kwargs) &&
      (b.Some? ==> messages[..] == DecorateAll(old(messages[..]), b.value) && kw == Settings(b.value, kwargs))
  {
    if locate.None? {
      return kwargs;
    }
    var config := manager.GetChannelConfig(locate.value.chatId);
    if config.None? || !config.value.active {
      return kwargs;
    }
    var behavior := config.value.behavior;
    DecorateMessages(messages, behavior);
    kw := CopySettings(behavior, kwargs);
  }

  /** The loop of `hook_run`: prefix and suffix added to each message text, in place. */
  method DecorateMessages(messages: array<EventMessage>, behavior: ChannelBehavior)
    modifies messages
    ensures messages[..] == DecorateAll(old(messages[..]), behavior)
  {
    var i := 0;
    while i < messages.Length
      invariant 0 <= i <= messages.Length
      invariant forall k :: 0 <= k < i ==> messages[k] == old(messages[k]).(text := Decorate(behavior, old(messages[k]).text))
      invariant forall k :: i <= k < messages.Length ==> messages[k] == old(messages[k])
    {
      var message := messages[i];
      var text := message.text;
      if Truthy(behavior.prefix) {
        text := behavior.prefix.value + " " + text;
      }
      if Truthy(behavior.suffix) {
        text := text + " " + behavior.suffix.value;
      }
      assert text == Decorate(behavior, message.text);
      messages[i] := message.(text := text);
      i := i + 1;
    }
    assert messages[..] == DecorateAll(old(messages[..]), behavior);
  }

  /** The settings `hook_run` writes into its keyword arguments, one key at a time. */
  method CopySettings(behavior: ChannelBehavior, kwargs: map<string, KwArg>) returns (kw: map<string, KwArg>)
    ensures kw == Settings(behavior, kwargs)
  {
    kw := kwargs;
    if Truthy(behavior.modelOverride) {
      kw := kw["model" := KwStr(behavior.modelOverride.value)];
    }
    if Truthy(behavior.systemPrompt) {
      kw := kw["system_prompt" := KwStr(behavior.systemPrompt.value)];
    }
    kw := kw["temperature" := KwReal(behavior.temperature)];
    kw := kw["max_tokens" := KwInt(behavior.maxTokens)];
    kw := kw["functions_enabled" := KwBool(behavior.functionsEnabled)];
    kw := kw["web_search_enabled" := KwBool(behavior.webSearchEnabled)];
    kw := kw["code_interpreter_enabled" := KwBool(behavior.codeInterpreterEnabled)];
  }

  // ---------------------------------------------------------------------------------------------
  // The configuration tool's trigger

  function HandlerKeywords(): seq<string> { ["configure", "channel", "setup", "behavior", "customize"] }

  /** `ChannelHandlerTool.func_message`: some keyword and "channel" both occur in the lower-cased text. */
  function HandlerFuncMessage(text: string): (offered: bool)
    ensures offered <==> Contains(Lower(text), "channel")
  {
    var lower := Lower(text);
    var found := ScanKeywords(lower, HandlerKeywords()) && Contains(lower, "channel");
    assert Contains(lower, "channel") ==> ContainsAny(lower, HandlerKeywords()) by {
      assert HandlerKeywords()[1] == "channel";
    }
    found
  }
}

=== FILE: codec.dfy ===
/**
 * A self-delimiting text serialisation standing in for `json.dumps` / `json.loads` of the
 * history records: every value is written in one canonical way, and a reader either gets the
 * value back together with the unread remainder or rejects the text as malformed.
 *
 *   natural  n          decimal digits of n, then '#'
 *   string   s          decimal digits of |s|, then ':', then s
 *   integer  i          '+' and the natural i, or '-' and the natural -i-1
 *   optional            'N', or 'S' followed by the value
 *   list of strings     its length as a natural, then each string
 *
 * For each kind there are two lemmas: reading what was written returns it (RoundTrip), and
 * whatever a reader accepts is exactly the writing of the value it returns (Canonical).
 */
module Codec {
  import opened Wrappers
  import opened Strings

  datatype Parsed<+T> = Parsed(value: T, rest: string)

  /** The number of leading decimal digits of `t`. */
  function DigitSpan(t: string): (k: nat)
    ensures k <= |t|
  {
    if t != [] && IsDigit(t[0]) then 1 + DigitSpan(t[1..]) else 0
  }

  /** The span is digits, and the character after it is not one. */
  lemma {:induction false} DigitSpanDigits(t: string)
    ensures var k := DigitSpan(t);
      (forall i :: 0 <= i < k ==> IsDigit(t[i])) && (k < |t| ==> !IsDigit(t[k]))
  {
    if t != [] && IsDigit(t[0]) {
      DigitSpanDigits(t[1..]);
      assert forall i :: 1 <= i <= DigitSpan(t[1..]) && i < |t| ==> t[i] == t[1..][i - 1];
    }
  }

  lemma {:induction false} DigitSpanOf(d: string, rest: string)
    requires forall i :: 0 <= i < |d| ==> IsDigit(d[i])
    requires rest == [] || !IsDigit(rest[0])
    ensures DigitSpan(d + rest) == |d|
  {
    if d != [] {
      assert (d + rest)[1..] == d[1..] + rest;
      DigitSpanOf(d[1..], rest);
    } else {
      assert d + rest == rest;
    }
  }

  /** A canonical decimal natural ended by `term`. */
  function ParseNatEndedBy(t: string, term: char): Option<Parsed<nat>> {
    var k := DigitSpan(t);
    if 0 < k < |t| && t[k] == term && (k == 1 || t[0] != '0')
    then Some(Parsed(DigitsValue(t[..k]), t[k + 1..]))
    else None
  }

  lemma NatEndedByRoundTrip(n: nat, term: char, rest: string)
    requires !IsDigit(term)
    ensures ParseNatEndedBy(NatToString(n) + [term] + rest, term) == Some(Parsed(n, rest))
  {
    var d := NatToString(n);
    var t := d + [term] + rest;
    assert t == d + ([term] + rest);
    DigitSpanOf(d, [term] + rest);
    assert t[..|d|] == d;
    DigitsValueOfNatToString(n);
    assert t[|d| + 1..] == rest;
  }

  lemma NatEndedByCanonical(t: string, term: char)
    requires ParseNatEndedBy(t, term).Some?
    ensures var p := ParseNatEndedBy(t, term).value;
            t == NatToString(p.value) + [term] + p.rest
  {
    var k := DigitSpan(t);
    DigitSpanDigits(t);
    NatToStringOfDigitsValue(t[..k]);
    assert t == t[..k] + [term] + t[k + 1..];
  }

  function EncNat(n: nat): string {
    NatToString(n) + "#"
  }

  function ParseNat(t: string): Option<Parsed<nat>> {
    ParseNatEndedBy(t, '#')
  }

  lemma NatRoundTrip(n: nat, rest: string)
    ensures ParseNat(EncNat(n) + rest) == Some(Parsed(n, rest))
  {
    NatEndedByRoundTrip(n, '#', rest);
  }

  lemma NatCanonical(t: string)
    requires ParseNat(t).Some?
    ensures t == EncNat(ParseNat(t).value.value) + ParseNat(t).value.rest
  {
    NatEndedByCanonical(t, '#');
  }

  function EncStr(s: string): string {
    NatToString(|s|) + ":" + s
  }

  function ParseStr(t: string): Option<Parsed<string>> {
    match ParseNatEndedBy(t, ':')
    case None => None
    case Some(n) =>
    if n.value <= |n.rest| then Some(Parsed(n.rest[..n.value], n.rest[n.value..])) else None
  }

  lemma StrRoundTrip(s: string, rest: string)
    ensures ParseStr(EncStr(s) + rest) == Some(Parsed(s, rest))
  {
    var d := NatToString(|s|);
    assert EncStr(s) + rest == d + [':'] + (s + rest);
    NatEndedByRoundTrip(|s|, ':', s + rest);
    assert (s + rest)[..|s|] == s && (s + rest)[|s|..] == rest;
  }

  lemma StrCanonical(t: string)
    requires ParseStr(t).Some?
    ensures t == EncStr(ParseStr(t).value.value) + ParseStr(t).value.rest
  {
    var n := ParseNatEndedBy(t, ':').value;
    NatEndedByCanonical(t, ':');
    assert n.rest == n.rest[..n.value] + n.rest[n.value..];
  }

  function EncInt(i: int): string {
    if i >= 0 then "+" + EncNat(i) else "-" + EncNat(-i - 1)
  }

  function ParseInt(t: string): Option<Parsed<int>> {
    if t == [] then None
    else if t[0] == '+' then
      match ParseNat(t[1..])
      case None => None
      case Some(n) =>
      var i: int := n.value;
      Some(Parsed(i, n.rest))
    else if t[0] == '-' then
      match ParseNat(t[1..])
      case None => None
      case Some(n) =>
      var m: int := n.value;
      var i := -m - 1;
      Some(Parsed(i, n.rest))
    else None
  }

  /** The sign character selects how the natural after it is read back. */
  lemma ParseIntSign(t: string, n: Parsed<nat>)
    requires t != [] && ParseNat(t[1..]) == Some(n)
    ensures t[0] == '+' ==> ParseInt(t) == Some(Parsed(n.value, n.rest))
    ensures t[0] == '-' ==> ParseInt(t) == Some(Parsed(-(n.value as int) - 1, n.rest))
  {
  }

  lemma IntRoundTrip(i: int, rest: string)
    ensures ParseInt(EncInt(i) + rest) == Some(Parsed(i, rest))
  {
    var m: nat := if i >= 0 then i else -i - 1;
    var t := EncInt(i) + rest;
    assert t[0] == (if i >= 0 then '+' else '-') && t[1..] == EncNat(m) + rest;
    NatRoundTrip(m, rest);
    ParseIntSign(t, Parsed(m, rest));
  }

  lemma IntCanonical(t: string)
    requires ParseInt(t).Some?
    ensures t == EncInt(ParseInt(t).value.value) + ParseInt(t).value.rest
  {
    var n := ParseNat(t[1..]).value;
    NatCanonical(t[1..]);
    ParseIntSign(t, n);
    SignedCanonical(t, n, ParseInt(t).value);
  }

  /** A sign, then the canonical natural `n` and the rest, is the encoding of the signed value read. */
  lemma SignedCanonical(t: string, n: Parsed<nat>, p: Parsed<int>)
    requires t != [] && (t[0] == '+' || t[0] == '-') && t[1..] == EncNat(n.value) + n.rest
    requires t[0] == '+' ==> p == Parsed(n.value, n.rest)
    requires t[0] == '-' ==> p == Parsed(-(n.value as int) - 1, n.rest)
    ensures t == EncInt(p.value) + p.rest
  {
    EncIntSign(n.value);
    assert t == [t[0]] + t[1..];
  }

  lemma EncIntSign(m: nat)
    ensures EncInt(m) == "+" + EncNat(m)
    ensures EncInt(-(m as int) - 1) == "-" + EncNat(m)
  {
  }

  function EncOptStr(o: Option<string>): string {
    match o
    case None => "N"
    case Some(s) => "S" + EncStr(s)
  }

  function ParseOptStr(t: string): Option<Parsed<Option<string>>> {
    if t == [] then None
    else if t[0] == 'N' then Some(Parsed(None, t[1..]))
    else if t[0] == 'S' then
      match ParseStr(t[1..])
      case None => None
      case Some(s) =>
      Some(Parsed(Some(s.value), s.rest))
    else None
  }

  /** A tag character followed by a body: the tag comes first, then the body and what follows it. */
  lemma Tagged(c: char, body: string, rest: string)
    ensures var t := [c] + body + rest; t != [] && t[0] == c && t[1..] == body + rest
  {
    assert ([c] + body + rest)[1..] == body + rest;
  }

  lemma ParseOptStrSome(t: string, x: Parsed<string>)
    requires t != [] && t[0] == 'S' && ParseStr(t[1..]) == Some(x)
    ensures ParseOptStr(t) == Some(Parsed(Some(x.value), x.rest))
  {
  }

  lemma OptStrRoundTrip(o: Option<string>, rest: string)
    ensures ParseOptStr(EncOptStr(o) + rest) == Some(Parsed(o, rest))
  {
    if o.Some? {
      Tagged('S', EncStr(o.value), rest);
      StrRoundTrip(o.value, rest);
      ParseOptStrSome(EncOptStr(o) + rest, Parsed(o.value, rest));
    } else {
      Tagged('N', [], rest);
    }
  }

  lemma OptStrCanonical(t: string)
    requires ParseOptStr(t).Some?
    ensures t == EncOptStr(ParseOptStr(t).value.value) + ParseOptStr(t).value.rest
  {
    if t[0] == 'S' {
      StrCanonical(t[1..]);
    }
    assert t == [t[0]] + t[1..];
  }

  function EncOptInt(o: Option<int>): string {
    match o
    case None => "N"
    case Some(i) => "S" + EncInt(i)
  }

  function ParseOptInt(t: string): Option<Parsed<Option<int>>> {
    if t == [] then None
    else if t[0] == 'N' then Some(Parsed(None, t[1..]))
    else if t[0] == 'S' then
      match ParseInt(t[1..])
      case None => None
      case Some(i) =>
      Some(Parsed(Some(i.value), i.rest))
    else None
  }

  lemma ParseOptIntSome(t: string, x: Parsed<int>)
    requires t != [] && t[0] == 'S' && ParseInt(t[1..]) == Some(x)
    ensures ParseOptInt(t) == Some(Parsed(Some(x.value), x.rest))
  {
  }

  lemma OptIntRoundTrip(o: Option<int>, rest: string)
    ensures ParseOptInt(EncOptInt(o) + rest) == Some(Parsed(o, rest))
  {
    if o.Some? {
      Tagged('S', EncInt(o.value), rest);
      IntRoundTrip(o.value, rest);
      ParseOptIntSome(EncOptInt(o) + rest, Parsed(o.value, rest));
    } else {
      Tagged('N', [], rest);
    }
  }

  lemma OptIntCanonical(t: string)
    requires ParseOptInt(t).Some?
    ensures t == EncOptInt(ParseOptInt(t).value.value) + ParseOptInt(t).value.rest
  {
    if t[0] == 'S' {
      IntCanonical(t[1..]);
    }
    assert t == [t[0]] + t[1..];
  }

  function EncStrItems(xs: seq<string>): string {
    if xs == [] then [] else EncStr(xs[0]) + EncStrItems(xs[1..])
  }

  /** Exactly `count` strings, one after the other. */
  function ParseStrItems(t: string, count: nat): (r: Option<Parsed<seq<string>>>)
    ensures r.Some? ==> |r.value.value| == count
    decreases count
  {
    if count == 0 then Some(Parsed([], t))
    else
      match ParseStr(t)
      case None => None
      case Some(x) =>
      match ParseStrItems(x.rest, count - 1)
      case None => None
      case Some(xs) =>
      Some(Parsed([x.value] + xs.value, xs.rest))
  }

  lemma EncStrItemsHead(xs: seq<string>, rest: string)
    requires xs != []
    ensures EncStrItems(xs) + rest == EncStr(xs[0]) + (EncStrItems(xs[1..]) + rest)
  {
  }

  /** Reading one more string is reading it, then the remaining ones. */
  lemma ParseStrItemsCons(t: string, x: Parsed<string>, xs: Parsed<seq<string>>, n: nat)
    requires ParseStr(t) == Some(x) && ParseStrItems(x.rest, n) == Some(xs)
    ensures ParseStrItems(t, n + 1) == Some(Parsed([x.value] + xs.value, xs.rest))
  {
  }

  lemma {:induction false} StrItemsRoundTrip(xs: seq<string>, rest: string)
    ensures ParseStrItems(EncStrItems(xs) + rest, |xs|) == Some(Parsed(xs, rest))
  {
    if xs != [] {
      var tail := EncStrItems(xs[1..]) + rest;
      var t := EncStrItems(xs) + rest;
      EncStrItemsHead(xs, rest);
      StrRoundTrip(xs[0], tail);
      StrItemsRoundTrip(xs[1..], rest);
      ParseStrItemsCons(t, Parsed(xs[0], tail), Parsed(xs[1..], rest), |xs| - 1);
      assert [xs[0]] + xs[1..] == xs;
    } else {
      assert EncStrItems(xs) + rest == rest;
    }
  }

  lemma StrItemsCanonical(t: string, count: nat, p: Parsed<seq<string>>)
    requires ParseStrItems(t, count) == Some(p)
    ensures t == EncStrItems(p.value) + p.rest
    decreases count
  {
    if count > 0 {
      var x, xs := ParseStrItemsStep(t, count);
      StrItemsCanonical(x.rest, count - 1, xs);
      StrCanonical(t);
      EncStrItemsJoin(t, x.value, x.rest, xs.value, xs.rest);
    }
  }

  /** Reading `count > 0` strings is reading one, `x`, then `count - 1`, `xs`. */
  lemma ParseStrItemsStep(t: string, count: nat) returns (x: Parsed<string>, xs: Parsed<seq<string>>)
    requires count > 0 && ParseStrItems(t, count).Some?
    ensures ParseStr(t) == Some(x)
    ensures ParseStrItems(x.rest, count - 1) == Some(xs)
    ensures ParseStrItems(t, count) == Some(Parsed([x.value] + xs.value, xs.rest))
  {
    x := ParseStr(t).value;
    xs := ParseStrItems(x.rest, count - 1).value;
  }

  lemma EncStrItemsJoin(t: string, x: string, mid: string, xs: seq<string>, rest: string)
    requires t == EncStr(x) + mid && mid == EncStrItems(xs) + rest
    ensures t == EncStrItems([x] + xs) + rest
  {
    EncStrItemsCons(x, xs);
  }

  lemma EncStrItemsCons(x: string, xs: seq<string>)
    ensures EncStrItems([x] + xs) == EncStr(x) + EncStrItems(xs)
  {
    assert ([x] + xs)[0] == x && ([x] + xs)[1..] == xs;
  }

  function EncStrs(xs: seq<string>): string {
    EncNat(|xs|) + EncStrItems(xs)
  }

  function ParseStrs(t: string): Option<Parsed<seq<string>>> {
    match ParseNat(t)
    case None => None
    case Some(n) =>
    ParseStrItems(n.rest, n.value)
  }

  lemma StrsRoundTrip(xs: seq<string>, rest: string)
    ensures ParseStrs(EncStrs(xs) + rest) == Some(Parsed(xs, rest))
  {
    assert EncStrs(xs) + rest == EncNat(|xs|) + (EncStrItems(xs) + rest);
    NatRoundTrip(|xs|, EncStrItems(xs) + rest);
    StrItemsRoundTrip(xs, rest);
  }

  lemma StrsCanonical(t: string)
    requires ParseStrs(t).Some?
    ensures t == EncStrs(ParseStrs(t).value.value) + ParseStrs(t).value.rest
  {
    var n := ParseNat(t).value;
    NatCanonical(t);
    StrItemsCanonical(n.rest, n.value, ParseStrs(t).value);
  }
}

=== FILE: deep_research.dfy ===
/**
 * The deep-research plugin: splitting long replies into chunks that fit a chat message,
 * expanding each long reply into numbered "Part k/n" messages, the keyword trigger, and the
 * research prompt built from the requested depth.
 */
module DeepResearch {
  import opened Wrappers
  import opened Strings
  import opened Messages
  import opened Lists

  /** The chunk size the hook asks for. */
  const ChunkLimit: int := 1900

  // ---------------------------------------------------------------------------------------------
  // Sentence split: `re.split(r'(?<=[.!?])\s+', para)`

  predicate IsSentenceEnd(c: char) {
    c == '.' || c == '!' || c == '?'
  }

  /** A whitespace run starting at `i` that the pattern splits on. */
  predicate BreaksAt(s: string, i: int) {
    1 <= i < |s| && IsSentenceEnd(s[i - 1]) && IsSpace(s[i])
  }

  /** The first split point at or after `from`, or `|s|` when there is none. */
  function NextBreak(s: string, from: nat): (i: nat)
    requires from >= 1
    ensures i <= |s| || i == from
    ensures i < |s| ==> BreaksAt(s, i) && from <= i
    ensures forall j :: from <= j < i ==> !BreaksAt(s, j)
    decreases |s| - from
  {
    if from >= |s| then (if from > |s| then from else |s|)
    else if BreaksAt(s, from) then from
    else NextBreak(s, from + 1)
  }

  /** The end of the whitespace run starting at `i` (the regex `\s+` is greedy). */
  function RunEnd(s: string, i: nat): (j: nat)
    requires i <= |s|
    ensures i <= j <= |s|
    ensures AllSpace(s[i..j])
    ensures j < |s| ==> !IsSpace(s[j])
    ensures i < |s| && IsSpace(s[i]) ==> j > i
    decreases |s| - i
  {
    if i == |s| || !IsSpace(s[i]) then i
    else
      var j := RunEnd(s, i + 1);
      assert s[i..j] == [s[i]] + s[i + 1..j];
      j
  }

  /** The pieces between split points, left to right; the last piece may be empty. */
  function Sentences(s: string): (ss: seq<string>)
    ensures |ss| > 0
    decreases |s|
  {
    var i := NextBreak(s, 1);
    if i >= |s| then [s]
    else
      var j := RunEnd(s, i);
      [s[..i]] + Sentences(s[j..])
  }

  /** Splitting drops only whitespace: the non-whitespace characters are kept, in order. */
  lemma {:induction false} SentencesKeepText(s: string)
    ensures RemoveSpace(Concat(Sentences(s))) == RemoveSpace(s)
    decreases |s|
  {
    var i := NextBreak(s, 1);
    if i < |s| {
      var j := RunEnd(s, i);
      var rest := s[j..];
      assert Sentences(s) == [s[..i]] + Sentences(rest);
      SentencesKeepText(rest);
      ConcatCons(s[..i], Sentences(rest));
      RemoveSpaceConcat(s[..i], Concat(Sentences(rest)));
      RemoveSpaceCut(s, i, j);
    } else {
      ConcatOne(s);
    }
  }

  // ---------------------------------------------------------------------------------------------
  // Chunking: the packing loop as a left fold

  /** The loop state: chunks emitted so far and the chunk being filled. */
  datatype Packing = Packing(chunks: seq<string>, current: string)

  /** `if current_chunk: chunks.append(current_chunk.strip())` */
  function Emit(chunks: seq<string>, current: string): seq<string> {
    if current != [] then chunks + [Strip(current)] else chunks
  }

  /** One step of the sentence loop. */
  function AddSentence(st: Packing, s: string, maxLength: int): Packing {
    if |st.current| + |s| + 1 > maxLength then
      Packing(Emit(st.chunks, st.current), s + " ")
    else
      Packing(st.chunks, st.current + s + " ")
  }

  function AddSentences(st: Packing, ss: seq<string>, maxLength: int): Packing
    decreases |ss|
  {
    if ss == [] then st else AddSentence(AddSentences(st, ss[..|ss| - 1], maxLength), ss[|ss| - 1], maxLength)
  }

  /** One step of the paragraph loop; an over-long paragraph goes through the sentence loop. */
  function AddParagraph(st: Packing, p: string, maxLength: int): Packing {
    if |st.current| + |p| + 2 > maxLength then
      var flushed := Packing(Emit(st.chunks, st.current), []);
      if |p| > maxLength then AddSentences(flushed, Sentences(p), maxLength)
      else Packing(flushed.chunks, p + "\n\n")
    else
      Packing(st.chunks, st.current + p + "\n\n")
  }

  function AddParagraphs(st: Packing, ps: seq<string>, maxLength: int): Packing
    decreases |ps|
  {
    if ps == [] then st else AddParagraph(AddParagraphs(st, ps[..|ps| - 1], maxLength), ps[|ps| - 1], maxLength)
  }

  /** The paragraph loop run over `text.split("\n\n")` from an empty state. */
  function Pack(text: string, maxLength: int): Packing {
    AddParagraphs(Packing([], []), SplitOn(text, "\n\n"), maxLength)
  }

  /** `if current_chunk.strip(): chunks.append(current_chunk.strip())` */
  function Finish(st: Packing): seq<string> {
    if Strip(st.current) != [] then st.chunks + [Strip(st.current)] else st.chunks
  }

  /** `chunk_message(text, maxLength)` */
  function Chunks(text: string, maxLength: int): seq<string> {
    if |text| <= maxLength then [text] else Finish(Pack(text, maxLength))
  }

  lemma AddSentencesStep(st: Packing, ss: seq<string>, i: nat, maxLength: int)
    requires i < |ss|
    ensures AddSentences(st, ss[..i + 1], maxLength) == AddSentence(AddSentences(st, ss[..i], maxLength), ss[i], maxLength)
  {
    assert ss[..i + 1][..i] == ss[..i];
  }

  lemma AddParagraphsStep(st: Packing, ps: seq<string>, i: nat, maxLength: int)
    requires i < |ps|
    ensures AddParagraphs(st, ps[..i + 1], maxLength) == AddParagraph(AddParagraphs(st, ps[..i], maxLength), ps[i], maxLength)
  {
    assert ps[..i + 1][..i] == ps[..i];
  }

  /** One pass of the sentence loop of `chunk_message`. */
  method PackSentence(chunks0: seq<string>, current0: string, sentence: string, maxLength: int)
    returns (chunks: seq<string>, current: string)
    ensures Packing(chunks, current) == AddSentence(Packing(chunks0, current0), sentence, maxLength)
  {
    chunks, current := chunks0, current0;
    if |current| + |sentence| + 1 > maxLength {
      if current != "" {
        chunks := chunks + [Strip(current)];
      }
      current := sentence + " ";
    } else {
      current := current + sentence + " ";
    }
  }

  /** The sentence loop of `chunk_message` for an over-long paragraph. */
  method PackSentences(chunks0: seq<string>, current0: string, sentences: seq<string>, maxLength: int)
    returns (chunks: seq<string>, current: string)
    ensures Packing(chunks, current) == AddSentences(Packing(chunks0, current0), sentences, maxLength)
  {
    chunks, current := chunks0, current0;
    var j := 0;
    while j < |sentences|
      invariant 0 <= j <= |sentences|
      invariant Packing(chunks, current) == AddSentences(Packing(chunks0, current0), sentences[..j], maxLength)
    {
      chunks, current := PackSentence(chunks, current, sentences[j], maxLength);
      AddSentencesStep(Packing(chunks0, current0), sentences, j, maxLength);
      j := j + 1;
    }
    assert sentences[..j] == sentences;
  }

  /** One pass of the paragraph loop of `chunk_message`. */
  method PackParagraph(chunks0: seq<string>, current0: string, para: string, maxLength: int)
    returns (chunks: seq<string>, current: string)
    ensures Packing(chunks, current) == AddParagraph(Packing(chunks0, current0), para, maxLength)
  {
    chunks, current := chunks0, current0;
    if |current| + |para| + 2 > maxLength {
      if current != "" {
        chunks := chunks + [Strip(current)];
        current := "";
      }
      if |para| > maxLength {
        chunks, current := PackSentences(chunks, current, Sentences(para), maxLength);
      } else {
        current := para + "\n\n";
      }
    } else {
      current := current + para + "\n\n";
    }
  }

  /** The loop of `chunk_message`, paragraph by paragraph and, for an over-long one, sentence by sentence. */
  method ChunkMessage(text: string, maxLength: int) returns (chunks: seq<string>)
    ensures chunks == Chunks(text, maxLength)
  {
    if |text| <= maxLength {
      return [text];
    }
    chunks := [];
    var current := "";
    var paragraphs := SplitOn(text, "\n\n");
    var i := 0;
    while i < |paragraphs|
      invariant 0 <= i <= |paragraphs|
      invariant Packing(chunks, current) == AddParagraphs(Packing([], []), paragraphs[..i], maxLength)
    {
      chunks, current := PackParagraph(chunks, current, paragraphs[i], maxLength);
      AddParagraphsStep(Packing([], []), paragraphs, i, maxLength);
      i := i + 1;
    }
    assert paragraphs[..i] == paragraphs;
    if Strip(current) != "" {
      chunks := chunks + [Strip(current)];
    }
  }

  // ---------------------------------------------------------------------------------------------
  // What chunking guarantees

  /** A text that fits is returned as the single chunk, untouched. */
  lemma ShortTextIsOneChunk(text: string, maxLength: int)
    requires |text| <= maxLength
    ensures Chunks(text, maxLength) == [text]
  {
  }

  /** `"\n\nabc".split("\n\n")` is `["", "abc"]`. */
  lemma SplitBlankLead()
    ensures SplitOn("\n\nabc", "\n\n") == ["", "abc"]
  {
    var text := "\n\nabc";
    assert text[..2] == "\n\n" && text[..0] == "" && text[2..] == "abc";
    assert Find(text, "\n\n") == 0;
    assert "abc"[1..] == "bc" && "bc"[1..] == "c";
    assert "abc"[..2] == "ab" && "bc"[..2] == "bc";
    assert Find("c", "\n\n") == -1;
    assert Find("bc", "\n\n") == -1;
    assert Find("abc", "\n\n") == -1;
  }

  /** `"abc"` has no sentence break. */
  lemma OneSentence()
    ensures Sentences("abc") == ["abc"]
  {
    assert !BreaksAt("abc", 1) && !BreaksAt("abc", 2);
    assert NextBreak("abc", 1) == 3;
  }

  /** A blank paragraph strips to nothing. */
  lemma StripBlank()
    ensures Strip("\n\n") == ""
  {
    assert IsSpace('\n');
    assert "\n\n"[..1] == "\n" && "\n"[..0] == "";
    assert RStrip("") == "";
    assert RStrip("\n") == "";
    assert RStrip("\n\n") == "";
    assert LStrip("") == "";
  }

  /** A sentence with its trailing space strips to the sentence. */
  lemma StripSentence()
    ensures Strip("abc ") == "abc"
  {
    assert IsSpace(' ') && !IsSpace('c') && !IsSpace('a');
    assert "abc "[..3] == "abc";
    assert RStrip("abc") == "abc";
    assert RStrip("abc ") == "abc";
    assert LStrip("abc") == "abc";
  }

  /** The blank first paragraph of the example below is left pending. */
  lemma FirstParagraphPending()
    ensures AddParagraphs(Packing([], []), [""], 2) == Packing([], "\n\n")
  {
    assert [""][..0] == [];
    assert AddParagraphs(Packing([], []), [], 2) == Packing([], []);
  }

  /** The sentence loop over `["abc"]` with limit 2, after the flush. */
  lemma OneSentencePacked()
    ensures AddSentences(Packing([""], []), ["abc"], 2) == Packing([""], "abc ")
  {
    assert ["abc"][..0] == [];
    assert "abc" + " " == "abc ";
    assert AddSentence(Packing([""], []), "abc", 2) == Packing([""], "abc ");
  }

  /** The over-long second paragraph flushes the pending blank one as an empty chunk. */
  lemma SecondParagraphFlushes()
    ensures AddParagraph(Packing([], "\n\n"), "abc", 2) == Packing([""], "abc ")
  {
    OneSentence();
    StripBlank();
    OneSentencePacked();
    assert Emit([], "\n\n") == [""];
  }

  /** The paragraph loop over `"\n\nabc"` with limit 2. */
  lemma PackBlankLead()
    ensures Pack("\n\nabc", 2) == Packing([""], "abc ")
  {
    SplitBlankLead();
    FirstParagraphPending();
    SecondParagraphFlushes();
    var ps := ["", "abc"];
    assert ps[..1] == [""];
    assert AddParagraphs(Packing([], []), ps, 2) == AddParagraph(AddParagraphs(Packing([], []), ps[..1], 2), "abc", 2);
  }

  /**
   * The length bound is not kept in general, and a chunk can be empty. A blank first paragraph
   * leaves `"\n\n"` pending, which is flushed as the empty chunk. A sentence longer than
   * `max_length` is kept whole.
   */
  lemma LeadingBlankChunk()
    ensures Chunks("\n\nabc", 2) == ["", "abc"]
  {
    PackBlankLead();
    StripSentence();
  }

  predicate AllStripped(cs: seq<string>) {
    forall k :: 0 <= k < |cs| ==> Stripped(cs[k])
  }

  /** The non-whitespace characters of everything emitted or pending. */
  function Flat(st: Packing): string {
    RemoveSpace(Concat(st.chunks)) + RemoveSpace(st.current)
  }

  /** Every chunk fits, and so does the pending one once stripped. */
  predicate Bounded(st: Packing, maxLength: int) {
    (forall k :: 0 <= k < |st.chunks| ==> |st.chunks[k]| <= maxLength) && |Strip(st.current)| <= maxLength
  }

  lemma EmitStripped(chunks: seq<string>, current: string)
    requires AllStripped(chunks)
    ensures AllStripped(Emit(chunks, current))
  {
    if current != [] {
      var cs := chunks + [Strip(current)];
      forall k | 0 <= k < |cs| ensures Stripped(cs[k]) {
        if k < |chunks| {
          assert cs[k] == chunks[k];
        }
      }
    }
  }

  lemma EmitKeepsText(chunks: seq<string>, current: string)
    ensures RemoveSpace(Concat(Emit(chunks, current))) == RemoveSpace(Concat(chunks)) + RemoveSpace(current)
  {
    if current != [] {
      ConcatSnoc(chunks, Strip(current));
      RemoveSpaceConcat(Concat(chunks), Strip(current));
      RemoveSpaceStrip(current);
    } else {
      assert RemoveSpace(current) == [];
    }
  }

  lemma EmitBounded(st: Packing, maxLength: int)
    requires Bounded(st, maxLength)
    ensures forall k :: 0 <= k < |Emit(st.chunks, st.current)| ==> |Emit(st.chunks, st.current)[k]| <= maxLength
  {
    if st.current != [] {
      var cs := st.chunks + [Strip(st.current)];
      forall k | 0 <= k < |cs| ensures |cs[k]| <= maxLength {
        if k < |st.chunks| {
          assert cs[k] == st.chunks[k];
        }
      }
    }
  }

  /** Appending `s` and trailing whitespace `w` to the pending chunk adds exactly `s`'s non-whitespace. */
  lemma AppendKeepsText(current: string, s: string, w: string)
    requires AllSpace(w)
    ensures RemoveSpace(current + s + w) == RemoveSpace(current) + RemoveSpace(s)
  {
    RemoveSpaceConcat(current + s, w);
    RemoveSpaceConcat(current, s);
    RemoveSpaceOfSpace(w);
  }

  /** Emitting the pending chunk and starting a new one with `x` and whitespace `w` adds exactly `x`'s non-whitespace. */
  lemma RestartKeepsText(st: Packing, x: string, w: string)
    requires AllSpace(w)
    ensures Flat(Packing(Emit(st.chunks, st.current), x + w)) == Flat(st) + RemoveSpace(x)
  {
    EmitKeepsText(st.chunks, st.current);
    RemoveSpaceConcat(x, w);
    RemoveSpaceOfSpace(w);
  }

  lemma {:induction false} AddSentencesStripped(st: Packing, ss: seq<string>, maxLength: int)
    requires AllStripped(st.chunks)
    ensures AllStripped(AddSentences(st, ss, maxLength).chunks)
    decreases |ss|
  {
    if ss != [] {
      var mid := AddSentences(st, ss[..|ss| - 1], maxLength);
      AddSentencesStripped(st, ss[..|ss| - 1], maxLength);
      EmitStripped(mid.chunks, mid.current);
    }
  }

  lemma {:induction false} AddParagraphsStripped(st: Packing, ps: seq<string>, maxLength: int)
    requires AllStripped(st.chunks)
    ensures AllStripped(AddParagraphs(st, ps, maxLength).chunks)
    decreases |ps|
  {
    if ps != [] {
      var mid := AddParagraphs(st, ps[..|ps| - 1], maxLength);
      AddParagraphsStripped(st, ps[..|ps| - 1], maxLength);
      var p := ps[|ps| - 1];
      EmitStripped(mid.chunks, mid.current);
      var flushed := Packing(Emit(mid.chunks, mid.current), []);
      AddSentencesStripped(flushed, Sentences(p), maxLength);
    }
  }

  /** When a text is split, no chunk begins or ends with whitespace. */
  lemma ChunksStripped(text: string, maxLength: int)
    requires |text| > maxLength
    ensures AllStripped(Chunks(text, maxLength))
  {
    var st := AddParagraphs(Packing([], []), SplitOn(text, "\n\n"), maxLength);
    AddParagraphsStripped(Packing([], []), SplitOn(text, "\n\n"), maxLength);
    if Strip(st.current) != [] {
      EmitStripped(st.chunks, Strip(st.current));
      assert Strip(Strip(st.current)) == Strip(st.current) by {
        StripOfStripped(Strip(st.current));
      }
    }
  }

  lemma AddSentenceKeepsText(st: Packing, s: string, maxLength: int)
    ensures Flat(AddSentence(st, s, maxLength)) == Flat(st) + RemoveSpace(s)
  {
    var next := AddSentence(st, s, maxLength);
    if |st.current| + |s| + 1 > maxLength {
      assert next == Packing(Emit(st.chunks, st.current), s + " ");
      SpaceLiterals();
      RestartKeepsText(st, s, " ");
    } else {
      assert next == Packing(st.chunks, st.current + s + " ");
      SpaceLiterals();
      AppendKeepsText(st.current, s, " ");
    }
  }

  lemma {:induction false} AddSentencesKeepText(st: Packing, ss: seq<string>, maxLength: int)
    ensures Flat(AddSentences(st, ss, maxLength)) == Flat(st) + RemoveSpace(Concat(ss))
    decreases |ss|
  {
    if ss != [] {
      var init := ss[..|ss| - 1];
      AddSentencesKeepText(st, init, maxLength);
      AddSentenceKeepsText(AddSentences(st, init, maxLength), ss[|ss| - 1], maxLength);
      RemoveSpaceConcat(Concat(init), ss[|ss| - 1]);
    } else {
      assert RemoveSpace(Concat(ss)) == [];
    }
  }

  lemma FlushKeepsText(st: Packing)
    ensures Flat(Packing(Emit(st.chunks, st.current), [])) == Flat(st)
  {
    EmitKeepsText(st.chunks, st.current);
    assert RemoveSpace([]) == [];
  }

  lemma SentenceLoopKeepsText(st: Packing, p: string, maxLength: int)
    ensures Flat(AddSentences(st, Sentences(p), maxLength)) == Flat(st) + RemoveSpace(p)
  {
    AddSentencesKeepText(st, Sentences(p), maxLength);
    SentencesKeepText(p);
  }

  /** An over-long paragraph after a flush goes through the sentence loop. */
  lemma LongParagraphKeepsText(st: Packing, p: string, maxLength: int)
    requires |st.current| + |p| + 2 > maxLength && |p| > maxLength
    ensures Flat(AddParagraph(st, p, maxLength)) == Flat(st) + RemoveSpace(p)
  {
    var flushed := Packing(Emit(st.chunks, st.current), []);
    assert AddParagraph(st, p, maxLength) == AddSentences(flushed, Sentences(p), maxLength);
    FlushKeepsText(st);
    SentenceLoopKeepsText(flushed, p, maxLength);
  }

  lemma AddParagraphKeepsText(st: Packing, p: string, maxLength: int)
    ensures Flat(AddParagraph(st, p, maxLength)) == Flat(st) + RemoveSpace(p)
  {
    if |st.current| + |p| + 2 > maxLength && |p| > maxLength {
      LongParagraphKeepsText(st, p, maxLength);
    } else if |st.current| + |p| + 2 > maxLength {
      AddParagraphRestarts(st, p, maxLength);
      SpaceLiterals();
      RestartKeepsText(st, p, "\n\n");
    } else {
      AddParagraphAppends(st, p, maxLength);
      SpaceLiterals();
      AppendedKeepsText(st, p, "\n\n");
    }
  }

  lemma AddParagraphAppends(st: Packing, p: string, maxLength: int)
    requires |st.current| + |p| + 2 <= maxLength
    ensures AddParagraph(st, p, maxLength) == Packing(st.chunks, st.current + p + "\n\n")
  {
  }

  lemma AddParagraphRestarts(st: Packing, p: string, maxLength: int)
    requires |st.current| + |p| + 2 > maxLength && |p| <= maxLength
    ensures AddParagraph(st, p, maxLength) == Packing(Emit(st.chunks, st.current), p + "\n\n")
  {
  }

  /** Appending `x` and whitespace `w` to the pending chunk adds exactly `x`'s non-whitespace. */
  lemma AppendedKeepsText(st: Packing, x: string, w: string)
    requires AllSpace(w)
    ensures Flat(Packing(st.chunks, st.current + x + w)) == Flat(st) + RemoveSpace(x)
  {
    AppendKeepsText(st.current, x, w);
  }

  lemma {:induction false} AddParagraphsKeepText(st: Packing, ps: seq<string>, maxLength: int)
    ensures Flat(AddParagraphs(st, ps, maxLength)) == Flat(st) + RemoveSpace(Concat(ps))
    decreases |ps|
  {
    if ps != [] {
      var init := ps[..|ps| - 1];
      AddParagraphsKeepText(st, init, maxLength);
      AddParagraphKeepsText(AddParagraphs(st, init, maxLength), ps[|ps| - 1], maxLength);
      RemoveSpaceConcat(Concat(init), ps[|ps| - 1]);
    } else {
      assert RemoveSpace(Concat(ps)) == [];
    }
  }

  lemma PackKeepsText(text: string, maxLength: int)
    ensures Flat(Pack(text, maxLength)) == RemoveSpace(text)
  {
    var ps := SplitOn(text, "\n\n");
    AddParagraphsKeepText(Packing([], []), ps, maxLength);
    assert Flat(Packing([], [])) == [];
    assert Flat(Pack(text, maxLength)) == RemoveSpace(Concat(ps));
    JoinSplitOn(text, "\n\n");
    SpaceLiterals();
    RemoveSpaceJoin(ps, "\n\n");
  }

  lemma FinishKeepsText(st: Packing)
    ensures RemoveSpace(Concat(Finish(st))) == Flat(st)
  {
    RemoveSpaceStrip(st.current);
    if Strip(st.current) != [] {
      ConcatSnoc(st.chunks, Strip(st.current));
      RemoveSpaceConcat(Concat(st.chunks), Strip(st.current));
    } else {
      assert RemoveSpace(st.current) == [];
    }
  }

  /** No content is lost or reordered: chunks and text agree once whitespace is removed. */
  lemma ChunksKeepText(text: string, maxLength: int)
    ensures RemoveSpace(Concat(Chunks(text, maxLength))) == RemoveSpace(text)
  {
    if |text| <= maxLength {
      ConcatOne(text);
    } else {
      PackKeepsText(text, maxLength);
      FinishKeepsText(Pack(text, maxLength));
    }
  }

  /** Every sentence cut from an over-long paragraph fits. */
  predicate SentencesFit(text: string, maxLength: int) {
    var ps := SplitOn(text, "\n\n");
    forall k, m :: 0 <= k < |ps| && |ps[k]| > maxLength && 0 <= m < |Sentences(ps[k])| ==>
      |Sentences(ps[k])[m]| <= maxLength
  }

  lemma AddSentenceBounded(st: Packing, s: string, maxLength: int)
    requires Bounded(st, maxLength) && |s| <= maxLength
    ensures Bounded(AddSentence(st, s, maxLength), maxLength)
  {
    if |st.current| + |s| + 1 > maxLength {
      EmitBounded(st, maxLength);
      SpaceLiterals();
      StripSpaceSuffix(s, " ");
    } else {
      assert |st.current + s + " "| <= maxLength;
    }
  }

  lemma {:induction false} AddSentencesBounded(st: Packing, ss: seq<string>, maxLength: int)
    requires Bounded(st, maxLength)
    requires forall m :: 0 <= m < |ss| ==> |ss[m]| <= maxLength
    ensures Bounded(AddSentences(st, ss, maxLength), maxLength)
    decreases |ss|
  {
    if ss != [] {
      AddSentencesBounded(st, ss[..|ss| - 1], maxLength);
      AddSentenceBounded(AddSentences(st, ss[..|ss| - 1], maxLength), ss[|ss| - 1], maxLength);
    }
  }

  lemma AddParagraphBounded(st: Packing, p: string, maxLength: int)
    requires Bounded(st, maxLength) && maxLength >= 0
    requires |p| > maxLength ==> forall m :: 0 <= m < |Sentences(p)| ==> |Sentences(p)[m]| <= maxLength
    ensures Bounded(AddParagraph(st, p, maxLength), maxLength)
  {
    if |st.current| + |p| + 2 <= maxLength {
      AppendedParagraphBounded(st, p, maxLength);
    } else if |p| <= maxLength {
      RestartedParagraphBounded(st, p, maxLength);
    } else {
      SplitParagraphBounded(st, p, maxLength);
    }
  }

  lemma AppendedParagraphBounded(st: Packing, p: string, maxLength: int)
    requires Bounded(st, maxLength) && |st.current| + |p| + 2 <= maxLength
    ensures Bounded(AddParagraph(st, p, maxLength), maxLength)
  {
    assert AddParagraph(st, p, maxLength) == Packing(st.chunks, st.current + p + "\n\n");
  }

  lemma RestartedParagraphBounded(st: Packing, p: string, maxLength: int)
    requires Bounded(st, maxLength) && maxLength >= 0
    requires |st.current| + |p| + 2 > maxLength && |p| <= maxLength
    ensures Bounded(AddParagraph(st, p, maxLength), maxLength)
  {
    var next := AddParagraph(st, p, maxLength);
    assert next.chunks == Emit(st.chunks, st.current) && next.current == p + "\n\n";
    EmitBounded(st, maxLength);
    SpaceLiterals();
    StripSpaceSuffix(p, "\n\n");
  }

  lemma SplitParagraphBounded(st: Packing, p: string, maxLength: int)
    requires Bounded(st, maxLength) && maxLength >= 0
    requires |st.current| + |p| + 2 > maxLength && |p| > maxLength
    requires forall m :: 0 <= m < |Sentences(p)| ==> |Sentences(p)[m]| <= maxLength
    ensures Bounded(AddParagraph(st, p, maxLength), maxLength)
  {
    var flushed := Packing(Emit(st.chunks, st.current), []);
    FlushBounded(st, maxLength);
    AddSentencesBounded(flushed, Sentences(p), maxLength);
  }

  /** Emitting the pending chunk and starting an empty one keeps every chunk within the bound. */
  lemma FlushBounded(st: Packing, maxLength: int)
    requires Bounded(st, maxLength) && maxLength >= 0
    ensures Bounded(Packing(Emit(st.chunks, st.current), []), maxLength)
  {
    EmitBounded(st, maxLength);
  }

  lemma {:induction false} AddParagraphsBounded(st: Packing, ps: seq<string>, maxLength: int)
    requires Bounded(st, maxLength) && maxLength >= 0
    requires forall k, m :: 0 <= k < |ps| && |ps[k]| > maxLength && 0 <= m < |Sentences(ps[k])| ==>
      |Sentences(ps[k])[m]| <= maxLength
    ensures Bounded(AddParagraphs(st, ps, maxLength), maxLength)
    decreases |ps|
  {
    if ps != [] {
      var init := ps[..|ps| - 1];
      assert forall k :: 0 <= k < |init| ==> init[k] == ps[k];
      AddParagraphsBounded(st, init, maxLength);
      AddParagraphBounded(AddParagraphs(st, init, maxLength), ps[|ps| - 1], maxLength);
    }
  }

  /** When every sentence of an over-long paragraph fits, every chunk fits. */
  lemma ChunksFit(text: string, maxLength: int)
    requires maxLength >= 0
    requires SentencesFit(text, maxLength)
    ensures forall k :: 0 <= k < |Chunks(text, maxLength)| ==> |Chunks(text, maxLength)[k]| <= maxLength
  {
    if |text| > maxLength {
      var st := Pack(text, maxLength);
      AddParagraphsBounded(Packing([], []), SplitOn(text, "\n\n"), maxLength);
      FinishBounded(st, maxLength);
    }
  }

  /** The final flush keeps every chunk within the bound. */
  lemma FinishBounded(st: Packing, maxLength: int)
    requires Bounded(st, maxLength)
    ensures forall k :: 0 <= k < |Finish(st)| ==> |Finish(st)[k]| <= maxLength
  {
    if Strip(st.current) != [] {
      var cs := st.chunks + [Strip(st.current)];
      forall k | 0 <= k < |cs| ensures |cs[k]| <= maxLength {
        if k < |st.chunks| {
          assert cs[k] == st.chunks[k];
        }
      }
    }
  }

  // ---------------------------------------------------------------------------------------------
  // The channel hook

  function ResultsTitle(): string {
    "\U{1F52C} **Deep Research Results**"
  }

  function ContinuedTitle(): string {
    "\U{1F4C4} **Continued**"
  }

  /** The header of part `k` (from 0) of `n`. */
  function PartHeader(k: nat, n: nat): string {
    (if k == 0 then ResultsTitle() else ContinuedTitle()) + " (Part " + NatToString(k + 1) + "/" + NatToString(n) + ")\n\n"
  }

  /** `not message.thread_id and receiver.thread_id`: the receiver's thread fills an empty one. */
  function FillThread(own: Option<string>, receiver: Option<string>): Option<string> {
    if !Truthy(own) && Truthy(receiver) then receiver else own
  }

  /** One message per chunk, in order; only the first keeps the attachments. */
  function PartMessages(m: EventMessage, chunks: seq<string>, receiverThread: Option<string>): (parts: seq<EventMessage>)
    ensures |parts| == |chunks|
  {
    seq(|chunks|, k requires 0 <= k < |chunks| =>
      EventMessage(m.userId, m.chatId, OrElse(m.threadId, receiverThread), PartHeader(k, |chunks|) + chunks[k],
        if k == 0 then m.files else [], m.createdAt))
  }

  /** What the hook turns one message into. */
  function Expand(m: EventMessage, receiverThread: Option<string>): seq<EventMessage> {
    if m.text == [] then [m]
    else if |m.text| > ChunkLimit then PartMessages(m, Chunks(m.text, ChunkLimit), receiverThread)
    else [m.(text := ResultsTitle() + "\n\n" + m.text, threadId := FillThread(m.threadId, receiverThread))]
  }

  /** The expansion of each message, in input order. */
  function Expansions(ms: seq<EventMessage>, receiverThread: Option<string>): seq<seq<EventMessage>> {
    Map(m => Expand(m, receiverThread), ms)
  }

  function ExpandAll(ms: seq<EventMessage>, receiverThread: Option<string>): seq<EventMessage> {
    Concat(Expansions(ms, receiverThread))
  }

  /** The inner loop of `hook_run`: one numbered message per chunk. */
  method PartsOf(message: EventMessage, chunks: seq<string>, receiverThread: Option<string>)
    returns (parts: seq<EventMessage>)
    ensures parts == PartMessages(message, chunks, receiverThread)
  {
    parts := [];
    var chunkIdx := 0;
    while chunkIdx < |chunks|
      invariant 0 <= chunkIdx <= |chunks|
      invariant parts == PartMessages(message, chunks, receiverThread)[..chunkIdx]
    {
      var chunkText;
      if chunkIdx == 0 {
        chunkText := ResultsTitle() + " (Part " + NatToString(chunkIdx + 1) + "/" + NatToString(|chunks|) + ")\n\n" + chunks[chunkIdx];
      } else {
        chunkText := ContinuedTitle() + " (Part " + NatToString(chunkIdx + 1) + "/" + NatToString(|chunks|) + ")\n\n" + chunks[chunkIdx];
      }
      var chunkMessage := EventMessage(message.userId, message.chatId, OrElse(message.threadId, receiverThread),
        chunkText, if chunkIdx == 0 then message.files else [], message.createdAt);
      assert PartMessages(message, chunks, receiverThread)[chunkIdx] == chunkMessage;
      parts := parts + [chunkMessage];
      chunkIdx := chunkIdx + 1;
    }
  }

  /** The body of the loop of `hook_run` for one message. */
  method ExpandOne(message: EventMessage, receiverThread: Option<string>) returns (expanded: seq<EventMessage>)
    ensures expanded == Expand(message, receiverThread)
  {
    if message.text == "" {
      expanded := [message];
    } else if |message.text| > 1900 {
      var chunks := ChunkMessage(message.text, 1900);
      expanded := PartsOf(message, chunks, receiverThread);
    } else {
      var headed := message.(text := ResultsTitle() + "\n\n" + message.text);
      if !Truthy(headed.threadId) && Truthy(receiverThread) {
        headed := headed.(threadId := receiverThread);
      }
      expanded := [headed];
    }
  }

  /** `DeepResearchChannelHook.hook_run`: the task's new message list. */
  method HookRun(messages: seq<EventMessage>, receiverThread: Option<string>) returns (newMessages: seq<EventMessage>)
    ensures newMessages == ExpandAll(messages, receiverThread)
  {
    if messages == [] {
      return messages;
    }
    newMessages := [];
    var idx := 0;
    while idx < |messages|
      invariant 0 <= idx <= |messages|
      invariant newMessages == ExpandAll(messages[..idx], receiverThread)
    {
      var message := messages[idx];
      ExpandAllStep(messages, idx, receiverThread);
      var expanded := ExpandOne(message, receiverThread);
      newMessages := newMessages + expanded;
      idx := idx + 1;
    }
    assert messages[..idx] == messages;
  }

  /** Expanding one more message of `ms`. */
  lemma ExpandAllStep(ms: seq<EventMessage>, i: nat, receiverThread: Option<string>)
    requires i < |ms|
    ensures ExpandAll(ms[..i + 1], receiverThread) == ExpandAll(ms[..i], receiverThread) + Expand(ms[i], receiverThread)
  {
    assert ms[..i + 1] == ms[..i] + [ms[i]];
    ExpandAllSnoc(ms[..i], ms[i], receiverThread);
  }

  lemma ExpandAllSnoc(ms: seq<EventMessage>, m: EventMessage, receiverThread: Option<string>)
    ensures ExpandAll(ms + [m], receiverThread) == ExpandAll(ms, receiverThread) + Expand(m, receiverThread)
  {
    ExpandAllConcat(ms, [m], receiverThread);
    assert Expansions([m], receiverThread) == [Expand(m, receiverThread)];
    ConcatOne(Expand(m, receiverThread));
  }

  /** The output lists the expansions of the input messages in input order. */
  lemma ExpandAllConcat(a: seq<EventMessage>, b: seq<EventMessage>, receiverThread: Option<string>)
    ensures ExpandAll(a + b, receiverThread) == ExpandAll(a, receiverThread) + ExpandAll(b, receiverThread)
  {
    MapAppend(m => Expand(m, receiverThread), a, b);
    ConcatAppend(Expansions(a, receiverThread), Expansions(b, receiverThread));
  }

  /**
   * A long message becomes one message per chunk: part k of n carries the k-th chunk under the
   * header "Part k+1/n" (results title first, "Continued" after), keeps sender, chat and time,
   * goes to the message's thread or else the receiver's, and only part 1 keeps the files.
   * Together the parts carry the message's text, whitespace aside.
   */
  lemma LongMessageParts(m: EventMessage, receiverThread: Option<string>)
    requires |m.text| > ChunkLimit
    ensures var parts := Expand(m, receiverThread);
      var chunks := Chunks(m.text, ChunkLimit);
      |parts| == |chunks| &&
      (forall k :: 0 <= k < |parts| ==>
        parts[k].text == PartHeader(k, |parts|) + chunks[k] &&
        parts[k].userId == m.userId && parts[k].chatId == m.chatId && parts[k].createdAt == m.createdAt &&
        parts[k].threadId == OrElse(m.threadId, receiverThread) &&
        parts[k].files == (if k == 0 then m.files else [])) &&
      RemoveSpace(Concat(chunks)) == RemoveSpace(m.text)
  {
    ChunksKeepText(m.text, ChunkLimit);
  }

  /** The part number and count in a header read back as `k + 1` and `n`. */
  lemma PartHeaderNumbers(k: nat, n: nat)
    ensures var title := if k == 0 then ResultsTitle() else ContinuedTitle();
      var a := |title| + 7;
      var b := a + |NatToString(k + 1)|;
      PartHeader(k, n)[a..b] == NatToString(k + 1) && DigitsValue(PartHeader(k, n)[a..b]) == k + 1 &&
      PartHeader(k, n)[b + 1..b + 1 + |NatToString(n)|] == NatToString(n) &&
      DigitsValue(PartHeader(k, n)[b + 1..b + 1 + |NatToString(n)|]) == n
  {
    var title := if k == 0 then ResultsTitle() else ContinuedTitle();
    var d1, d2 := NatToString(k + 1), NatToString(n);
    var h := PartHeader(k, n);
    assert h == (title + " (Part ") + d1 + ("/" + d2 + ")\n\n");
    ThreeParts(title + " (Part ", d1, "/" + d2 + ")\n\n");
    assert h == (title + " (Part " + d1 + "/") + d2 + ")\n\n";
    ThreeParts(title + " (Part " + d1 + "/", d2, ")\n\n");
    DigitsValueOfNatToString(k + 1);
    DigitsValueOfNatToString(n);
  }

  /**
   * A message with text that fits gets the results title in front and keeps everything else,
   * except that an empty thread is filled from the receiver; a message without text passes
   * through unchanged.
   */
  lemma ShortMessageHeaded(m: EventMessage, receiverThread: Option<string>)
    requires |m.text| <= ChunkLimit
    ensures |Expand(m, receiverThread)| == 1
    ensures m.text == [] ==> Expand(m, receiverThread)[0] == m
    ensures m.text != [] ==> Expand(m, receiverThread)[0] == m.(text := Expand(m, receiverThread)[0].text,
      threadId := Expand(m, receiverThread)[0].threadId)
    ensures m.text != [] ==> Expand(m, receiverThread)[0].text == ResultsTitle() + "\n\n" + m.text
    ensures m.text != [] && Truthy(m.threadId) ==> Expand(m, receiverThread)[0].threadId == m.threadId
    ensures m.text != [] && !Truthy(m.threadId) && Truthy(receiverThread) ==>
      Expand(m, receiverThread)[0].threadId == receiverThread
    ensures m.text != [] && !Truthy(receiverThread) ==> Expand(m, receiverThread)[0].threadId == m.threadId
  {
  }

  // ---------------------------------------------------------------------------------------------
  // Trigger and prompt

  function ResearchKeywords(): seq<string> {
    ["research", "deep research", "analyze", "comprehensive", "detailed analysis", "investigate", "study", "explore"]
  }

  /** `DeepResearchTool.func_message`: whether the tool is offered for this text. */
  function FuncMessage(text: string): (offered: bool)
    ensures offered <==> exists k :: 0 <= k < |ResearchKeywords()| && Contains(Lower(text), ResearchKeywords()[k])
  {
    ScanKeywords(Lower(text), ResearchKeywords())
  }

  /** The opening line for each depth; anything but "overview" and "detailed" is comprehensive. */
  function Lead(depth: string): string {
    if depth == "overview" then "Provide a comprehensive overview of: "
    else if depth == "detailed" then "Provide an in-depth, detailed analysis of: "
    else "Perform comprehensive research on: "
  }

  function ResearchOutline(): string {
    "\n\nPlease structure your research as follows:\n" +
    "1. \U{1F4CB} Executive Summary\n" +
    "2. \U{1F50D} Key Findings\n" +
    "3. \U{1F4CA} Detailed Analysis\n" +
    "4. \U{1F4A1} Insights & Implications\n" +
    "5. \U{1F517} Related Topics\n" +
    "6. \U{2705} Conclusions\n\n" +
    "Provide thorough, well-researched content with specific details and examples."
  }

  /** The research instruction of `perform_deep_research`. */
  function ResearchPrompt(topic: string, aspects: Option<string>, depth: string): (prompt: string)
    ensures |prompt| >= |Lead(depth)| + |topic| + |ResearchOutline()|
    ensures prompt[..|Lead(depth)| + |topic|] == Lead(depth) + topic
    ensures prompt[|prompt| - |ResearchOutline()|..] == ResearchOutline()
    ensures |prompt| == |Lead(depth)| + |topic| + |ResearchOutline()| <==> !Truthy(aspects)
    ensures Truthy(aspects) ==>
      prompt[|Lead(depth)| + |topic|..|prompt| - |ResearchOutline()|] == "\n\nFocus on these specific aspects: " + aspects.value
  {
    var head := Lead(depth) + topic;
    var focus := if Truthy(aspects) then "\n\nFocus on these specific aspects: " + aspects.value else "";
    var prompt := head + focus + ResearchOutline();
    ThreeParts(head, focus, ResearchOutline());
    prompt
  }

  /** Characters 1 and 9 of each opening line: "Perform …" against "Provide a …" and "Provide an …". */
  lemma LeadMarks(d: string)
    ensures |Lead(d)| > 9
    ensures d == "overview" ==> Lead(d)[1] == 'r' && Lead(d)[9] == ' '
    ensures d != "overview" && d == "detailed" ==> Lead(d)[1] == 'r' && Lead(d)[9] == 'n'
    ensures d != "overview" && d != "detailed" ==> Lead(d)[1] == 'e'
  {
    OverviewMarks();
    DetailedMarks();
    ComprehensiveMarks();
  }

  lemma OverviewMarks()
    ensures var l := "Provide a comprehensive overview of: "; |l| > 9 && l[1] == 'r' && l[9] == ' '
  {}

  lemma DetailedMarks()
    ensures var l := "Provide an in-depth, detailed analysis of: "; |l| > 9 && l[1] == 'r' && l[9] == 'n'
  {}

  lemma ComprehensiveMarks()
    ensures var l := "Perform comprehensive research on: "; |l| > 9 && l[1] == 'e'
  {}

  /** The three opening lines tell the depths apart: no text starts with two different ones. */
  lemma LeadsDistinct(s: string, d1: string, d2: string)
    requires |s| >= |Lead(d1)| && s[..|Lead(d1)|] == Lead(d1)
    requires |s| >= |Lead(d2)| && s[..|Lead(d2)|] == Lead(d2)
    ensures Lead(d1) == Lead(d2)
  {
    LeadMarks(d1);
    LeadMarks(d2);
    assert Lead(d1)[1] == s[..|Lead(d1)|][1] == s[1] == s[..|Lead(d2)|][1] == Lead(d2)[1];
    assert Lead(d1)[9] == s[..|Lead(d1)|][9] == s[9] == s[..|Lead(d2)|][9] == Lead(d2)[9];
  }

  /** A text that starts with `a + b` starts with `a`. */
  lemma PrefixOfPrefix(p: string, a: string, b: string)
    requires |p| >= |a| + |b| && p[..|a| + |b|] == a + b
    ensures p[..|a|] == a
  {
    assert p[..|a|] == p[..|a| + |b|][..|a|];
  }

  /** A prompt opens with its depth's lead. */
  lemma PromptStartsWithLead(t: string, a: Option<string>, d: string)
    ensures |ResearchPrompt(t, a, d)| >= |Lead(d)|
    ensures ResearchPrompt(t, a, d)[..|Lead(d)|] == Lead(d)
  {
    PrefixOfPrefix(ResearchPrompt(t, a, d), Lead(d), t);
  }

  /** A prompt names its depth: equal prompts were built with the same opening line. */
  lemma PromptNamesDepth(t1: string, a1: Option<string>, d1: string, t2: string, a2: Option<string>, d2: string)
    requires ResearchPrompt(t1, a1, d1) == ResearchPrompt(t2, a2, d2)
    ensures Lead(d1) == Lead(d2)
  {
    PromptStartsWithLead(t1, a1, d1);
    PromptStartsWithLead(t2, a2, d2);
    LeadsDistinct(ResearchPrompt(t1, a1, d1), d1, d2);
  }
}

=== FILE: history.dfy ===
/**
 * The conversation history store: one record per task, plus two newest-first indexes (one per
 * user and platform, one global) kept in a key-value backend under the prefix "kv:history:".
 *
 * The backend is a map from key to stored text. A write or read that raises is modelled by a
 * set `failing` of (unprefixed) keys whose operations raise; expiry is a separate operation that
 * deletes keys.
 */
module History {
  import opened Wrappers
  import opened Strings
  import opened Lists
  import opened Codec

  /** An index never keeps more than this many records. */
  const MaxIndexSize: nat := 1000

  /** One request/response pair. */
  datatype HistoryEntry = HistoryEntry(
    taskId: string,
    timestamp: int,
    platform: string,
    userId: string,
    chatId: string,
    request: string,
    response: string,
    model: Option<string>,
    toolCalls: seq<string>,
    tokenUsage: Option<int>)

  /** What an index stores about an entry. */
  datatype IndexRecord = IndexRecord(taskId: string, timestamp: int)

  function RecordOf(e: HistoryEntry): IndexRecord {
    IndexRecord(e.taskId, e.timestamp)
  }

  // ---------------------------------------------------------------------------------------------
  // Keys

  /** The backend key of a logical key. */
  function Prefix(key: string): (k: string)
    ensures |k| == |key| + 11 && k[11..] == key
  {
    "kv:history:" + key
  }

  lemma PrefixInjective(a: string, b: string)
    requires Prefix(a) == Prefix(b)
    ensures a == b
  {
    assert a == Prefix(a)[11..];
  }

  function EntryKey(taskId: string): string {
    "entry:" + taskId
  }

  function UserIndexKey(platform: string, userId: string): string {
    "user:" + platform + ":" + userId
  }

  const GlobalIndexKey: string := "global:all"

  /** An entry key is never an index key, and a user index is never the global one. */
  lemma KeysDistinct(taskId: string, platform: string, userId: string)
    ensures EntryKey(taskId) != UserIndexKey(platform, userId)
    ensures EntryKey(taskId) != GlobalIndexKey
    ensures UserIndexKey(platform, userId) != GlobalIndexKey
    ensures Prefix(EntryKey(taskId)) != Prefix(UserIndexKey(platform, userId))
    ensures Prefix(EntryKey(taskId)) != Prefix(GlobalIndexKey)
    ensures Prefix(UserIndexKey(platform, userId)) != Prefix(GlobalIndexKey)
  {
    assert EntryKey(taskId)[0] == 'e';
    assert UserIndexKey(platform, userId)[0] == 'u';
    assert GlobalIndexKey[0] == 'g';
    assert Prefix(EntryKey(taskId))[11] == 'e';
    assert Prefix(UserIndexKey(platform, userId))[11] == 'u';
    assert Prefix(GlobalIndexKey)[11] == 'g';
  }

  // ---------------------------------------------------------------------------------------------
  // Stored form of an entry

  function EncodeEntry(e: HistoryEntry): string {
    EncStr(e.taskId) + (EncInt(e.timestamp) + (EncStr(e.platform) + (EncStr(e.userId) +
    (EncStr(e.chatId) + (EncStr(e.request) + (EncStr(e.response) + (EncOptStr(e.model) +
    (EncStrs(e.toolCalls) + EncOptInt(e.tokenUsage)))))))))
  }

  /** Reads back a stored entry; anything that is not exactly one encoded entry is malformed. */
  function DecodeEntry(s: string): Option<HistoryEntry> {
    match ParseStr(s)
    case None => None
    case Some(id) =>
    match ParseInt(id.rest)
    case None => None
    case Some(ts) =>
    match ParseStr(ts.rest)
    case None => None
    case Some(pl) =>
    match ParseStr(pl.rest)
    case None => None
    case Some(us) =>
    match ParseStr(us.rest)
    case None => None
    case Some(ch) =>
    match ParseStr(ch.rest)
    case None => None
    case Some(rq) =>
    match ParseStr(rq.rest)
    case None => None
    case Some(rs) =>
    match ParseOptStr(rs.rest)
    case None => None
    case Some(md) =>
    match ParseStrs(md.rest)
    case None => None
    case Some(tc) =>
    match ParseOptInt(tc.rest)
    case None => None
    case Some(tu) =>
    if tu.rest == [] then
      Some(HistoryEntry(id.value, ts.value, pl.value, us.value, ch.value, rq.value, rs.value, md.value, tc.value, tu.value))
    else None
  }

  lemma EntryRoundTrip(e: HistoryEntry)
    ensures DecodeEntry(EncodeEntry(e)) == Some(e)
  {
    var t9 := EncOptInt(e.tokenUsage);
    var t8 := EncStrs(e.toolCalls) + t9;
    var t7 := EncOptStr(e.model) + t8;
    var t6 := EncStr(e.response) + t7;
    var t5 := EncStr(e.request) + t6;
    var t4 := EncStr(e.chatId) + t5;
    var t3 := EncStr(e.userId) + t4;
    var t2 := EncStr(e.platform) + t3;
    var t1 := EncInt(e.timestamp) + t2;
    StrRoundTrip(e.taskId, t1);
    IntRoundTrip(e.timestamp, t2);
    StrRoundTrip(e.platform, t3);
    StrRoundTrip(e.userId, t4);
    StrRoundTrip(e.chatId, t5);
    StrRoundTrip(e.request, t6);
    StrRoundTrip(e.response, t7);
    OptStrRoundTrip(e.model, t8);
    StrsRoundTrip(e.toolCalls, t9);
    OptIntRoundTrip(e.tokenUsage, []);
    assert t9 + [] == t9;
    DecodeEntrySteps(EncodeEntry(e), Parsed(e.taskId, t1), Parsed(e.timestamp, t2), Parsed(e.platform, t3),
      Parsed(e.userId, t4), Parsed(e.chatId, t5), Parsed(e.request, t6), Parsed(e.response, t7),
      Parsed(e.model, t8), Parsed(e.toolCalls, t9), Parsed(e.tokenUsage, []));
  }

  /** Reading an entry field by field: when each field reads back in turn, the entry is those fields. */
  lemma DecodeEntrySteps(s: string, id: Parsed<string>, ts: Parsed<int>, pl: Parsed<string>, us: Parsed<string>,
                         ch: Parsed<string>, rq: Parsed<string>, rs: Parsed<string>, md: Parsed<Option<string>>,
                         tc: Parsed<seq<string>>, tu: Parsed<Option<int>>)
    requires ParseStr(s) == Some(id) && ParseInt(id.rest) == Some(ts) && ParseStr(ts.rest) == Some(pl)
    requires ParseStr(pl.rest) == Some(us) && ParseStr(us.rest) == Some(ch) && ParseStr(ch.rest) == Some(rq)
    requires ParseStr(rq.rest) == Some(rs) && ParseOptStr(rs.rest) == Some(md) && ParseStrs(md.rest) == Some(tc)
    requires ParseOptInt(tc.rest) == Some(tu) && tu.rest == []
    ensures DecodeEntry(s) == Some(HistoryEntry(id.value, ts.value, pl.value, us.value, ch.value, rq.value,
      rs.value, md.value, tc.value, tu.value))
  {
  }

  /** Every payload that reads back as an entry is the stored form of that entry. */
  lemma EntryCanonical(s: string)
    requires DecodeEntry(s).Some?
    ensures s == EncodeEntry(DecodeEntry(s).value)
  {
    var id := ParseStr(s).value;
    var ts := ParseInt(id.rest).value;
    var pl := ParseStr(ts.rest).value;
    var us := ParseStr(pl.rest).value;
    var ch := ParseStr(us.rest).value;
    var rq := ParseStr(ch.rest).value;
    var rs := ParseStr(rq.rest).value;
    var md := ParseOptStr(rs.rest).value;
    var tc := ParseStrs(md.rest).value;
    var tu := ParseOptInt(tc.rest).value;
    StrCanonical(s);
    IntCanonical(id.rest);
    StrCanonical(ts.rest);
    StrCanonical(pl.rest);
    StrCanonical(us.rest);
    StrCanonical(ch.rest);
    StrCanonical(rq.rest);
    OptStrCanonical(rs.rest);
    StrsCanonical(md.rest);
    OptIntCanonical(tc.rest);
    assert tc.rest == EncOptInt(tu.value);
  }

  /** A stored entry is never the empty text (which the reader treats as missing). */
  lemma EntryNonEmpty(e: HistoryEntry)
    ensures EncodeEntry(e) != []
  {
    assert EncodeEntry(e)[0] == EncStr(e.taskId)[0];
  }

  // ---------------------------------------------------------------------------------------------
  // Stored form of an index

  function EncodeRecords(rs: seq<IndexRecord>): string {
    if rs == [] then [] else EncStr(rs[0].taskId) + (EncInt(rs[0].timestamp) + EncodeRecords(rs[1..]))
  }

  function ParseRecords(t: string, count: nat): Option<Parsed<seq<IndexRecord>>>
    decreases count
  {
    if count == 0 then Some(Parsed([], t))
    else
      match ParseStr(t)
      case None => None
      case Some(id) =>
      match ParseInt(id.rest)
      case None => None
      case Some(ts) =>
      match ParseRecords(ts.rest, count - 1)
      case None => None
      case Some(rs) =>
      Some(Parsed([IndexRecord(id.value, ts.value)] + rs.value, rs.rest))
  }

  function EncodeIndex(rs: seq<IndexRecord>): string {
    EncNat(|rs|) + EncodeRecords(rs)
  }

  function DecodeIndex(s: string): Option<seq<IndexRecord>> {
    match ParseNat(s)
    case None => None
    case Some(n) =>
    match ParseRecords(n.rest, n.value)
    case None => None
    case Some(rs) =>
    if rs.rest == [] then Some(rs.value) else None
  }

  lemma EncodeRecordsHead(rs: seq<IndexRecord>, rest: string)
    requires rs != []
    ensures EncodeRecords(rs) + rest == EncStr(rs[0].taskId) + (EncInt(rs[0].timestamp) + (EncodeRecords(rs[1..]) + rest))
  {
  }

  /** Reading one more record is reading its id, its timestamp, then the remaining records. */
  lemma ParseRecordsCons(t: string, id: Parsed<string>, ts: Parsed<int>, rs: Parsed<seq<IndexRecord>>, n: nat)
    requires ParseStr(t) == Some(id) && ParseInt(id.rest) == Some(ts) && ParseRecords(ts.rest, n) == Some(rs)
    ensures ParseRecords(t, n + 1) == Some(Parsed([IndexRecord(id.value, ts.value)] + rs.value, rs.rest))
  {
  }

  lemma {:induction false} RecordsRoundTrip(rs: seq<IndexRecord>, rest: string)
    ensures ParseRecords(EncodeRecords(rs) + rest, |rs|) == Some(Parsed(rs, rest))
  {
    if rs != [] {
      RecordsRoundTrip(rs[1..], rest);
      RecordsRoundTripStep(rs, rest);
    } else {
      assert EncodeRecords(rs) + rest == rest;
    }
  }

  /** The first record reads back, and then the rest does. */
  lemma RecordsRoundTripStep(rs: seq<IndexRecord>, rest: string)
    requires rs != [] && ParseRecords(EncodeRecords(rs[1..]) + rest, |rs| - 1) == Some(Parsed(rs[1..], rest))
    ensures ParseRecords(EncodeRecords(rs) + rest, |rs|) == Some(Parsed(rs, rest))
  {
    var t2 := EncodeRecords(rs[1..]) + rest;
    var t1 := EncInt(rs[0].timestamp) + t2;
    var t0 := EncodeRecords(rs) + rest;
    EncodeRecordsHead(rs, rest);
    StrRoundTrip(rs[0].taskId, t1);
    IntRoundTrip(rs[0].timestamp, t2);
    ParseRecordsCons(t0, Parsed(rs[0].taskId, t1), Parsed(rs[0].timestamp, t2), Parsed(rs[1..], rest), |rs| - 1);
    assert [IndexRecord(rs[0].taskId, rs[0].timestamp)] + rs[1..] == rs;
  }

  lemma IndexRoundTrip(rs: seq<IndexRecord>)
    ensures DecodeIndex(EncodeIndex(rs)) == Some(rs)
    ensures EncodeIndex(rs) != []
  {
    NatRoundTrip(|rs|, EncodeRecords(rs));
    RecordsRoundTrip(rs, []);
    assert EncodeRecords(rs) + [] == EncodeRecords(rs);
    assert EncodeIndex(rs)[0] == EncNat(|rs|)[0];
  }

  // ---------------------------------------------------------------------------------------------
  // Index order: a stable sort on the timestamp, newest first

  predicate SortedDesc(s: seq<IndexRecord>) {
    forall i, j :: 0 <= i < j < |s| ==> s[i].timestamp >= s[j].timestamp
  }

  /** Where `r` goes in `s`: after the leading records whose timestamp is at least its own. */
  function InsertPos(s: seq<IndexRecord>, r: IndexRecord): (k: nat)
    ensures k <= |s|
    ensures forall i :: 0 <= i < k ==> s[i].timestamp >= r.timestamp
    ensures k < |s| ==> s[k].timestamp < r.timestamp
  {
    if s == [] || s[0].timestamp < r.timestamp then 0 else 1 + InsertPos(s[1..], r)
  }

  function Insert(s: seq<IndexRecord>, r: IndexRecord): seq<IndexRecord> {
    if s == [] || s[0].timestamp < r.timestamp then [r] + s else [s[0]] + Insert(s[1..], r)
  }

  /** `list.sort(key=timestamp, reverse=True)`: insertion of each element in turn, left to right. */
  function SortDesc(s: seq<IndexRecord>): seq<IndexRecord> {
    if s == [] then [] else Insert(SortDesc(s[..|s| - 1]), s[|s| - 1])
  }

  /** The index after `_add_to_index` appends `r`, re-sorts and keeps the newest `MaxIndexSize`. */
  function WithRecord(index: seq<IndexRecord>, r: IndexRecord): seq<IndexRecord> {
    Take(SortDesc(index + [r]), MaxIndexSize)
  }

  /** Records with timestamp `t`, in their order. */
  function WithTimestamp(s: seq<IndexRecord>, t: int): seq<IndexRecord> {
    if s == [] then [] else (if s[0].timestamp == t then [s[0]] else []) + WithTimestamp(s[1..], t)
  }

  lemma {:induction false} InsertShape(s: seq<IndexRecord>, r: IndexRecord)
    ensures Insert(s, r) == s[..InsertPos(s, r)] + [r] + s[InsertPos(s, r)..]
  {
    if s != [] && s[0].timestamp >= r.timestamp {
      InsertShape(s[1..], r);
      var k := InsertPos(s[1..], r);
      assert s[1..][..k] == s[1..k + 1];
      assert s[1..][k..] == s[k + 1..];
      assert s[..k + 1] == [s[0]] + s[1..k + 1];
    }
  }

  /** `Insert` splits `s` into the records at least as new as `r` and, on a sorted list, the older rest. */
  lemma InsertSplit(s: seq<IndexRecord>, r: IndexRecord) returns (a: seq<IndexRecord>, b: seq<IndexRecord>)
    ensures s == a + b && Insert(s, r) == a + [r] + b
    ensures forall i :: 0 <= i < |a| ==> a[i].timestamp >= r.timestamp
    ensures SortedDesc(s) ==> forall i :: 0 <= i < |b| ==> b[i].timestamp < r.timestamp
  {
    InsertShape(s, r);
    var k := InsertPos(s, r);
    a, b := s[..k], s[k..];
    if SortedDesc(s) {
      forall i | 0 <= i < |b|
        ensures b[i].timestamp < r.timestamp
      {
        assert b[i] == s[k + i] && s[k].timestamp >= s[k + i].timestamp;
      }
    }
  }

  lemma InsertMultiset(s: seq<IndexRecord>, r: IndexRecord)
    ensures multiset(Insert(s, r)) == multiset(s) + multiset{r}
  {
    var a, b := InsertSplit(s, r);
    assert multiset(a + [r] + b) == multiset(a) + multiset{r} + multiset(b);
  }

  lemma InsertSorted(s: seq<IndexRecord>, r: IndexRecord)
    requires SortedDesc(s)
    ensures SortedDesc(Insert(s, r))
  {
    var a, b := InsertSplit(s, r);
    SortedAround(a, r, b);
  }

  /** A record no newer than what precedes it and newer than what follows keeps a sorted list sorted. */
  lemma SortedAround(a: seq<IndexRecord>, r: IndexRecord, b: seq<IndexRecord>)
    requires SortedDesc(a + b)
    requires forall i :: 0 <= i < |a| ==> a[i].timestamp >= r.timestamp
    requires forall i :: 0 <= i < |b| ==> b[i].timestamp < r.timestamp
    ensures SortedDesc(a + [r] + b)
  {
    var s, q, k := a + b, a + [r] + b, |a|;
    forall i, j | 0 <= i < j < |q|
      ensures q[i].timestamp >= q[j].timestamp
    {
      if j < k {
        assert q[i] == s[i] && q[j] == s[j];
      } else if j == k {
        assert q[i] == a[i] && q[j] == r;
      } else if i < k {
        assert q[i] == s[i] && q[j] == s[j - 1];
      } else if i == k {
        assert q[i] == r && q[j] == b[j - 1 - k];
      } else {
        assert q[i] == s[i - 1] && q[j] == s[j - 1];
      }
    }
  }

  /** When `r` is no newer than anything in `s`, it goes at the end. */
  lemma {:induction false} InsertAtEnd(s: seq<IndexRecord>, r: IndexRecord)
    requires forall i :: 0 <= i < |s| ==> s[i].timestamp >= r.timestamp
    ensures Insert(s, r) == s + [r]
  {
    if s != [] {
      InsertAtEnd(s[1..], r);
      assert [s[0]] + (s[1..] + [r]) == s + [r];
    }
  }

  lemma {:induction false} WithTimestampConcat(a: seq<IndexRecord>, b: seq<IndexRecord>, t: int)
    ensures WithTimestamp(a + b, t) == WithTimestamp(a, t) + WithTimestamp(b, t)
  {
    if a != [] {
      WithTimestampConcat(a[1..], b, t);
      assert (a + b)[1..] == a[1..] + b;
    } else {
      assert a + b == b;
    }
  }

  lemma {:induction false} WithTimestampNone(s: seq<IndexRecord>, t: int)
    requires forall i :: 0 <= i < |s| ==> s[i].timestamp < t
    ensures WithTimestamp(s, t) == []
  {
    if s != [] {
      WithTimestampNone(s[1..], t);
    }
  }

  /** Inserting into a sorted list keeps every group of equal timestamps in order, with `r` last in its group. */
  lemma InsertStable(s: seq<IndexRecord>, r: IndexRecord, t: int)
    requires SortedDesc(s)
    ensures WithTimestamp(Insert(s, r), t) == WithTimestamp(s, t) + (if r.timestamp == t then [r] else [])
  {
    var a, b := InsertSplit(s, r);
    WithTimestampConcat(a + [r], b, t);
    WithTimestampConcat(a, [r], t);
    WithTimestampConcat(a, b, t);
    assert WithTimestamp([r], t) == (if r.timestamp == t then [r] else []) by {
      assert [r][1..] == [];
    }
    if r.timestamp == t {
      WithTimestampNone(b, t);
    }
  }

  lemma {:induction false} SortDescSorted(s: seq<IndexRecord>)
    ensures SortedDesc(SortDesc(s))
    ensures |SortDesc(s)| == |s|
  {
    if s != [] {
      SortDescSorted(s[..|s| - 1]);
      InsertSorted(SortDesc(s[..|s| - 1]), s[|s| - 1]);
      InsertMultiset(SortDesc(s[..|s| - 1]), s[|s| - 1]);
      assert |multiset(SortDesc(s))| == |SortDesc(s[..|s| - 1])| + 1;
    }
  }

  lemma {:induction false} SortDescPermutation(s: seq<IndexRecord>)
    ensures multiset(SortDesc(s)) == multiset(s)
  {
    if s != [] {
      var p, x := s[..|s| - 1], s[|s| - 1];
      SortDescPermutation(p);
      assert SortDesc(s) == Insert(SortDesc(p), x);
      InsertMultiset(SortDesc(p), x);
      assert s == p + [x];
      assert multiset(s) == multiset(p) + multiset{x};
    }
  }

  /** Records with equal timestamps keep their relative order (Python's sort is stable). */
  lemma {:induction false} SortDescStable(s: seq<IndexRecord>, t: int)
    ensures WithTimestamp(SortDesc(s), t) == WithTimestamp(s, t)
  {
    if s != [] {
      var p, x := s[..|s| - 1], s[|s| - 1];
      SortDescStable(p, t);
      SortDescSorted(p);
      InsertStable(SortDesc(p), x, t);
      assert s == p + [x];
      WithTimestampConcat(p, [x], t);
      assert [x][1..] == [];
    }
  }

  /** Sorting what is already sorted changes nothing. */
  lemma {:induction false} SortDescOfSorted(s: seq<IndexRecord>)
    requires SortedDesc(s)
    ensures SortDesc(s) == s
  {
    if s != [] {
      var p, x := s[..|s| - 1], s[|s| - 1];
      SortDescOfSorted(p);
      InsertAtEnd(p, x);
      assert p + [x] == s;
    }
  }

  /** The index after an update is sorted newest first and holds `min(|index| + 1, 1000)` records. */
  lemma WithRecordSortedAndBounded(index: seq<IndexRecord>, r: IndexRecord)
    ensures SortedDesc(WithRecord(index, r))
    ensures |WithRecord(index, r)| == if |index| + 1 < MaxIndexSize then |index| + 1 else MaxIndexSize
  {
    SortDescSorted(index + [r]);
  }

  /**
   * On a sorted index the update inserts `r` right after every record at least as new as it
   * (so after older entries with the same timestamp), then drops the oldest beyond the cap.
   */
  lemma WithRecordOnSorted(index: seq<IndexRecord>, r: IndexRecord)
    requires SortedDesc(index)
    ensures var k := InsertPos(index, r);
      WithRecord(index, r) == Take(index[..k] + [r] + index[k..], MaxIndexSize)
  {
    var n := |index|;
    var s := index + [r];
    assert s[..n] == index;
    SortDescOfSorted(index);
    InsertShape(index, r);
  }

  /** A record newer than everything in a sorted index goes to the front. */
  lemma NewestGoesFirst(index: seq<IndexRecord>, r: IndexRecord)
    requires SortedDesc(index)
    requires forall i :: 0 <= i < |index| ==> index[i].timestamp < r.timestamp
    ensures WithRecord(index, r) == Take([r] + index, MaxIndexSize)
  {
    WithRecordOnSorted(index, r);
    assert InsertPos(index, r) == 0;
    assert index[..0] == [];
  }

  /**
   * What the cap drops is the oldest: every kept record is at least as new as every dropped one,
   * and kept plus dropped is exactly the old index plus `r`.
   */
  lemma EvictsOldest(index: seq<IndexRecord>, r: IndexRecord)
    ensures var all := SortDesc(index + [r]);
      var kept := WithRecord(index, r);
      var dropped := if |all| > MaxIndexSize then all[MaxIndexSize..] else [];
      multiset(kept) + multiset(dropped) == multiset(index) + multiset{r} &&
      forall x, y :: x in kept && y in dropped ==> x.timestamp >= y.timestamp
  {
    var all := SortDesc(index + [r]);
    SortDescSorted(index + [r]);
    SortDescPermutation(index + [r]);
    var kept := WithRecord(index, r);
    var dropped := if |all| > MaxIndexSize then all[MaxIndexSize..] else [];
    assert all == kept + dropped;
    forall x, y | x in kept && y in dropped
      ensures x.timestamp >= y.timestamp
    {
      var i :| 0 <= i < |kept| && kept[i] == x;
      var j :| 0 <= j < |dropped| && dropped[j] == y;
      assert all[i] == x && all[|kept| + j] == y;
    }
  }

  // ---------------------------------------------------------------------------------------------
  // The store seen as a value

  /**
   * The index under `key`: missing or empty text reads as the empty index, text that is not an
   * encoded index as `None` (the reader raises).
   */
  function ReadIndex(kv: map<string, string>, key: string): Option<seq<IndexRecord>> {
    var k := Prefix(key);
    if k !in kv || kv[k] == [] then Some([]) else DecodeIndex(kv[k])
  }

  /** The store after `_add_to_index(key, r)`; a raising backend or unreadable index leaves it as it was. */
  function AfterAddToIndex(kv: map<string, string>, key: string, r: IndexRecord, failing: set<string>): map<string, string> {
    if key in failing then kv
    else match ReadIndex(kv, key)
      case None => kv
      case Some(index) => kv[Prefix(key) := EncodeIndex(WithRecord(index, r))]
  }

  /**
   * An index update either leaves the store as it was (the backend raised, or the stored index
   * is unreadable) or makes the index read back as the updated one; no other key changes.
   */
  lemma AddToIndexEffect(kv: map<string, string>, key: string, r: IndexRecord, failing: set<string>)
    ensures var after := AfterAddToIndex(kv, key, r, failing);
      (key in failing || ReadIndex(kv, key).None? ==> after == kv) &&
      (key !in failing && ReadIndex(kv, key).Some? ==>
        ReadIndex(after, key) == Some(WithRecord(ReadIndex(kv, key).value, r))) &&
      forall k :: k != Prefix(key) ==> (k in after <==> k in kv) && (k in after ==> after[k] == kv[k])
  {
    if key !in failing && ReadIndex(kv, key).Some? {
      IndexRoundTrip(WithRecord(ReadIndex(kv, key).value, r));
    }
  }

  /** The store after a successful `save_entry`: the entry written, then both index updates. */
  function AfterSave(kv: map<string, string>, e: HistoryEntry, failing: set<string>): map<string, string> {
    var written := kv[Prefix(EntryKey(e.taskId)) := EncodeEntry(e)];
    AfterAddToIndex(AfterAddToIndex(written, UserIndexKey(e.platform, e.userId), RecordOf(e), failing),
      GlobalIndexKey, RecordOf(e), failing)
  }

  /** After a save whose entry write succeeds, `get_entry` returns the saved entry, whatever the index updates did. */
  lemma SaveStoresEntry(kv: map<string, string>, e: HistoryEntry, failing: set<string>)
    ensures LookupEntry(AfterSave(kv, e, failing), e.taskId) == Some(e)
  {
    var ek := Prefix(EntryKey(e.taskId));
    var uk := UserIndexKey(e.platform, e.userId);
    KeysDistinct(e.taskId, e.platform, e.userId);
    var kv1 := kv[ek := EncodeEntry(e)];
    var kv2 := AfterAddToIndex(kv1, uk, RecordOf(e), failing);
    AddToIndexEffect(kv1, uk, RecordOf(e), failing);
    assert ek in kv2 && kv2[ek] == EncodeEntry(e);
    var kv3 := AfterAddToIndex(kv2, GlobalIndexKey, RecordOf(e), failing);
    AddToIndexEffect(kv2, GlobalIndexKey, RecordOf(e), failing);
    assert ek in kv3 && kv3[ek] == EncodeEntry(e);
    LookupEntryMeaning(kv3, e.taskId, e);
  }

  /** A save touches the entry's key and the two index keys, and no other. */
  lemma SaveKeepsOtherKeys(kv: map<string, string>, e: HistoryEntry, failing: set<string>)
    ensures var after := AfterSave(kv, e, failing);
      forall k :: k !in {Prefix(EntryKey(e.taskId)), Prefix(UserIndexKey(e.platform, e.userId)), Prefix(GlobalIndexKey)} ==>
        (k in after <==> k in kv) && (k in after ==> after[k] == kv[k])
  {
    var uk := UserIndexKey(e.platform, e.userId);
    var kv1 := kv[Prefix(EntryKey(e.taskId)) := EncodeEntry(e)];
    AddToIndexEffect(kv1, uk, RecordOf(e), failing);
    AddToIndexEffect(AfterAddToIndex(kv1, uk, RecordOf(e), failing), GlobalIndexKey, RecordOf(e), failing);
  }

  /** The entry stored for `taskId`; missing, empty or unreadable text gives `None`. */
  function LookupEntry(kv: map<string, string>, taskId: string): Option<HistoryEntry> {
    var k := Prefix(EntryKey(taskId));
    if k in kv && kv[k] != [] then DecodeEntry(kv[k]) else None
  }

  /** `get_entry` finds `e` exactly when the text stored under the entry key is `e`'s stored form. */
  lemma LookupEntryMeaning(kv: map<string, string>, taskId: string, e: HistoryEntry)
    ensures LookupEntry(kv, taskId) == Some(e) <==>
      Prefix(EntryKey(taskId)) in kv && kv[Prefix(EntryKey(taskId))] == EncodeEntry(e)
  {
    var k := Prefix(EntryKey(taskId));
    EntryNonEmpty(e);
    EntryRoundTrip(e);
    if LookupEntry(kv, taskId) == Some(e) {
      EntryCanonical(kv[k]);
    }
  }

  /** What each record in turn resolves to. */
  function Lookups(kv: map<string, string>, recs: seq<IndexRecord>): (r: seq<Option<HistoryEntry>>)
    ensures |r| == |recs|
  {
    seq(|recs|, i requires 0 <= i < |recs| => LookupEntry(kv, recs[i].taskId))
  }

  /** The present values, in order. */
  function Somes<T>(os: seq<Option<T>>): seq<T> {
    if os == [] then [] else Somes(os[..|os| - 1]) + (if os[|os| - 1].Some? then [os[|os| - 1].value] else [])
  }

  /** The entries a list of index records resolves to, in order; dangling records are skipped. */
  function Hydrate(kv: map<string, string>, recs: seq<IndexRecord>): seq<HistoryEntry> {
    Somes(Lookups(kv, recs))
  }

  /** The result of a history read: the entries for `index[offset:offset + limit]`. */
  function Page(kv: map<string, string>, key: string, limit: int, offset: int): seq<HistoryEntry> {
    match ReadIndex(kv, key)
    case None => []
    case Some(index) => Hydrate(kv, Slice(index, offset, offset + limit))
  }

  lemma {:induction false} SomesConcat<T>(a: seq<Option<T>>, b: seq<Option<T>>)
    ensures Somes(a + b) == Somes(a) + Somes(b)
    decreases |b|
  {
    if b == [] {
      assert a + b == a;
    } else {
      var b' := b[..|b| - 1];
      SomesConcat(a, b');
      assert (a + b)[..|a + b| - 1] == a + b';
    }
  }

  /** At most one value per option; all of them, in order, when none is missing. */
  lemma {:induction false} SomesShape<T>(os: seq<Option<T>>)
    ensures |Somes(os)| <= |os|
    ensures (forall i :: 0 <= i < |os| ==> os[i].Some?) ==>
      |Somes(os)| == |os| && forall i :: 0 <= i < |os| ==> Somes(os)[i] == os[i].value
  {
    if os != [] {
      var p, x := os[..|os| - 1], os[|os| - 1];
      SomesShape(p);
      if forall i :: 0 <= i < |os| ==> os[i].Some? {
        assert forall i :: 0 <= i < |p| ==> p[i] == os[i];
        assert Somes(os) == Somes(p) + [x.value];
      }
    }
  }

  lemma HydrateConcat(kv: map<string, string>, a: seq<IndexRecord>, b: seq<IndexRecord>)
    ensures Hydrate(kv, a + b) == Hydrate(kv, a) + Hydrate(kv, b)
  {
    var la, lb := Lookups(kv, a), Lookups(kv, b);
    forall i | 0 <= i < |a + b|
      ensures Lookups(kv, a + b)[i] == (la + lb)[i]
    {
      if i < |a| {
        assert (a + b)[i] == a[i];
      } else {
        assert (a + b)[i] == b[i - |a|];
      }
    }
    assert Lookups(kv, a + b) == la + lb;
    SomesConcat(Lookups(kv, a), Lookups(kv, b));
  }

  /** At most one entry per record; exactly the stored entries, in index order, when none dangles. */
  lemma HydrateShape(kv: map<string, string>, recs: seq<IndexRecord>)
    ensures |Hydrate(kv, recs)| <= |recs|
    ensures var os := Lookups(kv, recs);
      (forall i :: 0 <= i < |os| ==> os[i].Some?) ==>
      |Hydrate(kv, recs)| == |recs| && forall i :: 0 <= i < |os| ==> Hydrate(kv, recs)[i] == os[i].value
  {
    SomesShape(Lookups(kv, recs));
  }

  /** Reading one more record of `window` appends its entry, if it has one. */
  lemma HydrateStep(kv: map<string, string>, window: seq<IndexRecord>, i: nat)
    requires i < |window|
    ensures var e := LookupEntry(kv, window[i].taskId);
      Hydrate(kv, window[..i + 1]) == Hydrate(kv, window[..i]) + (if e.Some? then [e.value] else [])
  {
    assert window[..i + 1] == window[..i] + [window[i]];
    HydrateSnoc(kv, window[..i], window[i]);
  }

  lemma HydrateSnoc(kv: map<string, string>, recs: seq<IndexRecord>, r: IndexRecord)
    ensures Hydrate(kv, recs + [r]) == Hydrate(kv, recs) +
      (if LookupEntry(kv, r.taskId).Some? then [LookupEntry(kv, r.taskId).value] else [])
  {
    assert Lookups(kv, recs + [r])[..|recs|] == Lookups(kv, recs);
  }

  /** A record whose entry is stored contributes that entry first. */
  lemma HydrateHead(kv: map<string, string>, r: IndexRecord, rest: seq<IndexRecord>, e: HistoryEntry)
    requires LookupEntry(kv, r.taskId) == Some(e)
    ensures Hydrate(kv, [r] + rest) == [e] + Hydrate(kv, rest)
  {
    HydrateConcat(kv, [r], rest);
    assert Lookups(kv, [r]) == [Some(e)];
    SomesOne(e);
  }

  lemma SomesOne<T>(x: T)
    ensures Somes([Some(x)]) == [x]
  {
    assert [Some(x)][..0] == [];
  }

  /** A page never holds more entries than its limit, whatever the offset. */
  lemma PageBound(kv: map<string, string>, key: string, limit: int, offset: int)
    requires limit >= 0
    ensures |Page(kv, key, limit, offset)| <= limit
  {
    if ReadIndex(kv, key).Some? {
      var window := Slice(ReadIndex(kv, key).value, offset, offset + limit);
      SliceLength(ReadIndex(kv, key).value, offset, limit);
      HydrateShape(kv, window);
    }
  }

  /** Reading two consecutive pages gives the same entries as reading one page spanning both. */
  lemma PagesTile(kv: map<string, string>, key: string, offset: int, a: int, b: int)
    requires offset >= 0 && a >= 0 && b >= 0
    ensures Page(kv, key, a, offset) + Page(kv, key, b, offset + a) == Page(kv, key, a + b, offset)
  {
    if ReadIndex(kv, key).Some? {
      var index := ReadIndex(kv, key).value;
      WindowsTile(index, offset, a, b);
      HydrateConcat(kv, Slice(index, offset, offset + a), Slice(index, offset + a, offset + a + b));
    }
  }

  /** The index and the entries read through it depend only on the keys they name. */
  lemma ReadsAreLocal(kv1: map<string, string>, kv2: map<string, string>, key: string, taskId: string)
    requires Prefix(key) in kv1 <==> Prefix(key) in kv2
    requires Prefix(key) in kv1 ==> kv1[Prefix(key)] == kv2[Prefix(key)]
    requires Prefix(EntryKey(taskId)) in kv1 <==> Prefix(EntryKey(taskId)) in kv2
    requires Prefix(EntryKey(taskId)) in kv1 ==> kv1[Prefix(EntryKey(taskId))] == kv2[Prefix(EntryKey(taskId))]
    ensures ReadIndex(kv1, key) == ReadIndex(kv2, key)
    ensures LookupEntry(kv1, taskId) == LookupEntry(kv2, taskId)
  {
  }

  // ---------------------------------------------------------------------------------------------
  // Searching

  predicate TruthyInt(o: Option<int>) {
    o.Some? && o.value != 0
  }

  /** The filters of `search_history`; a falsy bound or platform does not filter. */
  predicate Matches(e: HistoryEntry, platform: Option<string>, startTime: Option<int>, endTime: Option<int>) {
    (TruthyInt(startTime) ==> e.timestamp >= startTime.value) &&
    (TruthyInt(endTime) ==> e.timestamp <= endTime.value) &&
    (Truthy(platform) ==> e.platform == platform.value)
  }

  function Matching(es: seq<HistoryEntry>, platform: Option<string>, startTime: Option<int>, endTime: Option<int>): seq<HistoryEntry> {
    if es == [] then []
    else
      var last := es[|es| - 1];
      Matching(es[..|es| - 1], platform, startTime, endTime) + (if Matches(last, platform, startTime, endTime) then [last] else [])
  }

  lemma {:induction false} MatchingConcat(a: seq<HistoryEntry>, b: seq<HistoryEntry>, platform: Option<string>, startTime: Option<int>, endTime: Option<int>)
    ensures Matching(a + b, platform, startTime, endTime) == Matching(a, platform, startTime, endTime) + Matching(b, platform, startTime, endTime)
    decreases |b|
  {
    if b == [] {
      assert a + b == a;
    } else {
      var init, last := b[..|b| - 1], b[|b| - 1];
      MatchingConcat(a, init, platform, startTime, endTime);
      assert (a + b)[..|a + b| - 1] == a + init;
      assert (a + b)[|a + b| - 1] == last;
      var keep := if Matches(last, platform, startTime, endTime) then [last] else [];
      assert Matching(a + b, platform, startTime, endTime) == Matching(a + init, platform, startTime, endTime) + keep;
      assert Matching(b, platform, startTime, endTime) == Matching(init, platform, startTime, endTime) + keep;
    }
  }

  lemma {:induction false} MatchingSound(es: seq<HistoryEntry>, platform: Option<string>, startTime: Option<int>, endTime: Option<int>)
    ensures forall e :: e in Matching(es, platform, startTime, endTime) ==> e in es && Matches(e, platform, startTime, endTime)
  {
    if es != [] {
      MatchingSound(es[..|es| - 1], platform, startTime, endTime);
    }
  }

  lemma MatchingSnoc(es: seq<HistoryEntry>, e: HistoryEntry, platform: Option<string>, startTime: Option<int>, endTime: Option<int>)
    ensures Matching(es + [e], platform, startTime, endTime) ==
      Matching(es, platform, startTime, endTime) + (if Matches(e, platform, startTime, endTime) then [e] else [])
  {
    assert (es + [e])[..|es|] == es;
  }

  /**
   * Scanning stops either at the end or as soon as `cap` matches are kept; either way what was
   * kept is the first `cap` matches of the whole list.
   */
  lemma MatchingTake(es: seq<HistoryEntry>, i: nat, cap: nat, platform: Option<string>, startTime: Option<int>, endTime: Option<int>)
    requires i <= |es|
    requires var m := Matching(es[..i], platform, startTime, endTime); |m| == cap || (i == |es| && |m| < cap)
    ensures Take(Matching(es, platform, startTime, endTime), cap) == Matching(es[..i], platform, startTime, endTime)
  {
    MatchingConcat(es[..i], es[i..], platform, startTime, endTime);
    assert es[..i] + es[i..] == es;
  }

  /** The filter loop of `search_history`: keep entries that pass, stopping once `limit` are kept. */
  method KeepMatching(entries: seq<HistoryEntry>, platform: Option<string>, startTime: Option<int>,
                      endTime: Option<int>, limit: int) returns (r: seq<HistoryEntry>)
    ensures r == Take(Matching(entries, platform, startTime, endTime), ResultCap(limit))
  {
    r := [];
    var i := 0;
    while i < |entries|
      invariant 0 <= i <= |entries|
      invariant r == Matching(entries[..i], platform, startTime, endTime)
      invariant |r| < ResultCap(limit)
    {
      var e := entries[i];
      MatchingSnoc(entries[..i], e, platform, startTime, endTime);
      assert entries[..i + 1] == entries[..i] + [e];
      i := i + 1;
      if TruthyInt(startTime) && e.timestamp < startTime.value {
        continue;
      }
      if TruthyInt(endTime) && e.timestamp > endTime.value {
        continue;
      }
      if Truthy(platform) && e.platform != platform.value {
        continue;
      }
      r := r + [e];
      if |r| >= limit {
        break;
      }
    }
    MatchingTake(entries, i, ResultCap(limit), platform, startTime, endTime);
  }

  /** Where a search reads from: the user's page of `limit`, or the global page of `2 * limit`. */
  function SearchSource(kv: map<string, string>, platform: Option<string>, userId: Option<string>, limit: int): seq<HistoryEntry> {
    if Truthy(userId) && Truthy(platform) then Page(kv, UserIndexKey(platform.value, userId.value), limit, 0)
    else Page(kv, GlobalIndexKey, limit * 2, 0)
  }

  /** The search stops only after an append, so it returns at least one match even when `limit <= 0`. */
  function ResultCap(limit: int): nat {
    if limit >= 1 then limit else 1
  }

  /** The result of `search_history`: the first matches of the source page, at most `ResultCap(limit)` of them. */
  function SearchResult(kv: map<string, string>, platform: Option<string>, userId: Option<string>,
                        startTime: Option<int>, endTime: Option<int>, limit: int): seq<HistoryEntry> {
    Take(Matching(SearchSource(kv, platform, userId, limit), platform, startTime, endTime), ResultCap(limit))
  }

  /** A search result is bounded by `limit` and holds only entries that pass every filter. */
  lemma SearchResultSound(kv: map<string, string>, platform: Option<string>, userId: Option<string>,
                          startTime: Option<int>, endTime: Option<int>, limit: int)
    ensures limit >= 0 ==> |SearchResult(kv, platform, userId, startTime, endTime, limit)| <= limit
    ensures forall e :: e in SearchResult(kv, platform, userId, startTime, endTime, limit) ==>
      Matches(e, platform, startTime, endTime) && e in SearchSource(kv, platform, userId, limit)
  {
    var src := SearchSource(kv, platform, userId, limit);
    if limit == 0 {
      if Truthy(userId) && Truthy(platform) {
        PageBound(kv, UserIndexKey(platform.value, userId.value), limit, 0);
      } else {
        PageBound(kv, GlobalIndexKey, limit * 2, 0);
      }
      assert src == [];
    }
    var m := Matching(src, platform, startTime, endTime);
    MatchingSound(src, platform, startTime, endTime);
    var r := Take(m, ResultCap(limit));
    forall e | e in r ensures Matches(e, platform, startTime, endTime) && e in src {
      assert e in m;
    }
  }

  // ---------------------------------------------------------------------------------------------
  // The manager

  class HistoryManager {
    /** The backend's contents, under prefixed keys. */
    var store: map<string, string>

    constructor()
      ensures store == map[]
    {
      store := map[];
    }

    /**
     * Writes the entry, then adds it to the user's index and to the global one. Only a failed
     * entry write is reported; a failed index update is swallowed and leaves that index as it was.
     */
    method SaveEntry(entry: HistoryEntry, failing: set<string>) returns (ok: bool)
      modifies this
      ensures ok <==> EntryKey(entry.taskId) !in failing
      ensures !ok ==> store == old(store)
      ensures ok ==> store == AfterSave(old(store), entry, failing)
      ensures ok ==> LookupEntry(store, entry.taskId) == Some(entry)
    {
      var entryKey := EntryKey(entry.taskId);
      if entryKey in failing {
        return false;
      }
      ghost var before := store;
      store := store[Prefix(entryKey) := EncodeEntry(entry)];
      KeysDistinct(entry.taskId, entry.platform, entry.userId);
      AddToIndex(UserIndexKey(entry.platform, entry.userId), entry.taskId, entry.timestamp, failing);
      AddToIndex(GlobalIndexKey, entry.taskId, entry.timestamp, failing);
      SaveStoresEntry(before, entry, failing);
      ok := true;
    }

    /** Appends a record to the index under `indexKey`, re-sorts newest first and keeps the newest 1000. */
    method AddToIndex(indexKey: string, taskId: string, timestamp: int, failing: set<string>)
      modifies this
      ensures store == AfterAddToIndex(old(store), indexKey, IndexRecord(taskId, timestamp), failing)
    {
      if indexKey in failing {
        return;
      }
      var k := Prefix(indexKey);
      var index: seq<IndexRecord>;
      if k in store && store[k] != [] {
        var decoded := DecodeIndex(store[k]);
        if decoded.None? {
          return;
        }
        index := decoded.value;
      } else {
        index := [];
      }
      var record := IndexRecord(taskId, timestamp);
      index := index + [record];
      index := SortDesc(index);
      index := Take(index, MaxIndexSize);
      store := store[k := EncodeIndex(index)];
    }

    method GetEntry(taskId: string) returns (r: Option<HistoryEntry>)
      ensures r == LookupEntry(store, taskId)
    {
      var k := Prefix(EntryKey(taskId));
      if k in store && store[k] != [] {
        r := DecodeEntry(store[k]);
      } else {
        r := None;
      }
    }

    /** Entries for `index[offset:offset + limit]` of the index under `indexKey`, skipping dangling records. */
    method ReadPage(indexKey: string, limit: int, offset: int) returns (entries: seq<HistoryEntry>)
      ensures entries == Page(store, indexKey, limit, offset)
    {
      var k := Prefix(indexKey);
      if k !in store || store[k] == [] {
        assert Slice<IndexRecord>([], offset, offset + limit) == [];
        return [];
      }
      var decoded := DecodeIndex(store[k]);
      if decoded.None? {
        return [];
      }
      entries := ReadEntries(Slice(decoded.value, offset, offset + limit));
    }

    /** The entries of the records in `window` that can be read, in order. */
    method ReadEntries(window: seq<IndexRecord>) returns (entries: seq<HistoryEntry>)
      ensures entries == Hydrate(store, window)
    {
      entries := [];
      var i := 0;
      while i < |window|
        invariant 0 <= i <= |window|
        invariant entries == Hydrate(store, window[..i])
      {
        var e := GetEntry(window[i].taskId);
        HydrateStep(store, window, i);
        if e.Some? {
          entries := entries + [e.value];
        }
        i := i + 1;
      }
      assert window[..i] == window;
    }

    method GetUserHistory(platform: string, userId: string, limit: int, offset: int) returns (entries: seq<HistoryEntry>)
      ensures entries == Page(store, UserIndexKey(platform, userId), limit, offset)
      ensures limit >= 0 ==> |entries| <= limit
    {
      entries := ReadPage(UserIndexKey(platform, userId), limit, offset);
      if limit >= 0 {
        PageBound(store, UserIndexKey(platform, userId), limit, offset);
      }
    }

    method GetGlobalHistory(limit: int, offset: int) returns (entries: seq<HistoryEntry>)
      ensures entries == Page(store, GlobalIndexKey, limit, offset)
      ensures limit >= 0 ==> |entries| <= limit
    {
      entries := ReadPage(GlobalIndexKey, limit, offset);
      if limit >= 0 {
        PageBound(store, GlobalIndexKey, limit, offset);
      }
    }

    /** Reads the source page, then keeps the entries that pass the filters, stopping once `limit` are kept. */
    method SearchHistory(platform: Option<string>, userId: Option<string>, startTime: Option<int>,
                         endTime: Option<int>, limit: int) returns (r: seq<HistoryEntry>)
      ensures r == SearchResult(store, platform, userId, startTime, endTime, limit)
      ensures limit >= 0 ==> |r| <= limit
      ensures forall e :: e in r ==> Matches(e, platform, startTime, endTime)
    {
      var entries;
      if Truthy(userId) && Truthy(platform) {
        entries := GetUserHistory(platform.value, userId.value, limit, 0);
      } else {
        entries := GetGlobalHistory(limit * 2, 0);
      }
      r := KeepMatching(entries, platform, startTime, endTime, limit);
      SearchResultSound(store, platform, userId, startTime, endTime, limit);
    }

    /** The backend drops `keys` when their time to live runs out; other entries read as before. */
    method Expire(keys: set<string>)
      modifies this
      ensures store == old(store) - keys
      ensures forall taskId :: Prefix(EntryKey(taskId)) !in keys ==> LookupEntry(store, taskId) == LookupEntry(old(store), taskId)
    {
      store := store - keys;
    }
  }

  /** A page from the start of an index whose first record names `e`, which is stored, begins with `e`. */
  lemma PageStartsWith(kv: map<string, string>, key: string, index: seq<IndexRecord>, e: HistoryEntry, limit: int)
    requires ReadIndex(kv, key) == Some([RecordOf(e)] + index)
    requires LookupEntry(kv, e.taskId) == Some(e)
    requires limit >= 1
    ensures |Page(kv, key, limit, 0)| > 0 && Page(kv, key, limit, 0)[0] == e
  {
    var all := [RecordOf(e)] + index;
    var rest := SliceHead(all, 0 + limit);
    HydrateHead(kv, RecordOf(e), rest, e);
    assert Page(kv, key, limit, 0) == [e] + Hydrate(kv, rest);
  }

  /** Keeping the first `n >= 1` of `[r] + s` keeps `r` first. */
  lemma TakeAfterHead<T>(r: T, s: seq<T>, n: nat) returns (tail: seq<T>)
    requires n >= 1
    ensures Take([r] + s, n) == [r] + tail
  {
    tail := Take([r] + s, n)[1..];
  }

  /** Adding `e`'s record to a sorted index of older records puts `e` at the head of that index's pages. */
  lemma NewestListedFirst(kv: map<string, string>, key: string, e: HistoryEntry, limit: int)
    requires limit >= 1
    requires LookupEntry(kv, e.taskId) == Some(e)
    requires Prefix(key) != Prefix(EntryKey(e.taskId))
    requires ReadIndex(kv, key).Some? && SortedDesc(ReadIndex(kv, key).value)
    requires forall i :: 0 <= i < |ReadIndex(kv, key).value| ==> ReadIndex(kv, key).value[i].timestamp < e.timestamp
    ensures var after := AfterAddToIndex(kv, key, RecordOf(e), {});
      LookupEntry(after, e.taskId) == Some(e) && |Page(after, key, limit, 0)| > 0 && Page(after, key, limit, 0)[0] == e
  {
    var rec := RecordOf(e);
    var index := ReadIndex(kv, key).value;
    var after := AfterAddToIndex(kv, key, rec, {});
    AddToIndexEffect(kv, key, rec, {});
    NewestGoesFirst(index, rec);
    var tail := TakeAfterHead(rec, index, MaxIndexSize);
    assert ReadIndex(after, key) == Some([rec] + tail);
    var ek := Prefix(EntryKey(e.taskId));
    assert ek in after <==> ek in kv;
    assert ek in after ==> after[ek] == kv[ek];
    PageStartsWith(after, key, tail, e, limit);
  }

  lemma GlobalUpdateKeepsEntries(kv: map<string, string>, r: IndexRecord)
    ensures forall taskId :: LookupEntry(AfterAddToIndex(kv, GlobalIndexKey, r, {}), taskId) == LookupEntry(kv, taskId)
  {
    AddToIndexEffect(kv, GlobalIndexKey, r, {});
    forall taskId
      ensures LookupEntry(AfterAddToIndex(kv, GlobalIndexKey, r, {}), taskId) == LookupEntry(kv, taskId)
    {
      KeysDistinct(taskId, "", "");
    }
  }

  /** Updating the global index changes no entry and no other index. */
  lemma GlobalUpdateKeepsPages(kv: map<string, string>, key: string, r: IndexRecord, limit: int, offset: int)
    requires key != GlobalIndexKey
    ensures var after := AfterAddToIndex(kv, GlobalIndexKey, r, {});
      Page(after, key, limit, offset) == Page(kv, key, limit, offset) &&
      forall taskId :: LookupEntry(after, taskId) == LookupEntry(kv, taskId)
  {
    var after := AfterAddToIndex(kv, GlobalIndexKey, r, {});
    GlobalUpdateKeepsEntries(kv, r);
    AddToIndexEffect(kv, GlobalIndexKey, r, {});
    if Prefix(key) == Prefix(GlobalIndexKey) {
      PrefixInjective(key, GlobalIndexKey);
    }
    assert ReadIndex(after, key) == ReadIndex(kv, key);
    if ReadIndex(kv, key).Some? {
      var window := Slice(ReadIndex(kv, key).value, offset, offset + limit);
      assert Lookups(after, window) == Lookups(kv, window);
    }
  }

  /**
   * Saving an entry newer than everything in well-formed, sorted indexes (nothing raising) lists
   * it first in its user's history and in the global history.
   */
  lemma SavedEntryListedFirst(kv: map<string, string>, e: HistoryEntry, limit: int)
    requires limit >= 1
    requires forall key :: key in {UserIndexKey(e.platform, e.userId), GlobalIndexKey} ==>
      ReadIndex(kv, key).Some? && SortedDesc(ReadIndex(kv, key).value) &&
      forall i :: 0 <= i < |ReadIndex(kv, key).value| ==> ReadIndex(kv, key).value[i].timestamp < e.timestamp
    ensures var after := AfterSave(kv, e, {});
      LookupEntry(after, e.taskId) == Some(e) &&
      |Page(after, UserIndexKey(e.platform, e.userId), limit, 0)| > 0 &&
      Page(after, UserIndexKey(e.platform, e.userId), limit, 0)[0] == e &&
      |Page(after, GlobalIndexKey, limit, 0)| > 0 &&
      Page(after, GlobalIndexKey, limit, 0)[0] == e
  {
    var uk, gk := UserIndexKey(e.platform, e.userId), GlobalIndexKey;
    var rec := RecordOf(e);
    KeysDistinct(e.taskId, e.platform, e.userId);
    var kv1 := kv[Prefix(EntryKey(e.taskId)) := EncodeEntry(e)];
    assert ReadIndex(kv1, uk) == ReadIndex(kv, uk);
    assert ReadIndex(kv1, gk) == ReadIndex(kv, gk);
    LookupEntryMeaning(kv1, e.taskId, e);
    var kv2 := AfterAddToIndex(kv1, uk, rec, {});
    NewestListedFirst(kv1, uk, e, limit);
    AddToIndexEffect(kv1, uk, rec, {});
    assert ReadIndex(kv2, gk) == ReadIndex(kv, gk);
    var kv3 := AfterAddToIndex(kv2, gk, rec, {});
    NewestListedFirst(kv2, gk, e, limit);
    GlobalUpdateKeepsPages(kv2, uk, rec, limit, 0);
    assert Page(kv3, uk, limit, 0) == Page(kv2, uk, limit, 0);
    assert AfterSave(kv, e, {}) == kv3;
  }
}

=== FILE: lists.dfy ===
/**
 * Python list slicing `s[lo:hi]`, including its treatment of negative and out-of-range bounds,
 * element-wise mapping, and lists without repeats (the key order of a Python `dict`).
 */
module Lists {

  /** Where a slice bound `i` lands in a list of length `n`: negatives count from the end, then clamp to [0, n]. */
  function SliceBound(i: int, n: nat): (b: nat)
    ensures b <= n
    ensures 0 <= i <= n ==> b == i
    ensures i > n ==> b == n
  {
    if i < 0 then (if i + n < 0 then 0 else i + n) else if i > n then n else i
  }

  /** `s[lo:hi]` */
  function Slice<T>(s: seq<T>, lo: int, hi: int): seq<T> {
    var a, b := SliceBound(lo, |s|), SliceBound(hi, |s|);
    if a < b then s[a..b] else []
  }

  /** `s[:n]` for a non-negative `n`: the first `n` elements, or all of them. */
  function Take<T>(s: seq<T>, n: nat): (r: seq<T>)
    ensures |r| == if n < |s| then n else |s|
    ensures r == s[..|r|]
  {
    if n < |s| then s[..n] else s
  }

  /**
   * The page `s[offset:offset + limit]` with non-negative bounds is the run of at most `limit`
   * elements starting at position `offset`.
   */
  lemma WindowIsRun<T>(s: seq<T>, offset: int, limit: int)
    requires offset >= 0 && limit >= 0
    ensures |Slice(s, offset, offset + limit)| <= limit
    ensures offset < |s| ==> Slice(s, offset, offset + limit) == s[offset..if offset + limit < |s| then offset + limit else |s|]
    ensures offset >= |s| ==> Slice(s, offset, offset + limit) == []
  {
  }

  /** Two consecutive pages are the page that spans both. */
  lemma WindowsTile<T>(s: seq<T>, offset: int, a: int, b: int)
    requires offset >= 0 && a >= 0 && b >= 0
    ensures Slice(s, offset, offset + a) + Slice(s, offset + a, offset + a + b) == Slice(s, offset, offset + a + b)
  {
    var n := |s|;
    var x, y, z := SliceBound(offset, n), SliceBound(offset + a, n), SliceBound(offset + a + b, n);
    assert x <= y <= z;
    if x < y && y < z {
      assert s[x..y] + s[y..z] == s[x..z];
    }
  }

  /** A slice from the start with a positive bound begins with the first element. */
  lemma SliceHead<T>(s: seq<T>, n: int) returns (rest: seq<T>)
    requires |s| > 0 && n >= 1
    ensures Slice(s, 0, n) == [s[0]] + rest
  {
    rest := Slice(s, 0, n)[1..];
  }

  /** A slice `s[lo:lo + limit]` never holds more than `limit` elements, whatever the sign of `lo`. */
  lemma SliceLength<T>(s: seq<T>, lo: int, limit: int)
    requires limit >= 0
    ensures |Slice(s, lo, lo + limit)| <= limit
  {
    var n := |s|;
    var a, b := SliceBound(lo, n), SliceBound(lo + limit, n);
    if a < b {
      if lo < 0 && lo + limit < 0 {
        assert b - a <= limit;
      } else if lo < 0 {
        assert a >= lo + n && b <= lo + limit;
      }
    }
  }

  /** `[f(x) for x in xs]` */
  function Map<A, B>(f: A -> B, xs: seq<A>): (ys: seq<B>)
    ensures |ys| == |xs|
  {
    seq(|xs|, i requires 0 <= i < |xs| => f(xs[i]))
  }

  lemma MapAppend<A, B>(f: A -> B, xs: seq<A>, ys: seq<A>)
    ensures Map(f, xs + ys) == Map(f, xs) + Map(f, ys)
  {
    forall i | 0 <= i < |xs + ys| ensures Map(f, xs + ys)[i] == (Map(f, xs) + Map(f, ys))[i] {
      if i >= |xs| {
        assert (xs + ys)[i] == ys[i - |xs|];
      }
    }
  }

  /** Each of three concatenated pieces can be sliced back out. */
  lemma ThreeParts<T>(a: seq<T>, b: seq<T>, c: seq<T>)
    ensures (a + b + c)[..|a|] == a
    ensures (a + b + c)[|a|..|a| + |b|] == b
    ensures (a + b + c)[|a| + |b|..] == c
  {
  }

  /** A sequence is its three pieces cut at `i` and `j`, put back together. */
  lemma Cut3<T>(s: seq<T>, i: nat, j: nat)
    requires i <= j <= |s|
    ensures s == s[..i] + s[i..j] + s[j..]
  {
  }

  /** `order` with every occurrence of `id` left out, the rest in the same order. */
  function Without<T(==,!new)>(order: seq<T>, id: T): (r: seq<T>)
    ensures forall x :: x in r <==> x in order && x != id
    ensures |r| <= |order|
  {
    if order == [] then []
    else
      var rest := Without(order[1..], id);
      var head := if order[0] == id then [] else [order[0]];
      assert forall x :: x in head + rest <==> x in head || x in rest;
      assert forall x :: x in order <==> x == order[0] || x in order[1..] by {
        assert order == [order[0]] + order[1..];
      }
      head + rest
  }

  /** No element occurs twice. */
  predicate Distinct<T(==,!new)>(s: seq<T>) {
    forall i, j :: 0 <= i < j < |s| ==> s[i] != s[j]
  }

  lemma {:induction false} WithoutDistinct<T(!new)>(order: seq<T>, id: T)
    requires Distinct(order)
    ensures Distinct(Without(order, id))
  {
    if order != [] {
      var tail := order[1..];
      assert Distinct(tail) by {
        forall i, j | 0 <= i < j < |tail| ensures tail[i] != tail[j] {
          assert tail[i] == order[i + 1] && tail[j] == order[j + 1];
        }
      }
      WithoutDistinct(tail, id);
      var rest := Without(tail, id);
      forall k | 0 <= k < |tail| ensures tail[k] != order[0] {
        assert tail[k] == order[k + 1];
      }
      assert order[0] !in rest;
      if order[0] != id {
        var r := [order[0]] + rest;
        forall i, j | 0 <= i < j < |r| ensures r[i] != r[j] {
          assert r[j] == rest[j - 1] && rest[j - 1] in rest;
          if i > 0 {
            assert r[i] == rest[i - 1];
          }
        }
        assert Without(order, id) == r;
      } else {
        assert Without(order, id) == rest;
      }
    }
  }

  lemma {:induction false} WithoutAbsent<T(!new)>(order: seq<T>, id: T)
    requires id !in order
    ensures Without(order, id) == order
  {
    if order != [] {
      WithoutAbsent(order[1..], id);
      assert [order[0]] + order[1..] == order;
    }
  }

  /** A list without repeats that holds exactly the elements of `keys` is as long as `keys` is large. */
  lemma {:induction false} DistinctCard<T(!new)>(order: seq<T>, keys: set<T>)
    requires Distinct(order)
    requires forall id :: id in keys <==> id in order
    ensures |order| == |keys|
    decreases |order|
  {
    if order != [] {
      var last := order[|order| - 1];
      var init := order[..|order| - 1];
      forall k | 0 <= k < |init| ensures init[k] != last {
        assert init[k] == order[k];
      }
      assert forall id :: id in keys - {last} <==> id in init by {
        forall id ensures id in keys - {last} <==> id in init {
          if id in init {
            var k :| 0 <= k < |init| && init[k] == id;
            assert order[k] == id;
          }
          if id in order && id != last {
            var k :| 0 <= k < |order| && order[k] == id;
            assert k < |order| - 1 && init[k] == id;
          }
        }
      }
      DistinctCard(init, keys - {last});
    } else {
      assert forall id :: id !in keys;
      assert keys == {};
    }
  }
}

=== FILE: messages.dfy ===
/**
 * The chat message the plugin hooks rewrite, and the location a task is delivered to, reduced to
 * the fields they read or write. Attached files are identified by name.
 */
module Messages {
  import opened Wrappers

  datatype EventMessage = EventMessage(
    userId: string,
    chatId: string,
    threadId: Option<string>,
    text: string,
    files: seq<string>,
    createdAt: int)

  /** Where a task's reply goes. */
  datatype Location = Location(platform: string, userId: string, chatId: string, threadId: Option<string>)
}

=== FILE: rss_reader.dfy ===
/**
 * The RSS-reader plugin: the subscription table kept by `RSSManager`, the loop of `fetch_feed`
 * that turns feed entries into articles while remembering which articles were already
 * delivered, the formatter that renders articles as one chat message, and the tool's keyword test.
 *
 * `hashlib.md5(...).hexdigest()` and `html2text` are library code: the manager holds them as
 * the functions `digest` and `toText` and nothing is assumed about them. Times are whole
 * seconds since the epoch, and the clock is the parameter `now`.
 */
module RssReader {
  import opened Wrappers
  import opened Strings
  import opened Lists

  /** `RSSFeedConfig`. */
  datatype FeedConfig = FeedConfig(
    feedUrl: string,
    channelId: string,
    intervalMinutes: int,
    maxItems: int,
    summaryEnabled: bool,
    category: Option<string>)

  /** A configuration with the field defaults: every 30 minutes, 5 items, summaries on. */
  function NewFeedConfig(feedUrl: string, channelId: string): FeedConfig {
    FeedConfig(feedUrl, channelId, 30, 5, true, None)
  }

  /** A stored subscription: `{"user_id": ..., "config": ...}`. */
  datatype Subscription = Subscription(userId: string, config: FeedConfig)

  /** An item of `get_user_feeds`: the feed id followed by the configuration fields. */
  datatype UserFeed = UserFeed(id: string, config: FeedConfig)

  /** The id of a subscription: the first 8 characters of the digest of `"{user_id}:{feed_url}"`. */
  function FeedId(digest: string -> string, userId: string, feedUrl: string): (id: string)
    ensures |id| <= 8 && |id| <= |digest(userId + ":" + feedUrl)|
    ensures id == digest(userId + ":" + feedUrl)[..|id|]
    ensures |digest(userId + ":" + feedUrl)| >= 8 ==> |id| == 8
  {
    Take(digest(userId + ":" + feedUrl), 8)
  }

  /** Every listed id has a subscription. */
  predicate Listed(feeds: map<string, Subscription>, ids: seq<string>) {
    forall id :: id in ids ==> id in feeds
  }

  /** `get_user_feeds` as a value: the subscriptions of `userId`, walking `ids` in order. */
  function UserFeeds(feeds: map<string, Subscription>, ids: seq<string>, userId: string): (r: seq<UserFeed>)
    requires Listed(feeds, ids)
    ensures |r| <= |ids|
  {
    if ids == [] then []
    else
      var id := ids[|ids| - 1];
      var init := UserFeeds(feeds, ids[..|ids| - 1], userId);
      if feeds[id].userId == userId then init + [UserFeed(id, feeds[id].config)] else init
  }

  /** A listed feed is exactly a subscription of the user. */
  lemma {:induction false} UserFeedsExact(feeds: map<string, Subscription>, ids: seq<string>, userId: string)
    requires Listed(feeds, ids)
    ensures forall f :: f in UserFeeds(feeds, ids, userId) <==>
      f.id in ids && feeds[f.id] == Subscription(userId, f.config)
  {
    if ids != [] {
      var id, init := ids[|ids| - 1], ids[..|ids| - 1];
      assert ids == init + [id];
      UserFeedsExact(feeds, init, userId);
    }
  }

  /** The listing keeps the order of `ids`, and lists each id once when `ids` has no repeats. */
  lemma {:induction false} UserFeedsOrdered(feeds: map<string, Subscription>, ids: seq<string>, userId: string)
    returns (pos: seq<nat>)
    requires Listed(feeds, ids)
    ensures var r := UserFeeds(feeds, ids, userId);
      |pos| == |r| &&
      (forall i :: 0 <= i < |r| ==> pos[i] < |ids| && ids[pos[i]] == r[i].id) &&
      (forall i, j :: 0 <= i < j < |r| ==> pos[i] < pos[j])
    ensures Distinct(ids) ==> var r := UserFeeds(feeds, ids, userId);
      forall i, j :: 0 <= i < j < |r| ==> r[i].id != r[j].id
  {
    if ids == [] {
      pos := [];
    } else {
      var id, init := ids[|ids| - 1], ids[..|ids| - 1];
      var before := UserFeedsOrdered(feeds, init, userId);
      if feeds[id].userId == userId {
        pos := before + [|ids| - 1];
      } else {
        pos := before;
      }
      var r := UserFeeds(feeds, ids, userId);
      if Distinct(ids) {
        forall i, j | 0 <= i < j < |r|
          ensures r[i].id != r[j].id
        {
          assert pos[i] < pos[j] < |ids|;
        }
      }
    }
  }

  /** `RSSManager`: subscriptions by feed id, their insertion order, and the delivered article ids. */
  class RssManager {
    const digest: string -> string
    const toText: string -> string
    var feeds: map<string, Subscription>
    var order: seq<string>
    var seen: set<string>

    /** `order` lists every subscribed feed id once. */
    ghost predicate Valid()
      reads this
    {
      Distinct(order) && (forall id :: id in feeds <==> id in order)
    }

    constructor (digest: string -> string, toText: string -> string)
      ensures Valid()
      ensures this.digest == digest && this.toText == toText
      ensures feeds == map[] && order == [] && seen == {}
    {
      this.digest := digest;
      this.toText := toText;
      feeds := map[];
      order := [];
      seen := {};
    }

    /** `add_feed`: stores the subscription under its id, replacing one for the same user and URL. */
    method AddFeed(userId: string, config: FeedConfig) returns (feedId: string)
      requires Valid()
      modifies this
      ensures Valid()
      ensures feedId == FeedId(digest, userId, config.feedUrl)
      ensures feeds == old(feeds)[feedId := Subscription(userId, config)]
      ensures order == if feedId in old(feeds) then old(order) else old(order) + [feedId]
      ensures seen == old(seen)
    {
      feedId := FeedId(digest, userId, config.feedUrl);
      if feedId !in feeds {
        order := order + [feedId];
      }
      feeds := feeds[feedId := Subscription(userId, config)];
    }

    /** `remove_feed`: true iff the id was subscribed; the other subscriptions stay as they were. */
    method RemoveFeed(feedId: string) returns (removed: bool)
      requires Valid()
      modifies this
      ensures Valid()
      ensures removed <==> feedId in old(feeds)
      ensures feeds == old(feeds) - {feedId}
      ensures feedId !in feeds
      ensures forall id :: id in old(feeds) && id != feedId ==> id in feeds && feeds[id] == old(feeds)[id]
      ensures order == Without(old(order), feedId)
      ensures seen == old(seen)
    {
      if feedId in feeds {
        feeds := feeds - {feedId};
        WithoutDistinct(order, feedId);
        order := Without(order, feedId);
        return true;
      }
      WithoutAbsent(order, feedId);
      return false;
    }

    /** `get_user_feeds`: the loop over the table in order. */
    method GetUserFeeds(userId: string) returns (userFeeds: seq<UserFeed>)
      requires Valid()
      ensures Listed(feeds, order)
      ensures userFeeds == UserFeeds(feeds, order, userId)
    {
      userFeeds := [];
      for i := 0 to |order|
        invariant userFeeds == UserFeeds(feeds, order[..i], userId)
      {
        var feedId := order[i];
        assert order[..i + 1] == order[..i] + [feedId];
        var data := feeds[feedId];
        if data.userId == userId {
          userFeeds := userFeeds + [UserFeed(feedId, data.config)];
        }
      }
      assert order[..|order|] == order;
    }

    /** `fetch_feed`: the loop over the first `maxItems` entries, with `now` for the clock. */
    method FetchFeed(feed: Feed, maxItems: int, now: int) returns (articles: seq<Article>)
      modifies this`seen
      ensures var st := ScanAll(Fetch(digest, toText, Published, SourceName(feed), now),
                                Scan([], old(seen), false), Slice(feed.entries, 0, maxItems));
        seen == st.seen && articles == Delivered(st)
    {
      var window := Slice(feed.entries, 0, maxItems);
      ghost var f := Fetch(digest, toText, Published, SourceName(feed), now);
      ghost var start := Scan([], seen, false);
      var source := SourceName(feed);
      articles := [];
      var i := 0;
      while i < |window|
        invariant 0 <= i <= |window|
        invariant ScanAll(f, start, window[..i]) == Scan(articles, seen, false)
      {
        var entry := window[i];
        ScanAllStep(f, start, window, i);
        var articleId := digest(EntryLink(entry));
        if articleId in seen {
          i := i + 1;
          continue;
        }
        var title := entry.title.GetOr("No title");
        var link := EntryLink(entry);
        var content := RawContent(entry);
        var published := Published(entry);
        if content.None? || published.Raises? {
          ScanFailedStays(f, start, window, i + 1);
          assert window[..|window|] == window;
          articles := [];
          return;
        }
        var contentText := toText(content.value);
        if published.At? && TooOld(now, published.seconds) {
          i := i + 1;
          continue;
        }
        var stamp := if published.At? then Some(published.seconds) else None;
        articles := articles + [Article(articleId, title, link, Take(contentText, 2000), stamp, source, None)];
        seen := seen + {articleId};
        i := i + 1;
      }
      assert window[..|window|] == window;
    }
  }

  /* ---------------------------------------------------------------------------------------- */
  /* Fetching                                                                                  */

  /**
   * A parsed date field of an entry: absent, present but unparsed (`None`), or a
   * `time.struct_time` given by the instant it denotes and its `tm_isdst` flag.
   */
  datatype DateField = NoDate | Unparsed | Parsed(seconds: int, isdst: int)

  /**
   * A feed entry. `None` is a missing key; `content` is the list of content objects, each with
   * its `value` if it has one.
   */
  datatype Entry = Entry(
    link: Option<string>,
    id: Option<string>,
    title: Option<string>,
    summary: Option<string>,
    description: Option<string>,
    content: Option<seq<Option<string>>>,
    published: DateField,
    updated: DateField)

  /** A parsed feed: the channel title, if any, and the entries. */
  datatype Feed = Feed(title: Option<string>, entries: seq<Entry>)

  /** An article; `published` is a time in seconds, `summary` a key only callers add. */
  datatype Article = Article(
    id: string,
    title: string,
    link: string,
    content: string,
    published: Option<int>,
    source: string,
    summary: Option<string>)

  /** `feed.feed.get('title', 'Unknown')`. */
  function SourceName(feed: Feed): string {
    feed.title.GetOr("Unknown")
  }

  /** `entry.get('link', entry.get('id', ''))`: the article link, also hashed into its id. */
  function EntryLink(e: Entry): (link: string)
    ensures e.link.Some? ==> link == e.link.value
    ensures e.link.None? && e.id.Some? ==> link == e.id.value
    ensures e.link.None? && e.id.None? ==> link == ""
  {
    e.link.GetOr(e.id.GetOr(""))
  }

  /**
   * The HTML body of an entry: the summary, else the description, else the first content
   * object's value. `None` when the content list is empty, where the indexing raises.
   */
  function RawContent(e: Entry): (r: Option<string>)
    ensures r.None? <==> !Truthy(e.summary) && !Truthy(e.description) && e.content == Some([])
    ensures Truthy(e.summary) ==> r == e.summary
    ensures !Truthy(e.summary) && Truthy(e.description) ==> r == e.description
    ensures !Truthy(e.summary) && !Truthy(e.description) && e.content.None? ==> r == Some("")
    ensures !Truthy(e.summary) && !Truthy(e.description) && e.content.Some? && e.content.value != [] ==>
      r == Some(e.content.value[0].GetOr(""))
  {
    if Truthy(e.summary) then e.summary
    else if Truthy(e.description) then e.description
    else match e.content
      case None => Some("")
      case Some(values) => if values == [] then None else Some(values[0].GetOr(""))
  }

  /** The date of an entry as the loop reads it: it raises, it has none, or it is a time. */
  datatype Dated = Raises | Undated | At(seconds: int)

  /** The date field the loop looks at: `published_parsed` when present, else `updated_parsed`. */
  function DateSource(e: Entry): DateField {
    if e.published != NoDate then e.published else e.updated
  }

  /** The publication time of an entry: the instant its date field denotes. */
  function Published(e: Entry): (d: Dated)
    ensures d.At? <==> DateSource(e).Parsed?
    ensures d.At? ==> d.seconds == DateSource(e).seconds
    ensures d.Raises? <==> DateSource(e) == Unparsed
  {
    match DateSource(e)
    case NoDate => Undated
    case Unparsed => Raises
    case Parsed(seconds, _) => At(seconds)
  }

  /** The publication time as the source computes it: the `tm_isdst` flag read as a timestamp. */
  function PublishedAsWritten(e: Entry): (d: Dated)
    ensures d.At? <==> DateSource(e).Parsed?
    ensures d.At? ==> d.seconds == DateSource(e).isdst
    ensures d.Raises? <==> DateSource(e) == Unparsed
  {
    match DateSource(e)
    case NoDate => Undated
    case Unparsed => Raises
    case Parsed(_, isdst) => At(isdst)
  }

  /** More than 48 hours lie between `published` and `now`. */
  predicate TooOld(now: int, published: int) {
    now - published > 48 * 3600
  }

  /** What one fetch works with besides the entries. */
  datatype Fetch = Fetch(
    digest: string -> string,
    toText: string -> string,
    date: Entry -> Dated,
    source: string,
    now: int)

  /** The state of the loop: articles so far, the delivered ids, and whether it has raised. */
  datatype Scan = Scan(articles: seq<Article>, seen: set<string>, failed: bool)

  /** The article made from an entry whose HTML body is `content`. */
  function MakeArticle(f: Fetch, e: Entry, content: string, published: Option<int>): (a: Article)
    ensures a.id == f.digest(EntryLink(e)) && a.link == EntryLink(e)
    ensures a.title == e.title.GetOr("No title") && a.source == f.source
    ensures |a.content| <= 2000 && |a.content| <= |f.toText(content)|
    ensures a.content == f.toText(content)[..|a.content|]
    ensures |a.content| == if |f.toText(content)| < 2000 then |f.toText(content)| else 2000
    ensures a.published == published && a.summary == None
  {
    Article(f.digest(EntryLink(e)), e.title.GetOr("No title"), EntryLink(e),
            Take(f.toText(content), 2000), published, f.source, None)
  }

  /** Appending an article and marking its id as delivered. */
  function Keep(st: Scan, a: Article): Scan {
    Scan(st.articles + [a], st.seen + {a.id}, false)
  }

  /** One turn of the loop. */
  function Step(f: Fetch, st: Scan, e: Entry): (next: Scan) {
    if st.failed then st
    else if f.digest(EntryLink(e)) in st.seen then st
    else match RawContent(e)
      case None => st.(failed := true)
      case Some(content) =>
        match f.date(e)
        case Raises => st.(failed := true)
        case Undated => Keep(st, MakeArticle(f, e, content, None))
        case At(t) => if TooOld(f.now, t) then st else Keep(st, MakeArticle(f, e, content, Some(t)))
  }

  /** The loop over `es`, from `st`. */
  function ScanAll(f: Fetch, st: Scan, es: seq<Entry>): Scan {
    if es == [] then st else Step(f, ScanAll(f, st, es[..|es| - 1]), es[|es| - 1])
  }

  /** One more entry of `es`. */
  lemma ScanAllStep(f: Fetch, st: Scan, es: seq<Entry>, i: nat)
    requires i < |es|
    ensures ScanAll(f, st, es[..i + 1]) == Step(f, ScanAll(f, st, es[..i]), es[i])
  {
    assert es[..i + 1][..i] == es[..i];
  }

  /** What `fetch_feed` returns: nothing when the loop raised. */
  function Delivered(st: Scan): (r: seq<Article>)
    ensures st.failed ==> r == []
    ensures !st.failed ==> r == st.articles
  {
    if st.failed then [] else st.articles
  }

  /** Once the loop has raised, later entries change nothing. */
  lemma {:induction false} ScanFailedStays(f: Fetch, st: Scan, es: seq<Entry>, i: nat)
    requires i <= |es| && ScanAll(f, st, es[..i]).failed
    ensures ScanAll(f, st, es) == ScanAll(f, st, es[..i])
    decreases |es| - i
  {
    if i < |es| {
      assert es[..i + 1] == es[..i] + [es[i]];
      ScanFailedStays(f, st, es, i + 1);
    } else {
      assert es[..i] == es;
    }
  }

  /** The ids of some articles, in order. */
  function Ids(articles: seq<Article>): (ids: seq<string>)
    ensures |ids| == |articles|
    ensures forall i :: 0 <= i < |articles| ==> ids[i] == articles[i].id
  {
    Map((a: Article) => a.id, articles)
  }

  /**
   * The bookkeeping of the loop from the delivered set `seen0`: the articles are new, carry
   * distinct ids, have bounded content, and the delivered set grew by exactly their ids.
   */
  ghost predicate Tracked(seen0: set<string>, st: Scan) {
    (forall a :: a in st.articles ==> a.id !in seen0 && |a.content| <= 2000) &&
    st.seen == seen0 + (set a | a in st.articles :: a.id) &&
    Distinct(Ids(st.articles))
  }

  /** Adding a fresh article keeps the bookkeeping. */
  lemma KeepTracked(seen0: set<string>, st: Scan, a: Article)
    requires Tracked(seen0, st) && a.id !in st.seen && |a.content| <= 2000
    ensures Tracked(seen0, Keep(st, a))
  {
    var next := Keep(st, a);
    assert (set b | b in next.articles :: b.id) == (set b | b in st.articles :: b.id) + {a.id};
    var ids := Ids(next.articles);
    forall i, j | 0 <= i < j < |ids|
      ensures ids[i] != ids[j]
    {
      if j == |ids| - 1 {
        assert st.articles[i] in st.articles;
      } else {
        assert ids[i] == Ids(st.articles)[i] && ids[j] == Ids(st.articles)[j];
      }
    }
  }

  /** One turn keeps the bookkeeping. */
  lemma StepTracked(f: Fetch, seen0: set<string>, st: Scan, e: Entry)
    requires Tracked(seen0, st)
    ensures Tracked(seen0, Step(f, st, e))
  {
    if !st.failed && f.digest(EntryLink(e)) !in st.seen && RawContent(e).Some? {
      var content := RawContent(e).value;
      match f.date(e)
      case Raises =>
      case Undated => KeepTracked(seen0, st, MakeArticle(f, e, content, None));
      case At(t) =>
        if !TooOld(f.now, t) {
          KeepTracked(seen0, st, MakeArticle(f, e, content, Some(t)));
        }
    }
  }

  /** The loop keeps the bookkeeping, and adds at most one article per entry. */
  lemma {:induction false} ScanTracked(f: Fetch, seen0: set<string>, st: Scan, es: seq<Entry>)
    requires Tracked(seen0, st)
    ensures Tracked(seen0, ScanAll(f, st, es))
    ensures |ScanAll(f, st, es).articles| <= |st.articles| + |es|
  {
    if es != [] {
      var init := es[..|es| - 1];
      ScanTracked(f, seen0, st, init);
      StepTracked(f, seen0, ScanAll(f, st, init), es[|es| - 1]);
    }
  }

  /** An article published no more than 48 hours before `now`, or carrying no date. */
  predicate Recent(now: int, a: Article) {
    a.published.None? || !TooOld(now, a.published.value)
  }

  /**
   * An article the loop adds is made from one of the entries it was given: its id, link, title
   * and source come from the entry and the feed, its content is the converted body of the entry
   * cut to 2000 characters, and its date is the entry's date, which lies within 48 hours of `now`.
   */
  predicate MadeFrom(f: Fetch, a: Article, e: Entry) {
    a.id == f.digest(EntryLink(e)) && a.link == EntryLink(e) &&
    a.title == e.title.GetOr("No title") && a.source == f.source && a.summary == None &&
    RawContent(e).Some? && a.content == Take(f.toText(RawContent(e).value), 2000) &&
    (match f.date(e)
     case Raises => false
     case Undated => a.published == None
     case At(t) => a.published == Some(t) && !TooOld(f.now, t))
  }

  /** What an article made from an entry promises about its date. */
  lemma MadeFromRecent(f: Fetch, a: Article, e: Entry)
    requires MadeFrom(f, a, e)
    ensures Recent(f.now, a)
  {
  }

  lemma {:induction false} ScanProvenance(f: Fetch, st: Scan, es: seq<Entry>)
    ensures forall a :: a in ScanAll(f, st, es).articles ==>
      a in st.articles || exists e :: e in es && MadeFrom(f, a, e)
  {
    if es != [] {
      var init, e := es[..|es| - 1], es[|es| - 1];
      ScanProvenance(f, st, init);
      var before := ScanAll(f, st, init);
      forall a | a in ScanAll(f, st, es).articles
        ensures a in st.articles || exists e :: e in es && MadeFrom(f, a, e)
      {
        if a !in before.articles {
          assert MadeFrom(f, a, e) && e in es;
        } else if a !in st.articles {
          var e' :| e' in init && MadeFrom(f, a, e');
          assert e' in es;
        }
      }
    }
  }

  /**
   * What one call of `fetch_feed` promises: at most `maxItems` articles, all new, with distinct
   * ids, each made from an entry and none older than 48 hours; afterwards exactly their ids have
   * been added to the delivered set, so an entry skipped as seen or as too old is not marked.
   */
  lemma FetchPromises(f: Fetch, seen0: set<string>, entries: seq<Entry>, maxItems: int)
    ensures var st := ScanAll(f, Scan([], seen0, false), Slice(entries, 0, maxItems));
      var r := Delivered(st);
      (maxItems >= 0 ==> |r| <= maxItems) &&
      (forall a :: a in r ==> a.id !in seen0 && a.id in st.seen && |a.content| <= 2000) &&
      (forall a :: a in r ==> exists e :: e in entries && MadeFrom(f, a, e)) &&
      (forall a :: a in r ==> Recent(f.now, a)) &&
      Distinct(Ids(r)) &&
      st.seen == seen0 + (set a | a in st.articles :: a.id)
  {
    var window := Slice(entries, 0, maxItems);
    var start := Scan([], seen0, false);
    assert Tracked(seen0, start) by {
      assert (set a | a in start.articles :: a.id) == {};
    }
    ScanTracked(f, seen0, start, window);
    ScanProvenance(f, start, window);
    if maxItems >= 0 {
      SliceLength(entries, 0, maxItems);
    }
    var st := ScanAll(f, start, window);
    forall a, e | a in Delivered(st) && e in window && MadeFrom(f, a, e)
      ensures e in entries
    {
      var a0, b0 := SliceBound(0, |entries|), SliceBound(maxItems, |entries|);
      assert window == entries[a0..b0];
    }
    forall a | a in Delivered(st)
      ensures Recent(f.now, a)
    {
      var e :| e in window && MadeFrom(f, a, e);
      MadeFromRecent(f, a, e);
    }
  }

  /** The fetch: the first `maxItems` entries, from the delivered set `seen0`. */
  function FetchWith(f: Fetch, seen0: set<string>, entries: seq<Entry>, maxItems: int): Scan {
    ScanAll(f, Scan([], seen0, false), Slice(entries, 0, maxItems))
  }

  /** An undelivered, readable entry published within the last 48 hours is delivered with its date. */
  lemma RecentEntryDelivered(f: Fetch, seen0: set<string>, e: Entry)
    requires f.date == Published
    requires f.digest(EntryLink(e)) !in seen0 && RawContent(e).Some?
    requires DateSource(e).Parsed? && !TooOld(f.now, DateSource(e).seconds)
    ensures Delivered(FetchWith(f, seen0, [e], 5)) ==
      [MakeArticle(f, e, RawContent(e).value, Some(DateSource(e).seconds))]
  {
    var start := Scan([], seen0, false);
    assert Slice([e], 0, 5) == [e];
    assert [e][..0] == [];
    assert ScanAll(f, start, [e]) == Step(f, start, e);
    assert f.date(e) == At(DateSource(e).seconds);
  }

  /**
   * As written, with a clock past 2 January 1970, no delivered article has a date: every
   * dated entry counts as published at second -1, 0 or 1 of the epoch and is skipped.
   */
  lemma {:induction false} AsWrittenDropsDated(f: Fetch, st: Scan, es: seq<Entry>)
    requires f.date == PublishedAsWritten && f.now > 48 * 3600 + 1
    requires forall e :: e in es && DateSource(e).Parsed? ==> -1 <= DateSource(e).isdst <= 1
    ensures forall a :: a in ScanAll(f, st, es).articles ==> a in st.articles || a.published == None
  {
    if es != [] {
      var init := es[..|es| - 1];
      AsWrittenDropsDated(f, st, init);
    }
  }

  /** The same entry, posted an hour ago, is delivered by the intended reading and dropped as written. */
  lemma AsWrittenDropsRecentEntry()
    ensures var e := Entry(Some("https://example.org/a"), None, Some("A"), Some("<p>a</p>"), None, None,
                           Parsed(1700000000 - 3600, 0), NoDate);
      var f := Fetch(s => s, s => s, Published, "Feed", 1700000000);
      |Delivered(FetchWith(f, {}, [e], 5))| == 1 &&
      Delivered(FetchWith(f.(date := PublishedAsWritten), {}, [e], 5)) == []
  {
    var e := Entry(Some("https://example.org/a"), None, Some("A"), Some("<p>a</p>"), None, None,
                   Parsed(1700000000 - 3600, 0), NoDate);
    var f := Fetch(s => s, s => s, Published, "Feed", 1700000000);
    RecentEntryDelivered(f, {}, e);
    var g := f.(date := PublishedAsWritten);
    var start := Scan([], {}, false);
    assert Slice([e], 0, 5) == [e];
    assert [e][..0] == [];
    assert ScanAll(g, start, [e]) == Step(g, start, e);
    assert g.date(e) == At(0);
  }

  /* ---------------------------------------------------------------------------------------- */
  /* Formatting                                                                                */

  /** The message when there is nothing to post. */
  function NoArticlesMessage(): string {
    "\U{1F4ED} No new articles found in the RSS feed."
  }

  /** The summary shown in the news format: the article's own, else its first 200 characters. */
  function NewsSummary(a: Article): (s: string)
    ensures a.summary.Some? ==> s == a.summary.value
    ensures a.summary.None? ==> 3 <= |s| <= 203 && |s| - 3 <= |a.content|
    ensures a.summary.None? ==> s[..|s| - 3] == a.content[..|s| - 3] && s[|s| - 3..] == "..."
    ensures a.summary.None? ==> |s| == (if |a.content| < 200 then |a.content| else 200) + 3
  {
    a.summary.GetOr(Take(a.content, 200) + "...")
  }

  /** The text of a news item before stripping. */
  function NewsText(a: Article, includeSummary: bool): string {
    "**\U{1F4F0} " + a.title + "**\n*Source: " + a.source + "*\n"
    + (if includeSummary then NewsSummary(a) else "")
    + "\n[Read more](" + a.link + ")\n"
  }

  /** A news item: the text above, stripped. */
  function NewsItem(a: Article, includeSummary: bool): (item: string)
    ensures Stripped(item)
  {
    Strip(NewsText(a, includeSummary))
  }

  /** Stripping a news item only drops its final newline. */
  lemma NewsItemShape(a: Article, includeSummary: bool)
    ensures var t := NewsText(a, includeSummary);
      NewsItem(a, includeSummary) == t[..|t| - 1]
  {
    var t := NewsText(a, includeSummary);
    var body := t[..|t| - 1];
    assert t == body + "\n";
    RStripSpaceSuffix(body, "\n");
    assert body[|body| - 1] == ')';
    assert RStrip(body) == body;
    assert body[0] == '*';
  }

  function NewsHeader(n: nat): string {
    "\U{1F4E8} **RSS Update** - " + NatToString(n) + " new article(s)\n"
  }

  /** The first line of the brief format. */
  function BriefHeadLine(n: nat): string {
    "\U{1F4CB} **Quick Update** (" + NatToString(n) + " items)"
  }

  /** The bullet and link every brief line starts with. */
  function Bullet(a: Article): string {
    "\U{2022} [" + a.title + "](" + a.link + ")"
  }

  /** A brief line: the bullet, then the summary cut to 100 characters when asked for and present. */
  function BriefItem(a: Article, includeSummary: bool): (line: string)
    ensures |line| >= |Bullet(a)| && line[..|Bullet(a)|] == Bullet(a)
    ensures |line| > |Bullet(a)| <==> includeSummary && Truthy(a.summary)
    ensures |line| <= |Bullet(a)| + 3 + 100 + 3
    ensures |line| > |Bullet(a)| ==> line[|Bullet(a)|..] == " - " + Take(a.summary.value, 100) + "..."
  {
    if includeSummary && Truthy(a.summary) then Bullet(a) + " - " + Take(a.summary.value, 100) + "..."
    else Bullet(a)
  }

  /** A line of the default format: bold title, the summary when asked for and present, the link. */
  function DefaultItem(a: Article, includeSummary: bool): (item: string)
    ensures var head := "**" + a.title + "**\n";
      |item| >= |head| && item[..|head|] == head
    ensures var link := "[Link](" + a.link + ")";
      |item| >= |link| && item[|item| - |link|..] == link
    ensures |item| > |a.title| + |a.link| + 13 <==> includeSummary && Truthy(a.summary)
    ensures |item| >= |"**" + a.title + "**\n"| + |"[Link](" + a.link + ")"|
    ensures item[|"**" + a.title + "**\n"|..|item| - |"[Link](" + a.link + ")"|] ==
      if includeSummary && Truthy(a.summary) then a.summary.value + "\n" else ""
  {
    "**" + a.title + "**\n"
    + (if includeSummary && Truthy(a.summary) then a.summary.value + "\n" else "")
    + "[Link](" + a.link + ")"
  }

  /** `format_discord_message`. */
  function FormatDiscordMessage(articles: seq<Article>, channelType: string, includeSummary: bool): (msg: string)
    ensures articles == [] ==> msg == NoArticlesMessage()
    ensures articles != [] && channelType == "news" ==>
      var h := NewsHeader(|articles|); |msg| >= |h| && msg[..|h|] == h
    ensures articles != [] && channelType == "brief" ==>
      var h := BriefHeadLine(|articles|) + "\n"; |msg| >= |h| && msg[..|h|] == h
  {
    if articles == [] then NoArticlesMessage()
    else if channelType == "news" then
      NewsHeader(|articles|) + Join(Map((a: Article) => NewsItem(a, includeSummary), articles), "\n\n---\n\n")
    else if channelType == "brief" then
      BriefHeadLine(|articles|) + "\n" + Join(Map((a: Article) => BriefItem(a, includeSummary), articles), "\n")
    else
      Join(Map((a: Article) => DefaultItem(a, includeSummary), articles), "\n\n")
  }

  /** No line break inside the fields a brief line shows. */
  predicate OneLine(a: Article) {
    '\n' !in a.title && '\n' !in a.link && (a.summary.Some? ==> '\n' !in a.summary.value)
  }

  /**
   * The brief format is a header line with the article count, then one line per article in
   * order: splitting the message at line breaks gives these lines back.
   */
  lemma BriefLines(articles: seq<Article>, includeSummary: bool)
    requires articles != [] && forall a :: a in articles ==> OneLine(a)
    ensures var lines := SplitOn(FormatDiscordMessage(articles, "brief", includeSummary), "\n");
      |lines| == |articles| + 1 &&
      lines[0] == BriefHeadLine(|articles|) &&
      forall i :: 0 <= i < |articles| ==> lines[i + 1] == BriefItem(articles[i], includeSummary)
  {
    var items := Map((a: Article) => BriefItem(a, includeSummary), articles);
    var head := BriefHeadLine(|articles|);
    var parts := [head] + items;
    assert FormatDiscordMessage(articles, "brief", includeSummary) == head + "\n" + Join(items, "\n");
    assert Join(parts, "\n") == head + "\n" + Join(items, "\n") by {
      assert parts[1..] == items;
    }
    HeadLineUnbroken(|articles|);
    forall k | 0 <= k < |parts|
      ensures '\n' !in parts[k]
    {
      if k > 0 {
        var a := articles[k - 1];
        assert a in articles;
        BriefItemUnbroken(a, includeSummary);
      }
    }
    SplitOnJoin(parts, '\n');
  }

  lemma HeadLineUnbroken(n: nat)
    ensures '\n' !in BriefHeadLine(n)
  {
    var digits := NatToString(n);
    assert forall i :: 0 <= i < |digits| ==> IsDigit(digits[i]);
  }

  lemma BriefItemUnbroken(a: Article, includeSummary: bool)
    requires OneLine(a)
    ensures '\n' !in BriefItem(a, includeSummary)
  {
    if includeSummary && Truthy(a.summary) {
      var cut := Take(a.summary.value, 100);
      assert forall i :: 0 <= i < |cut| ==> cut[i] == a.summary.value[i];
    }
  }

  /** The count in the brief header reads back as the number of articles. */
  lemma BriefHeadCount(n: nat)
    ensures var line := BriefHeadLine(n);
      var lead := |"\U{1F4CB} **Quick Update** ("|;
      var digits := line[lead..|line| - |" items)"|];
      digits == NatToString(n) && DigitsValue(digits) == n
  {
    var lead := "\U{1F4CB} **Quick Update** (";
    var line := BriefHeadLine(n);
    assert line == lead + NatToString(n) + " items)";
    assert line[|lead|..|line| - |" items)"|] == NatToString(n);
    DigitsValueOfNatToString(n);
  }

  /* ---------------------------------------------------------------------------------------- */
  /* The tool's trigger                                                                        */

  function RssKeywords(): seq<string> {
    ["rss", "feed", "subscribe", "news", "updates", "monitor"]
  }

  /** Words that, next to "http", mark a feed address. */
  function FeedUrlTerms(): seq<string> {
    ["rss", "feed", "atom", "xml"]
  }

  /** `RSSReaderTool.func_message`: whether the tool is offered for a message. */
  function RssFuncMessage(text: string): (offered: bool)
    ensures offered <==> (ContainsAny(Lower(text), RssKeywords()) ||
                          (Contains(Lower(text), "http") && ContainsAny(Lower(text), FeedUrlTerms())))
  {
    var lower := Lower(text);
    if ScanKeywords(lower, RssKeywords()) then true
    else Contains(lower, "http") && ScanKeywords(lower, FeedUrlTerms())
  }

  /**
   * "rss" and "feed" are keywords already, so the address test only adds messages holding
   * "http" together with "atom" or "xml".
   */
  lemma RssFuncMessageReduced(text: string)
    ensures var lower := Lower(text);
      RssFuncMessage(text) <==> (ContainsAny(lower, RssKeywords()) ||
                                 (Contains(lower, "http") && (Contains(lower, "atom") || Contains(lower, "xml"))))
  {
    var lower := Lower(text);
    var terms := FeedUrlTerms();
    if ContainsAny(lower, terms) {
      var k :| 0 <= k < |terms| && Contains(lower, terms[k]);
      if k < 2 {
        assert RssKeywords()[k] == terms[k];
      } else if k == 2 {
        assert Contains(lower, "atom");
      } else {
        assert Contains(lower, "xml");
      }
    }
    if Contains(lower, "atom") {
      assert Contains(lower, terms[2]);
    }
    if Contains(lower, "xml") {
      assert Contains(lower, terms[3]);
    }
  }
}

=== FILE: strings.dfy ===
/**
 * The handful of Python `str` operations the plugins and the history store rely on:
 * whitespace as `str.isspace()` sees it, `strip()`, `lower()` (ASCII letters only),
 * substring tests (`in`), `split(sep)` and `sep.join(...)`, and decimal rendering of counts.
 */
module Strings {
  import opened Lists

  /** Python's `str.isspace()`: the characters `strip()` removes and the regex class `\s` matches. */
  predicate IsSpace(c: char) {
    || c == ' '
    || ('\t' <= c <= '\r')
    || ('\U{1C}' <= c <= '\U{1F}')
    || c == '\U{85}' || c == '\U{A0}' || c == '\U{1680}'
    || ('\U{2000}' <= c <= '\U{200A}')
    || c == '\U{2028}' || c == '\U{2029}' || c == '\U{202F}' || c == '\U{205F}' || c == '\U{3000}'
  }

  predicate AllSpace(s: string) {
    forall i :: 0 <= i < |s| ==> IsSpace(s[i])
  }

  /** The separators the chunker appends are whitespace. */
  lemma SpaceLiterals()
    ensures AllSpace(" ") && AllSpace("\n\n")
  {
    assert IsSpace(' ') && IsSpace('\n');
  }

  /** A string with no leading and no trailing whitespace, as `strip()` leaves it. */
  predicate Stripped(s: string) {
    s == [] || (!IsSpace(s[0]) && !IsSpace(s[|s| - 1]))
  }

  /** `s.rstrip()` */
  function RStrip(s: string): (r: string)
    ensures |r| <= |s| && r == s[..|r|]
    ensures AllSpace(s[|r|..])
    ensures r == [] || !IsSpace(r[|r| - 1])
  {
    if |s| > 0 && IsSpace(s[|s| - 1]) then
      var init := s[..|s| - 1];
      var r := RStrip(init);
      assert init[..|r|] == s[..|r|];
      assert forall k :: |r| <= k < |s| - 1 ==> s[k] == init[|r|..][k - |r|];
      r
    else s
  }

  /** `s.lstrip()` */
  function LStrip(s: string): (r: string)
    ensures |r| <= |s| && r == s[|s| - |r|..]
    ensures AllSpace(s[..|s| - |r|])
    ensures r == [] || !IsSpace(r[0])
  {
    if |s| > 0 && IsSpace(s[0]) then
      var tail := s[1..];
      var r := LStrip(tail);
      assert tail[|tail| - |r|..] == s[|s| - |r|..];
      assert forall k :: 1 <= k < |s| - |r| ==> s[k] == tail[..|tail| - |r|][k - 1];
      r
    else s
  }

  /** `s.strip()`: what is left is stripped and no longer than `s` (see `StripShape`). */
  function Strip(s: string): (r: string)
    ensures Stripped(r)
    ensures |r| <= |s|
  {
    LStrip(RStrip(s))
  }

  /** `s.strip()` is `s` minus whitespace at both ends. */
  lemma StripShape(s: string) returns (i: nat, j: nat)
    ensures i <= j <= |s| && Strip(s) == s[i..j] && AllSpace(s[..i]) && AllSpace(s[j..])
  {
    var t := RStrip(s);
    var r := LStrip(t);
    i, j := |t| - |r|, |t|;
    assert r == s[i..j];
    assert AllSpace(s[..i]) by {
      assert s[..i] == t[..i];
    }
  }

  /** The characters of `s` that are not whitespace, in order. */
  function RemoveSpace(s: string): (r: string)
    ensures |r| <= |s|
  {
    if s == [] then [] else (if IsSpace(s[0]) then [] else [s[0]]) + RemoveSpace(s[1..])
  }

  lemma {:induction false} RemoveSpaceConcat(a: string, b: string)
    ensures RemoveSpace(a + b) == RemoveSpace(a) + RemoveSpace(b)
  {
    if a != [] {
      assert (a + b)[1..] == a[1..] + b;
      RemoveSpaceConcat(a[1..], b);
    } else {
      assert a + b == b;
    }
  }

  lemma {:induction false} RemoveSpaceOfSpace(w: string)
    requires AllSpace(w)
    ensures RemoveSpace(w) == []
  {
    if w != [] {
      RemoveSpaceOfSpace(w[1..]);
    }
  }

  /** Stripping removes only whitespace. */
  lemma RemoveSpaceStrip(s: string)
    ensures RemoveSpace(Strip(s)) == RemoveSpace(s)
  {
    var i, j := StripShape(s);
    var a, r, b := s[..i], s[i..j], s[j..];
    Cut3(s, i, j);
    RemoveSpaceOfSpace(a);
    RemoveSpaceOfSpace(b);
    RemoveSpaceConcat(a, r);
    RemoveSpaceConcat(a + r, b);
  }

  lemma {:induction false} RStripSpaceSuffix(a: string, w: string)
    requires AllSpace(w)
    ensures RStrip(a + w) == RStrip(a)
    decreases |w|
  {
    if w == [] {
      assert a + w == a;
    } else {
      assert (a + w)[..|a + w| - 1] == a + w[..|w| - 1];
      RStripSpaceSuffix(a, w[..|w| - 1]);
    }
  }

  /** Trailing whitespace makes no difference to `strip()`. */
  lemma StripSpaceSuffix(a: string, w: string)
    requires AllSpace(w)
    ensures Strip(a + w) == Strip(a)
    ensures |Strip(a + w)| <= |a|
  {
    RStripSpaceSuffix(a, w);
  }

  /** ASCII case folding, as `str.lower()` does on ASCII letters. */
  function LowerChar(c: char): (d: char)
    ensures 'A' <= c <= 'Z' ==> d as int == c as int + 32
    ensures !('A' <= c <= 'Z') ==> d == c
  {
    if 'A' <= c <= 'Z' then (c as int + 32) as char else c
  }

  /** `str.lower()`: no upper-case ASCII letter is left, and every other character stays. */
  function Lower(s: string): (r: string)
    ensures |r| == |s|
    ensures forall i :: 0 <= i < |s| ==> r[i] == LowerChar(s[i])
    ensures forall i :: 0 <= i < |r| ==> !('A' <= r[i] <= 'Z')
    ensures forall i :: 0 <= i < |s| && !('A' <= s[i] <= 'Z') ==> r[i] == s[i]
  {
    seq(|s|, i requires 0 <= i < |s| => LowerChar(s[i]))
  }

  /** Lower-casing twice is lower-casing once. */
  lemma LowerIdempotent(s: string)
    ensures Lower(Lower(s)) == Lower(s)
  {
    var once := Lower(s);
    assert forall i :: 0 <= i < |once| ==> Lower(once)[i] == once[i];
  }

  /** An occurrence of `sub` in `s` is an occurrence of `sub.lower()` in `s.lower()`, at the same place. */
  lemma LowerKeepsOccurrence(s: string, sub: string, i: int)
    requires OccursAt(s, sub, i)
    ensures OccursAt(Lower(s), Lower(sub), i)
  {
    forall j | 0 <= j < |sub|
      ensures Lower(s)[i..i + |sub|][j] == Lower(sub)[j]
    {
      assert s[i + j] == s[i..i + |sub|][j] == sub[j];
    }
  }

  predicate OccursAt(s: string, sub: string, i: int) {
    0 <= i && i + |sub| <= |s| && s[i..i + |sub|] == sub
  }

  /** Python's `sub in s`. */
  predicate Contains(s: string, sub: string) {
    exists i :: 0 <= i <= |s| && OccursAt(s, sub, i)
  }

  lemma ContainsWitness(s: string, sub: string, i: int)
    requires OccursAt(s, sub, i)
    ensures Contains(s, sub)
  {
  }

  /** Some keyword of `kws` occurs in `s`. */
  predicate ContainsAny(s: string, kws: seq<string>) {
    exists k :: 0 <= k < |kws| && Contains(s, kws[k])
  }

  /** `(d + 48) as char`: the ASCII digit of `d`. */
  function DigitChar(d: nat): (c: char)
    requires d < 10
    ensures '0' <= c <= '9'
  {
    (d + 48) as char
  }

  predicate IsDigit(c: char) {
    '0' <= c <= '9'
  }

  function DigitValue(c: char): (d: nat)
    ensures d < 10
    ensures IsDigit(c) ==> DigitChar(d) == c
  {
    if IsDigit(c) then c as int - 48 else 0
  }

  /** `str(n)` for a natural number: decimal, most significant digit first, no leading zero. */
  function NatToString(n: nat): (r: string)
    ensures |r| > 0
    ensures forall i :: 0 <= i < |r| ==> IsDigit(r[i])
    ensures |r| > 1 ==> r[0] != '0'
  {
    if n < 10 then [DigitChar(n)] else NatToString(n / 10) + [DigitChar(n % 10)]
  }

  /** The value of a string of decimal digits. */
  function DigitsValue(s: string): nat {
    if s == [] then 0 else DigitsValue(s[..|s| - 1]) * 10 + DigitValue(s[|s| - 1])
  }

  lemma {:induction false} DigitsValueOfNatToString(n: nat)
    ensures DigitsValue(NatToString(n)) == n
  {
    var r := NatToString(n);
    if n >= 10 {
      DigitsValueOfNatToString(n / 10);
      assert r[..|r| - 1] == NatToString(n / 10);
    }
  }

  /** A canonical digit string (no leading zero) is the rendering of its value. */
  lemma {:induction false} NatToStringOfDigitsValue(s: string)
    requires |s| > 0 && forall i :: 0 <= i < |s| ==> IsDigit(s[i])
    requires |s| > 1 ==> s[0] != '0'
    ensures NatToString(DigitsValue(s)) == s
    decreases |s|
  {
    var p := s[..|s| - 1];
    if |s| == 1 {
      assert DigitsValue(s) == DigitValue(s[0]);
    } else {
      NatToStringOfDigitsValue(p);
      if |p| == 1 {
        assert DigitsValue(p) == DigitValue(p[0]) >= 1;
      } else {
        assert DigitsValue(p) >= 10;
      }
      var n := DigitsValue(s);
      assert n / 10 == DigitsValue(p) && n % 10 == DigitValue(s[|s| - 1]);
      assert s == p + [s[|s| - 1]];
    }
  }

  /** The first index at which `sep` occurs in `s`, if any (`s.find(sep)`). */
  function Find(s: string, sep: string): (r: int)
    requires |sep| > 0
    ensures -1 <= r
    ensures r >= 0 ==> OccursAt(s, sep, r)
    ensures forall i :: 0 <= i < r || (r < 0 && 0 <= i) ==> !OccursAt(s, sep, i)
    decreases |s|
  {
    if |s| < |sep| then -1
    else if s[..|sep|] == sep then 0
    else
      var k := Find(s[1..], sep);
      assert forall i :: 1 <= i && OccursAt(s, sep, i) ==> OccursAt(s[1..], sep, i - 1) by {
        forall i | 1 <= i && OccursAt(s, sep, i) ensures OccursAt(s[1..], sep, i - 1) {
          assert s[1..][i - 1..i - 1 + |sep|] == s[i..i + |sep|];
        }
      }
      if k < 0 then -1
      else
        assert s[1..][k..k + |sep|] == s[k + 1..k + 1 + |sep|];
        k + 1
  }

  /** `s.split(sep)`: the pieces between non-overlapping occurrences of `sep`, left to right. */
  function SplitOn(s: string, sep: string): (parts: seq<string>)
    requires |sep| > 0
    ensures |parts| > 0
    decreases |s|
  {
    var i := Find(s, sep);
    if i < 0 then [s] else [s[..i]] + SplitOn(s[i + |sep|..], sep)
  }

  /** `sep.join(parts)` */
  function Join(parts: seq<string>, sep: string): string {
    if parts == [] then []
    else if |parts| == 1 then parts[0]
    else parts[0] + sep + Join(parts[1..], sep)
  }

  /** `"".join(parts)`, and in general the concatenation of a list of lists. */
  function Concat<T>(parts: seq<seq<T>>): seq<T> {
    if parts == [] then [] else Concat(parts[..|parts| - 1]) + parts[|parts| - 1]
  }

  /** Splitting and joining on the same separator gives the string back. */
  lemma {:induction false} JoinSplitOn(s: string, sep: string)
    requires |sep| > 0
    ensures Join(SplitOn(s, sep), sep) == s
    decreases |s|
  {
    var i := Find(s, sep);
    if i >= 0 {
      var rest := s[i + |sep|..];
      JoinSplitOn(rest, sep);
      assert s == s[..i] + sep + rest;
    }
  }

  /** Joining on a whitespace separator adds no non-whitespace character. */
  lemma {:induction false} RemoveSpaceJoin(parts: seq<string>, sep: string)
    requires AllSpace(sep)
    ensures RemoveSpace(Join(parts, sep)) == RemoveSpace(Concat(parts))
  {
    if |parts| == 1 {
      assert parts[..0] == [];
      assert Concat(parts) == parts[0];
      assert Join(parts, sep) == parts[0];
    } else if |parts| > 1 {
      RemoveSpaceJoin(parts[1..], sep);
      RemoveSpaceConcat(parts[0] + sep, Join(parts[1..], sep));
      RemoveSpaceConcat(parts[0], sep);
      RemoveSpaceOfSpace(sep);
      ConcatCons(parts[0], parts[1..]);
      assert [parts[0]] + parts[1..] == parts;
      RemoveSpaceConcat(parts[0], Concat(parts[1..]));
    }
  }

  lemma {:induction false} ConcatCons<T>(x: seq<T>, xs: seq<seq<T>>)
    ensures Concat([x] + xs) == x + Concat(xs)
    decreases |xs|
  {
    if xs == [] {
      assert [x] + xs == [x];
      assert Concat([x]) == Concat([]) + x;
    } else {
      var ys := xs[..|xs| - 1];
      ConcatCons(x, ys);
      assert ([x] + xs)[..|xs|] == [x] + ys;
    }
  }

  lemma ConcatSnoc<T>(xs: seq<seq<T>>, x: seq<T>)
    ensures Concat(xs + [x]) == Concat(xs) + x
  {
    assert (xs + [x])[..|xs|] == xs;
  }

  /** The `for keyword in keywords: if keyword in s: ...` scan, keyword by keyword. */
  function ScanKeywords(s: string, kws: seq<string>): (found: bool)
    ensures found <==> ContainsAny(s, kws)
  {
    if kws == [] then false
    else if Contains(s, kws[0]) then true
    else
      var rest := ScanKeywords(s, kws[1..]);
      assert ContainsAny(s, kws[1..]) <==> ContainsAny(s, kws) by {
        if ContainsAny(s, kws) {
          var k :| 0 <= k < |kws| && Contains(s, kws[k]);
          assert k > 0 && kws[1..][k - 1] == kws[k];
        }
        if ContainsAny(s, kws[1..]) {
          var k :| 0 <= k < |kws[1..]| && Contains(s, kws[1..][k]);
          assert kws[k + 1] == kws[1..][k];
        }
      }
      rest
  }

  /** Stripping is idempotent. */
  lemma StripOfStripped(s: string)
    requires Stripped(s)
    ensures Strip(s) == s
  {
  }

  lemma {:induction false} ConcatAppend<T>(xs: seq<seq<T>>, ys: seq<seq<T>>)
    ensures Concat(xs + ys) == Concat(xs) + Concat(ys)
    decreases |ys|
  {
    if ys == [] {
      assert xs + ys == xs;
    } else {
      var init := ys[..|ys| - 1];
      ConcatAppend(xs, init);
      assert (xs + ys)[..|xs + ys| - 1] == xs + init;
    }
  }

  lemma ConcatOne<T>(x: seq<T>)
    ensures Concat([x]) == x
  {
    assert [x][..0] == [];
    assert Concat([x]) == Concat([]) + x;
  }

  /** Cutting out a whitespace run keeps every other character. */
  lemma RemoveSpaceCut(s: string, i: nat, j: nat)
    requires i <= j <= |s| && AllSpace(s[i..j])
    ensures RemoveSpace(s) == RemoveSpace(s[..i]) + RemoveSpace(s[j..])
  {
    var a, w, b := s[..i], s[i..j], s[j..];
    Cut3(s, i, j);
    RemoveSpaceOfSpace(w);
    RemoveSpaceConcat(a, w);
    RemoveSpaceConcat(a + w, b);
  }

  /** Splitting on a one-character separator undoes `Join` when no part holds that character. */
  lemma {:induction false} SplitOnJoin(parts: seq<string>, c: char)
    requires |parts| > 0
    requires forall k :: 0 <= k < |parts| ==> c !in parts[k]
    ensures SplitOn(Join(parts, [c]), [c]) == parts
    decreases |parts|
  {
    var s, p := Join(parts, [c]), parts[0];
    assert forall i :: 0 <= i < |p| ==> !OccursAt(s, [c], i) by {
      forall i | 0 <= i < |p|
        ensures !OccursAt(s, [c], i)
      {
        assert s[i] == p[i];
        if i + 1 <= |s| {
          assert s[i..i + 1][0] == s[i];
        }
      }
    }
    if |parts| == 1 {
      assert s == p;
    } else {
      var rest := Join(parts[1..], [c]);
      assert s == p + [c] + rest;
      assert OccursAt(s, [c], |p|) by {
        assert s[|p|..|p| + 1] == [c];
      }
      assert Find(s, [c]) == |p|;
      assert s[..|p|] == p && s[|p| + 1..] == rest;
      SplitOnJoin(parts[1..], c);
    }
  }
}

=== FILE: wrappers.dfy ===
/** The optional value used wherever the source returns `None` or reads a missing key. */
module Wrappers {

  datatype Option<+T> = None | Some(value: T) {

    /** The value, or `default` when absent (Python's `x if x is not None else default`). */
    function GetOr(default: T): T {
      match this
      case Some(v) => v
      case None => default
    }
  }

  /** Python truthiness of an optional string or list: present and non-empty. */
  predicate Truthy<T>(o: Option<seq<T>>) {
    o.Some? && o.value != []
  }

  /** Python's `a or b` on optional strings or lists: `a` when truthy, else `b`. */
  function OrElse<T>(a: Option<seq<T>>, b: Option<seq<T>>): (r: Option<seq<T>>)
    ensures Truthy(r) <==> Truthy(a) || Truthy(b)
    ensures Truthy(a) ==> r == a
    ensures !Truthy(a) ==> r == b
  {
    if Truthy(a) then a else b
  }
}
